=== FILE: README.md ===
# level: stock screening and the chat agent, modelled in Dafny

This project models the core of two services in one repository.

**The turtle stock service.**
- It keeps a local SQLite store of index memberships (CSI 300 / CSI 500)
  and daily bars. A retrying acquisition layer fills the store from a
  market-data provider.
- It screens the stored stocks for a golden cross: either the 5-day SMA
  crossing above the 10-day SMA, or the MACD line crossing above its
  signal line. Selected stocks are back-tested and the profitable ones are
  reported.
- It serves an SMA back-test endpoint and an MCP-style tool dispatcher.
- It runs a daily refresh loop at 02:00.

**The KitAgent chat agent.**
- Clients talk to it over a WebSocket connection that walks a four-state
  session machine: auth, then register, then chat.
- The chat service keeps bounded per-device histories and validates API
  keys.
- An intent classifier uses a language model when one is configured and
  first-match keyword rules otherwise.
- A dispatcher runs the workflow mapped to the classified intent. The
  music and device-control (function-call) workflows parse commands by
  keyword.

**How the model is built.**
- Everything is a pure function over immutable values. SQL tables are
  maps keyed by their primary key, and the provider's responses are
  functions of the attempt number.
- The language model, the back-test simulator, the chat, search and
  reasoning workflows, and the audio store are function-typed parameters.
- Dates are `YYYY-MM-DD` strings compared lexicographically, as SQLite
  compares them.

| file | module | what it holds |
|---|---|---|
| `wrappers.dfy` | `Wrappers` | `Option`, `Result`, `Outcome` |
| `lex_order.dfy` | `LexOrder` | lexicographic string order, least/greatest of a set, sorting a set |
| `text.dfy` | `Text` | substring search, `str.replace`, `str.strip`, `str.split` / `join` |
| `keywords.dfy` | `Keywords` | keyword groups and first-match rule lists |
| `main_board_checker.dfy` | `MainBoardChecker` | board of a stock code by prefix |
| `indicators.dfy` | `Indicators` | rolling mean, EWM, MACD, cross flags |
| `bar_store.dfy` | `BarStore` | the `index_stocks` and `stock_daily_data` tables |
| `retry.dfy` | `Retry` | `retry_on_failure` |
| `acquisition.dfy` | `Acquisition` | provider fetches, bulk refresh, index refresh |
| `screening.dfy` | `Screening` | cross detection, back-test filter, the two searches |
| `stock_router.dfy` | `StockRouter` | SMA back-test endpoint, rounding, MCP tool call |
| `daily_refresh.dfy` | `DailyRefresh` | the 02:00 loop as a trace of actions |
| `chat_state_machine.dfy` | `ChatStateMachine` | the per-connection session machine |
| `chat_history.dfy` | `ChatHistory` | histories, API keys, conversation context |
| `intents.dfy` | `IntentClassifier` | intents, the rule classifier, the model path |
| `workflows.dfy` | `Workflows` | function-call and music workflows |
| `agent_service.dfy` | `AgentService` | dispatch, error reply, the task table |
| `websocket_agent.dfy` | `WebSocketAgent` | frame handling of one connection |

## Model

| member | source | states |
|---|---|---|
| MainBoardChecker.Segment | turtle/app/utils/main_board_checker.py:4 | taking the part after the dot fails exactly when the code has no dot |
| MainBoardChecker.StockBoard | turtle/app/utils/main_board_checker.py:3-13 | classification raises (IndexError) exactly when the code has no dot |
| MainBoardChecker.IsMainBoard | turtle/app/utils/main_board_checker.py:15-17 | raises exactly when the code has no dot; otherwise true iff the board is Shanghai or Shenzhen main board |
| MainBoardChecker.BoardIsPrefixLookup | turtle/app/utils/main_board_checker.py:5-13 | the if-chain on prefixes equals a lookup in the independent prefix table (688/689 star, 300 ChiNext, 600/601/603/605 Shanghai main, 000/001/002 Shenzhen main, else unknown) |
| MainBoardChecker.TagIgnored | turtle/app/utils/main_board_checker.py:4 | the exchange tag before the dot never affects the board |
| MainBoardChecker.MainBoardIffMainPrefix | turtle/app/utils/main_board_checker.py:9-17 | a dotted code is main board iff its segment starts with one of the seven main-board prefixes |
| MainBoardChecker.ExampleBoard | turtle/app/utils/main_board_checker.py:5-13 | any sh/sz six-digit code gets the board its prefix table entry names |
| MainBoardChecker.Prefix301IsUnknown | turtle/app/utils/main_board_checker.py:7-13 | a 301 code is neither ChiNext nor main board, since only 300 is listed |
| MainBoardChecker.StarExample | turtle/app/utils/main_board_checker.py:5-6 | sh.688001 is on the star market |
| MainBoardChecker.MainBoardExample | turtle/app/utils/main_board_checker.py:15-17 | sh.600000 is main board |
| MainBoardChecker.UndottedCodeRaises | turtle/app/utils/main_board_checker.py:4 | a code without an exchange tag raises IndexError |
| MainBoardChecker.LabelsDistinct | turtle/app/utils/main_board_checker.py:3-13 | the five board labels are the source's strings and tell boards apart |
| Indicators.RollingMean | turtle/app/services/search_gold.py:72-74 | the sliding-window loop computes the same series as the defining mean over each full window, undefined before it |
| Indicators.EmaStep | turtle/app/services/search_macd_gold.py:77-78 | after the first row every EWM value is alpha times the close plus (1 - alpha) times the previous value |
| Indicators.EwmMean | turtle/app/services/search_macd_gold.py:77-78 | the loop computes the recursive EWM with alpha = 2 / (span + 1), one value per row |
| Indicators.EmaWithinRange | turtle/app/services/search_macd_gold.py:77-78 | an EWM value lies between the least and the greatest close |
| Indicators.ConstantEma | turtle/app/services/search_macd_gold.py:77-78 | the EWM of a constant series is that constant |
| Indicators.MacdStartsAtZero | turtle/app/services/search_macd_gold.py:81-87 | MACD, signal and histogram are all zero on the first row |
| Indicators.ConstantMacdIsZero | turtle/app/services/search_macd_gold.py:73-89 | a constant series has zero MACD and zero signal on every row |
| Indicators.NoSmaCrossBeforeRow10 | turtle/app/services/search_gold.py:77-87 | an SMA cross can only be flagged from row 10 on, because both windows and the previous row must be defined |
| Indicators.ShortSeriesHasNoSmaCross | turtle/app/services/search_gold.py:77-87 | ten rows or fewer never show an SMA cross |
| Indicators.RowZeroNeverCrosses | turtle/app/services/search_gold.py:83-86 | the first row is never a cross of either kind, since its shifted predecessor is missing |
| Indicators.ConstantSeriesHasNoSmaCross | turtle/app/services/search_gold.py:77-87 | a flat series never flags an SMA cross |
| Indicators.ConstantSeriesHasNoMacdCross | turtle/app/services/search_macd_gold.py:92-100 | a flat series never flags a MACD cross |
| Indicators.MacdCanCrossAtRow1 | turtle/app/services/search_macd_gold.py:96-99 | unlike SMA, a MACD cross can fire on the second row (0.0 then 1.0) |
| Screening.LastTrue | turtle/app/services/search_gold.py:135-141 | the index found is a flagged row with no flagged row after it; none exactly when no row is flagged |
| Screening.ILocFromEnd | turtle/app/services/search_gold.py:144 | `iloc[-d]` is row n - d for 1 <= d <= n and raises for d > n |
| Screening.RowWindow | turtle/app/services/search_gold.py:141-147 | a stock is selected iff it has a cross whose row is among the last d rows; it raises iff it has a cross but fewer than d rows; the hit carries the cross row's date |
| Screening.SelectionIsRowWindow | turtle/app/services/search_gold.py:111-147 | the same characterisation, for a stock read from the store over the date range |
| Screening.DetectAppend | turtle/app/services/search_gold.py:111-149 | detecting over a concatenated list yields the two results concatenated, or the first failure |
| Screening.DetectSingle | turtle/app/services/search_gold.py:111-147 | over one stock, detection returns nothing, the hit, or the raise of that stock's decision |
| Screening.DetectKeepsOnlyCrossedStocks | turtle/app/services/search_gold.py:115-147 | every reported hit is the selection of some listed stock |
| Screening.DetectFailsIffSomeRaise | turtle/app/services/search_macd_gold.py:161 | a detection run fails iff some stock's lookback raises, since neither version catches per stock |
| Screening.SelectedHit | turtle/app/services/search_gold.py:145-147 | a selected stock has a code, and the hit carries that code and its name |
| Screening.SelectedMeansCrossed | turtle/app/services/search_gold.py:115-144 | a selected stock has stored rows in range, and one of them shows a cross |
| Screening.SmaDecisionNeverRaises | turtle/app/services/search_gold.py:176 | with `detect_days = 3` the SMA screen never raises, since a cross needs at least eleven rows |
| Screening.SmaDetectSucceeds | turtle/app/services/search_gold.py:176 | so the SMA detection run always succeeds |
| Screening.DecideClamped | turtle/app/services/search_macd_gold.py:158-161 | the intended lookback over min(d, n) rows never raises, and agrees with the source wherever the source does not raise |
| Screening.ClampedDetectSucceeds | turtle/app/services/search_macd_gold.py:155-163 | with the intended lookback detection always succeeds, with the source's frame whenever the source succeeds |
| Screening.MacdShortCrossedSeriesRaises | turtle/app/services/search_macd_gold.py:158-161 | a MACD stock with a cross but fewer than 7 rows makes the 7-day lookback raise |
| Screening.Backtests | turtle/app/services/search_macd_gold.py:203-234 | every kept row passes the profit thresholds and comes from a hit; in the MACD search it is also main board; a failure is a raising back-test or, in MACD, an undotted code |
| Screening.BacktestsFailIffSomeRaise | turtle/app/services/search_gold.py:186-214 | the back-test loop fails iff some hit raises: an undotted code (MACD), or a simulator raise on a stock with rows |
| Screening.ReportedStocksQualify | turtle/app/services/search_macd_gold.py:182-234 | every reported stock is a member of a searched index, is profitable, and (MACD) is main board |
| Screening.MembersOfSearch | turtle/app/services/search_gold.py:165-213 | every row reported for an index is a member of that index |
| Screening.SmaSearchSucceeds | turtle/app/services/search_gold.py:165-221 | the SMA search fails only through a raising back-test, and always succeeds when the simulator never raises |
| Screening.EmailedStocksQualify | turtle/app/services/search_gold.py:35-37 | the e-mail is the no-results paragraph iff no stock qualified; otherwise every stock in its table is a profitable member of a searched index, main board for MACD |
| StockRouter.ResolvedWithinBounds | turtle/app/routers/stock.py:135-137 | a request that passes validation resolves to parameters within the declared bounds |
| StockRouter.RoundHalfEven | turtle/app/routers/stock.py:655-657 | the integer is within 0.5 of the value, integers are kept, and ties go to the even neighbour |
| StockRouter.Round | turtle/app/routers/stock.py:655-657 | the result lies on the 10^-digits grid, within half a step of the input, and grid values are unchanged |
| StockRouter.SmaBacktest | turtle/app/routers/stock.py:588-668 | an invalid request is 422; a response means valid input, at least 10 rows, sma1 < sma2 and the simulator's figures rounded to 2 and 4 places; sma1 >= sma2 is 400 and a raising simulator 500 |
| StockRouter.BacktestSucceedsIff | turtle/app/routers/stock.py:599-641 | the endpoint answers iff the request is valid, data exists with at least 10 rows, sma1 < sma2 and the back-test runs |
| StockRouter.ShortSeriesWinsOverBadParams | turtle/app/routers/stock.py:615-631 | too little data is reported (400) before the SMA ordering is checked |
| StockRouter.NoDataIsNotFound | turtle/app/routers/stock.py:599-612 | a failed or empty fetch is 404 |
| StockRouter.DefaultsApplied | turtle/app/routers/stock.py:622-657 | with no parameters the response uses 5/10/21 and rounds profit to 2 and ratios to 4 places |
| StockRouter.Sma1AtDefaultSma2Refused | turtle/app/routers/stock.py:622-631 | sma1 = 10 against the default sma2 = 10 is refused with 400 |
| StockRouter.Dispatch | turtle/app/routers/stock.py:425-467 | a tool call is accepted iff it names one of the three tools and, for stock data, carries all three arguments; each name reaches its own tool, stock data with exactly those arguments; a refusal is the missing-arguments text or the unknown-tool text naming the tool |
| StockRouter.CallMcpTool | turtle/app/routers/stock.py:419-473 | the response is flagged as an error iff dispatch fails or the tool raised; its text is the refusal text, the tool's own text, or "调用工具失败：" followed by the raised message |
| StockRouter.DispatchRoundTrip | turtle/app/routers/stock.py:423-454 | each tool's own request (its name, plus the three arguments for stock data) dispatches back to that tool |
| StockRouter.DispatchIgnoresExtraArguments | turtle/app/routers/stock.py:423-434 | arguments beyond the three read do not change where an accepted request goes |
| StockRouter.MissingArgumentIsError | turtle/app/routers/stock.py:426-430 | missing stock-data arguments give the fixed error, whatever the tools would do |
| StockRouter.UnknownToolIsError | turtle/app/routers/stock.py:463-467 | an unknown tool name gives the unknown-tool error naming it |
| DailyRefresh.SecondsUntilTrigger | turtle/app/routers/stock.py:69-76 | the wait is positive and at most a day, and a full day exactly at 02:00:00 |
| DailyRefresh.WaitEndsOnNextTrigger | turtle/app/routers/stock.py:69-76 | the wait ends at today's or tomorrow's 02:00, and no later than any 02:00 still ahead |
| DailyRefresh.OneCoolDownPerFailure | turtle/app/routers/stock.py:87-92 | the loop sleeps one hour once per failed round and at no other time |
| DailyRefresh.RoundOrder | turtle/app/routers/stock.py:83-85 | within a round, index memberships are fetched before daily bars |
| DailyRefresh.MembershipBeforeBars | turtle/app/routers/stock.py:66-92 | across the whole loop, every bar refresh comes directly after a membership refresh |
| DailyRefresh.CancellationEndsLoop | turtle/app/routers/stock.py:87-88 | after a cancelled round nothing else happens |
| DailyRefresh.WaitsBounded | turtle/app/routers/stock.py:66-79 | every wait in the trace lasts at most one day |
| Retry.FirstOk | turtle/app/services/background_tasks.py:39-43 | the attempt found succeeded and all before it failed; none means every attempt failed |
| Retry.CallsMade | turtle/app/services/background_tasks.py:39-51 | between 1 and max_retries calls are made (none when max_retries <= 0) |
| Retry.Backoff | turtle/app/services/background_tasks.py:44-47 | one sleep per retry, each longer than the one before when the delay is positive |
| Retry.RetryOnFailure | turtle/app/services/background_tasks.py:25-51 | the loop returns the first success or re-raises the last error, making exactly the calls and sleeps the specification says |
| Retry.BackoffTotal | turtle/app/services/background_tasks.py:45 | the total sleep after n failures is delay * n(n+1)/2: linear growth per retry, not exponential |
| Retry.DefaultExhaustion | turtle/app/services/background_tasks.py:21-51 | with the defaults, a call that always fails is tried 3 times, sleeps 2s then 4s, and re-raises the third error |
| Acquisition.FetchStockDailyData | turtle/app/services/background_tasks.py:127-155 | data comes back iff some attempt succeeds, and it is the first successful attempt's data; a shared session skips login |
| Acquisition.FetchAndSaveStockData | turtle/app/services/background_tasks.py:158-195 | the count is zero iff nothing was fetched (store unchanged); otherwise it is the row count and the rows are saved |
| Acquisition.FetchOne | turtle/app/services/background_tasks.py:264-267 | a stock's data is present iff some retry attempt succeeds, and it is the first success's data |
| Acquisition.FetchLoop | turtle/app/services/background_tasks.py:247-279 | the collected map holds only listed codes with non-empty data, in a duplicate-free order |
| Acquisition.FetchLoopKeys | turtle/app/services/background_tasks.py:269-278 | a code is collected iff its fetch at some position kept data |
| Acquisition.FetchLoopValues | turtle/app/services/background_tasks.py:269-275 | for distinct codes, each collected value is exactly that code's fetched data |
| Acquisition.SaveAll | turtle/app/services/background_tasks.py:286-287 | saving never drops a row and leaves codes that were not fetched unchanged |
| Acquisition.SaveAllStoresEach | turtle/app/services/background_tasks.py:286-287 | with distinct keys, every row of a saved code is what upserting that code's own batch gives: each batch is stored, and no other code's batch touches it |
| Acquisition.TotalIsSumOfFetches | turtle/app/services/background_tasks.py:289 | the reported total is the sum of the fetched row counts |
| Acquisition.BulkFetch | turtle/app/services/background_tasks.py:235-291 | the refresh stops at once on an empty membership table; otherwise it logs in once and makes one query per distinct stored code, the i-th over the loop's i-th window |
| Acquisition.BulkStoresFetched | turtle/app/services/background_tasks.py:247-287 | a member code whose fetch kept data has that data stored: its rows after the run are those of upserting the fetched batch |
| Acquisition.RefreshDailyData | turtle/app/services/background_tasks.py:313-358 | every stock is queried over the same date window |
| Acquisition.BulkTotal | turtle/app/services/background_tasks.py:286-291 | the bulk total counts exactly the fetched rows of every stored code |
| Acquisition.FailedCodeUntouched | turtle/app/services/background_tasks.py:269-287 | a code whose fetch failed keeps exactly its old rows |
| Acquisition.FetchAndSaveIndex | turtle/app/services/background_tasks.py:54-88 | nothing is fetched iff every attempt fails, and then the table is unchanged; otherwise the first successful attempt's list is saved and its size reported |
| Acquisition.IndexFetchesIndependent | turtle/app/services/background_tasks.py:207-214 | the combined refresh's CSI 300 rows are those of refreshing CSI 300 alone |
| Acquisition.FailedIndexKeepsRows | turtle/app/services/background_tasks.py:207-214 | if CSI 300 never fetches, its count is 0 and its stored rows are kept |
| Acquisition.CountIsRowsFetched | turtle/app/services/background_tasks.py:82-85 | the reported count is at least the number of stored members, since duplicate and code-less rows collapse |
| BarStore.IndexOf | turtle/app/services/database.py:99 | `fields.index(f)` is the first position holding f |
| BarStore.FirstPresent | turtle/app/services/database.py:102-113 | the column found is that of the first candidate present, none iff no candidate is present |
| BarStore.ResolveColumns | turtle/app/services/database.py:99-113 | code falls back to column 0; the name is code_name, then name, then stock_name; the date is updateDate, then date, then update_date |
| BarStore.LastRowFor | turtle/app/services/database.py:115-128 | the row kept for a code is its last stored row; none when no stored row has it |
| BarStore.DropType | turtle/app/services/database.py:91-94 | the delete removes exactly the rows of that index type |
| BarStore.InsertRows | turtle/app/services/database.py:115-128 | inserting never drops a row and never changes another index type |
| BarStore.SaveIndexStocks | turtle/app/services/database.py:78-130 | saving an index's members leaves every other index type as it was |
| BarStore.SaveIndexStocksContents | turtle/app/services/database.py:89-128 | after saving, a code is a member iff some stored row carries it, with the values of its last such row |
| BarStore.GetStockCount | turtle/app/services/database.py:173-181 | the count is the number of distinct member codes, zero iff the index has no members |
| BarStore.CountAfterSave | turtle/app/services/database.py:173-181 | after saving, the count is the number of distinct codes the list stored |
| BarStore.GetIndexStocks | turtle/app/services/database.py:133-150 | the listing holds each member of the index once, with its stored name and date, and nothing else |
| BarStore.AllStockCodes | turtle/app/services/database.py:184-191 | the distinct codes across all index types, each once |
| BarStore.GetStockName | turtle/app/services/database.py:153-170 | a name found is non-empty and stored for that code; an unknown code has none; a code whose every listing has a name always gets one |
| BarStore.LastRecordOn | turtle/app/services/database.py:237-254 | the bar kept for a date is the last one in the batch with that date |
| BarStore.SaveDailyData | turtle/app/services/database.py:226-256 | saving never drops a bar and never changes another stock's bars |
| BarStore.SaveDailyDataContents | turtle/app/services/database.py:237-254 | after saving, a (code, date) is stored iff it was or the batch has that date, holding the last batch values |
| BarStore.QueryBars | turtle/app/services/database.py:270-336 | the query returns exactly the stock's stored bars in the date range, in strictly ascending date order |
| BarStore.LastUpdateDate | turtle/app/services/database.py:259-267 | the result is the greatest stored date of the stock; none iff it has no non-empty date |
| BarStore.LastUpdateAfterSave | turtle/app/services/database.py:259-267 | after a save, the last update date is at least every saved date |
| LexOrder.Greatest | turtle/app/services/database.py:263 | `MAX(date)` is the greatest element of a non-empty set |
| LexOrder.Least | turtle/app/services/database.py:166 | the `LIMIT 1` choice is read as the least element of a non-empty set |
| LexOrder.Sorted | turtle/app/services/database.py:295 | `ORDER BY` yields the set's elements, each once, strictly ascending |
| Text.RemoveLeadingWord | agent/KitAgent/app/services/workflows/funcall_workflow.py:36 | replacing a word that occurs only at the front leaves the rest |
| Text.RemoveAllAbsent | agent/KitAgent/app/services/workflows/funcall_workflow.py:36 | replacing a word that does not occur changes nothing |
| Text.Split | agent/KitAgent/app/services/chat_service.py:94 | split yields at least one part, several iff the separator occurs, and no part contains it |
| Text.SplitJoinRoundTrip | agent/KitAgent/app/services/chat_service.py:94 | joining the parts of a split restores the string |
| Text.StripIsTrimmedSlice | agent/KitAgent/app/services/chat_service.py:94 | strip removes a whitespace prefix and suffix and nothing else, leaving no space at either end, and a string without spaces unchanged |
| Keywords.FirstMatch | agent/KitAgent/app/services/intent_classifier.py:173-202 | no label iff no rule's keywords occur |
| Keywords.FirstMatchIsEarliest | agent/KitAgent/app/services/intent_classifier.py:173-196 | the label found belongs to a rule that fires, and no earlier rule fires |
| IntentClassifier.ParseIntent | agent/KitAgent/app/services/intent_classifier.py:106-111 | a parsed intent has exactly that value; nothing parses a string no intent has |
| IntentClassifier.IntentValueRoundTrip | agent/KitAgent/app/models/intent.py:7-13 | parsing an intent's value gives the intent back |
| IntentClassifier.AsciiLower | agent/KitAgent/app/services/intent_classifier.py:106 | lowering maps A-Z to a-z and keeps every other character |
| IntentClassifier.RuleBasedClassify | agent/KitAgent/app/services/intent_classifier.py:151-202 | the confidence is 0.7 for chat and 0.8 for a keyword match |
| IntentClassifier.RuleBasedIsFirstMatch | agent/KitAgent/app/services/intent_classifier.py:163-202 | the intent is that of the first firing rule (search, reasoning, music, funcall), chat iff none fires |
| IntentClassifier.RuleBasedPriority | agent/KitAgent/app/services/intent_classifier.py:173-196 | a non-chat intent's rule fires, and no higher-priority rule does |
| IntentClassifier.WeatherQuestionIsSearch | agent/KitAgent/tests/test_workflows.py:24-25 | a weather question is search at 0.8 |
| IntentClassifier.CalculationIsReasoning | agent/KitAgent/tests/test_workflows.py:40-41 | a calculation is reasoning at 0.8 |
| IntentClassifier.PlayIsMusic | agent/KitAgent/tests/test_workflows.py:48-49 | a play request is music at 0.8 |
| IntentClassifier.OpenIsFuncall | agent/KitAgent/tests/test_workflows.py:56-57 | an open command is funcall at 0.8 |
| IntentClassifier.GreetingIsChat | agent/KitAgent/app/services/intent_classifier.py:197-202 | a bare greeting falls through to chat at 0.7 |
| IntentClassifier.FullInputSeesLastThree | agent/KitAgent/app/services/intent_classifier.py:81-89 | the model's prompt depends only on the last three history messages |
| IntentClassifier.NoContextNoPrefix | agent/KitAgent/app/services/intent_classifier.py:81-89 | without history the prompt is the input itself |
| IntentClassifier.Classify | agent/KitAgent/app/services/intent_classifier.py:65-131 | no model means the rules; a failed call is chat at 0.5; otherwise the lower-cased intent when it names one, chat when not, with the model's confidence or 0.5 |
| IntentClassifier.CapitalisedIntentAccepted | agent/KitAgent/app/services/intent_classifier.py:106-108 | the model's "MUSIC" is read as music |
| IntentClassifier.ModelConfidenceUnclamped | agent/KitAgent/app/services/intent_classifier.py:113-118 | a model confidence outside [0, 1] is passed through |
| ChatStateMachine.QueriesMatchFields | agent/KitAgent/app/services/chat_state_machine.py:29-35 | in a valid machine, authenticated iff a key is held and ready iff a device is, ready implying authenticated |
| ChatStateMachine.Authenticate | agent/KitAgent/app/services/chat_state_machine.py:37-51 | accepted iff in init; then the key is held and the machine is one step further on; a consistent machine stays consistent; refused means unchanged |
| ChatStateMachine.RegisterDevice | agent/KitAgent/app/services/chat_state_machine.py:53-67 | accepted iff authenticated; then the key is kept, the device held, one step further on; a consistent machine stays consistent; refused means unchanged |
| ChatStateMachine.StartChatting | agent/KitAgent/app/services/chat_state_machine.py:69-77 | accepted iff ready; then key and device are kept, one step further on; a consistent machine stays consistent; refused means unchanged |
| ChatStateMachine.Reset | agent/KitAgent/app/services/chat_state_machine.py:79-85 | from any state, back to the initial machine with no key and no device |
| ChatStateMachine.ApplyKeepsValid | agent/KitAgent/app/services/chat_state_machine.py:37-85 | every transition keeps state and stored fields consistent |
| ChatStateMachine.ReachableIsValid | agent/KitAgent/app/services/chat_state_machine.py:18-85 | every machine reachable from the initial one is consistent |
| ChatStateMachine.OnlyResetGoesBack | agent/KitAgent/app/services/chat_state_machine.py:37-77 | apart from reset, a transition stays put or advances one step, and chatting is final |
| ChatStateMachine.HandshakeReachesChatting | agent/KitAgent/app/services/chat_state_machine.py:37-77 | auth, register, start from init reaches chatting holding the key and device |
| ChatHistory.Last | agent/KitAgent/app/services/chat_service.py:57 | the result is the newest min(k, n) elements, in order |
| ChatHistory.PushKeepsNewest | agent/KitAgent/app/services/chat_service.py:22-41 | appending to a bounded deque keeps the newest maxlen messages |
| ChatHistory.PushAllKeepsNewest | agent/KitAgent/app/services/chat_service.py:22-41 | so does any sequence of appends |
| ChatHistory.NewHistory | agent/KitAgent/app/services/chat_service.py:12-24 | a new history is empty, bounded and for its device |
| ChatHistory.AddMessage | agent/KitAgent/app/services/chat_service.py:26-43 | adding keeps the newest max_history messages, and the history stays bounded |
| ChatHistory.GetHistory | agent/KitAgent/app/services/chat_service.py:45-58 | no limit or 0 gives everything, a positive limit the newest that many, a negative limit -n drops the first n messages, as Python's `[-limit:]` does |
| ChatHistory.ClearHistory | agent/KitAgent/app/services/chat_service.py:60-63 | clearing empties the messages and keeps device and bound |
| ChatHistory.LoadValidApiKeys | agent/KitAgent/app/services/chat_service.py:76-96 | no key is empty, and the configured key is valid iff non-empty |
| ChatHistory.ApiKeysRoundTrip | agent/KitAgent/app/services/chat_service.py:90-96 | a comma-joined list of clean keys loads back as exactly those keys |
| ChatHistory.ValidateApiKey | agent/KitAgent/app/services/chat_service.py:98-113 | an accepted key is non-empty unless the empty key is itself stored as valid |
| ChatHistory.ValidateAgainstSettings | agent/KitAgent/app/services/chat_service.py:83-108 | a key is accepted iff non-empty and equal to the configured key or to a stripped comma-separated entry; "" never passes |
| ChatHistory.RegisterDevice | agent/KitAgent/app/services/chat_service.py:115-131 | registering returns the device's history, creating an empty one only if none exists; other devices are untouched |
| ChatHistory.RegisterIdempotent | agent/KitAgent/app/services/chat_service.py:125-131 | registering twice is the same as once |
| ChatHistory.SaveMessage | agent/KitAgent/app/services/chat_service.py:145-159 | a message for a known device joins its bounded history; an unknown or missing device changes nothing |
| ChatHistory.DefaultContextIsNewestTen | agent/KitAgent/app/services/chat_service.py:161-178 | by default the context is the newest ten messages |
| ChatHistory.ClearDeviceHistory | agent/KitAgent/app/services/chat_service.py:180-190 | clearing empties one device's history and keeps the device registered |
| ChatHistory.RemoveDevice | agent/KitAgent/app/services/chat_service.py:192-201 | removing forgets exactly that device |
| ChatHistory.ClearThenRemoveDiffer | agent/KitAgent/app/services/chat_service.py:180-201 | after clearing, new messages are stored; after removing, they are dropped |
| AgentService.WorkflowMapCoversAllIntents | agent/KitAgent/app/services/agent_service.py:19-25 | every intent has a workflow, and it is the one that handles that intent |
| AgentService.DispatchMatchesIntent | agent/KitAgent/app/services/agent_service.py:57-64 | with the agent's map the workflow run handles the classified intent |
| AgentService.MissingIntentFallsBackToChat | agent/KitAgent/app/services/agent_service.py:61-64 | an unmapped intent is served by chat |
| AgentService.Process | agent/KitAgent/app/services/agent_service.py:53-93 | a raise gives the apology (unsuccessful, workflow "unknown"); otherwise the result carries the classified intent and confidence |
| AgentService.WorkflowSeesRequestContext | agent/KitAgent/app/services/agent_service.py:66-84 | the workflow gets the device, history, intent value and confidence, and its result comes back with the intent stamped on |
| AgentService.RaisingWorkflowGivesApology | agent/KitAgent/app/services/agent_service.py:86-93 | a raising workflow turns into the unsuccessful apology with its message |
| AgentService.LocalWorkflowsSucceed | agent/KitAgent/app/services/agent_service.py:76-84 | music and funcall requests always succeed and echo the query |
| AgentService.OpenLightEndToEnd | agent/KitAgent/app/services/agent_service.py:53-84 | without a model, "打开灯" is classified funcall and opens the light |
| AgentService.StartTask | agent/KitAgent/app/services/agent_service.py:108-111 | a started task is running with no result; other tasks are untouched |
| AgentService.TaskLifecycle | agent/KitAgent/app/services/agent_service.py:108-128 | a task reads running, then completed with the agent's result, and leaves other tasks alone |
| AgentService.UnknownTaskHasNoRecord | agent/KitAgent/app/services/agent_service.py:126-128 | an id never started has no record, even after a finish |
| Workflows.FuncallActionIsFirstMatch | agent/KitAgent/app/services/workflows/funcall_workflow.py:35-52 | the command is that of the first keyword group found (open, close, set, execute), unknown otherwise |
| Workflows.FuncallExecute | agent/KitAgent/app/services/workflows/funcall_workflow.py:26-61 | the result always succeeds, names the parsed action, and echoes the device and query |
| Workflows.SinglePassReplace | agent/KitAgent/app/services/workflows/funcall_workflow.py:36-37 | the keyword is removed in one left-to-right pass, so "打打开开" leaves "打开" |
| Workflows.OpenLight | agent/KitAgent/tests/test_workflows.py:185-194 | "打开灯" opens the light with reply "已打开：灯" |
| Workflows.CloseAirConditioner | agent/KitAgent/tests/test_workflows.py:197-203 | "关闭空调" closes the air conditioner |
| Workflows.ExecuteTask | agent/KitAgent/app/services/workflows/funcall_workflow.py:46-49 | "执行" and a task name report the task being executed |
| Workflows.MusicActionIsFirstMatch | agent/KitAgent/app/services/workflows/music_workflow.py:33-49 | the music action is that of the first keyword group found (play, pause, next, previous), unknown otherwise |
| Workflows.MusicExecute | agent/KitAgent/app/services/workflows/music_workflow.py:26-57 | the result always succeeds, names the parsed action and echoes the query |
| Workflows.PlaySong | agent/KitAgent/app/services/workflows/music_workflow.py:33-37 | "播放" and a song name reply that the song is playing |
| Workflows.NextSong | agent/KitAgent/tests/test_workflows.py:166-173 | "下一首" switches to the next song |
| Workflows.MusicActionIntended | agent/KitAgent/tests/test_workflows.py:157-164 | the intended pause-first reading differs from the source's exactly on inputs holding both the pause word and a play word, where it pauses instead of playing |
| Workflows.PausePlaybackPauses | agent/KitAgent/tests/test_workflows.py:157-164 | under the intended reading "暂停播放" pauses |
| Workflows.PausePlaybackReadsAsPlay | agent/KitAgent/app/services/workflows/music_workflow.py:33-40 | "暂停播放" contains the play keyword, which is checked first, so it plays "暂停" |
| WebSocketAgent.HandleAuth | agent/KitAgent/app/services/websocket_chat_agent.py:47-90 | auth succeeds iff in init with a valid, non-empty key, and then the machine authenticates; on failure nothing changes |
| WebSocketAgent.HandleRegister | agent/KitAgent/app/services/websocket_chat_agent.py:92-136 | register succeeds iff authenticated with a non-empty device, which then is registered and chatting; on failure nothing changes |
| WebSocketAgent.OnMessage | agent/KitAgent/app/services/websocket_chat_agent.py:138-206 | a chat message succeeds iff the session may chat and the content is non-empty; on failure nothing changes |
| WebSocketAgent.OnAudio | agent/KitAgent/app/services/websocket_chat_agent.py:208-278 | audio succeeds iff the session may chat and the file was saved; a save failure reports its error |
| WebSocketAgent.ProcessMessage | agent/KitAgent/app/services/websocket_chat_agent.py:280-306 | every text message gets a response; unknown types are refused naming the type |
| WebSocketAgent.ProcessFrame | agent/KitAgent/app/services/websocket_chat_agent.py:324-361 | a response is sent for every text or binary frame, and for nothing else |
| WebSocketAgent.ProcessFramePreservesInv | agent/KitAgent/app/services/websocket_chat_agent.py:47-306 | every frame keeps the session invariant: a valid machine, bounded histories, a chatting device registered |
| WebSocketAgent.ErrorsChangeNothing | agent/KitAgent/app/services/websocket_chat_agent.py:47-306 | any error response leaves the session unchanged |
| WebSocketAgent.AuthOnlyFromInit | agent/KitAgent/app/services/websocket_chat_agent.py:56-63 | auth outside init is refused with a message naming the state |
| WebSocketAgent.AuthOutcomes | agent/KitAgent/app/services/websocket_chat_agent.py:65-90 | a missing key is reported; a valid key authenticates; an invalid key is an error |
| WebSocketAgent.RegisterEndsChatting | agent/KitAgent/app/services/websocket_chat_agent.py:121-123 | a successful register leaves the session chatting, with the device's history kept or newly empty |
| WebSocketAgent.RegisterNeedsDevice | agent/KitAgent/app/services/websocket_chat_agent.py:110-118 | an empty device id is refused |
| WebSocketAgent.ChatNeedsRegistration | agent/KitAgent/app/services/websocket_chat_agent.py:149-156 | text and audio before registration are refused |
| WebSocketAgent.EmptyContentRefused | agent/KitAgent/app/services/websocket_chat_agent.py:160-167 | empty content is refused |
| WebSocketAgent.ConverseAppends | agent/KitAgent/app/services/websocket_chat_agent.py:169-194 | a turn appends the user message and then the agent's reply to the device's bounded history, touching no other device |
| WebSocketAgent.ChatAppendsUserThenAssistant | agent/KitAgent/app/services/websocket_chat_agent.py:160-206 | a chat frame stores the user and assistant messages and reports the reply, intent, workflow and context size |
| WebSocketAgent.ChatFrameIsOnMessage | agent/KitAgent/app/services/websocket_chat_agent.py:295-299 | a chat frame is a text message with its content |
| WebSocketAgent.AgentSeesNewMessage | agent/KitAgent/app/services/websocket_chat_agent.py:170-186 | the agent's context ends with the message just received |
| WebSocketAgent.UnknownTypeRefused | agent/KitAgent/app/services/websocket_chat_agent.py:300-306 | an unknown message type is refused with its name |
| WebSocketAgent.NullChatPayloadRaises | agent/KitAgent/app/services/websocket_chat_agent.py:295-347 | `data: null` makes the handler raise, and the raise is reported without a state change |
| WebSocketAgent.RunFrames | agent/KitAgent/app/services/websocket_chat_agent.py:324-347 | the receive loop keeps every history bounded |
| WebSocketAgent.HandshakeStartsChat | agent/KitAgent/app/services/websocket_chat_agent.py:47-136 | auth then register from a fresh connection reaches chatting with an empty history |
| WebSocketAgent.ServiceAgentOpensLight | agent/KitAgent/app/services/websocket_chat_agent.py:182-186 | the service's agent answers "打开灯" through the funcall workflow |
| WebSocketAgent.ChatStoresAgentReply | agent/KitAgent/app/services/websocket_chat_agent.py:189-206 | the reply sent is the agent's, and it is the newest stored message |
| WebSocketAgent.OpenLightOverConnection | agent/KitAgent/app/services/websocket_chat_agent.py:182-206 | over a connection, "打开灯" is answered and stored as "已打开：灯" |

## Left out

- Transport: accepting the WebSocket, the welcome message, JSON serialisation in `send_response`, and disconnect handling (`websocket_chat_agent.py:312-373` apart from the receive loop). A frame is modelled after `json.loads`.
- Timestamps (`created_at`, `updated_at`, `last_active`, message `timestamp`): they come from the clock and no behaviour depends on them.
- Non-string JSON fields: a payload field is modelled as present with a string value or absent. A `data` value that is a JSON list, string or number cannot be represented: the source's `data.get(...)` raises `AttributeError` on it (`websocket_chat_agent.py:65`, `websocket_chat_agent.py:111`, and `websocket_chat_agent.py:296-297` on the chat path), which is not modelled.
- `init_db` (`database.py:15-75`, also called at `background_tasks.py:204`): creating the schema is I/O.
- The `time.sleep(1)` pacing every ten stocks (`background_tasks.py:259-261`): it only delays.
- The retry sleeps are recorded as a list of durations (`Retry.RetryOnFailure`) and not performed.
- asyncio: `gather`, `run_in_executor`, `create_task`, lifespan start-up and cancellation (`stock.py:53-61`, `stock.py:95-112`). The two index fetches run concurrently in the source but are modelled one after the other. They write disjoint index types, which `Acquisition.IndexFetchesIndependent` states.
- The market-data provider (baostock): an input, a function from code, window and attempt number to a result.
- The `get_stock_data` / `get_hs300_stocks` / `get_zz500_stocks` endpoints: thin wrappers over the provider. In the MCP call they are the `tools` parameter.
- The MCP listings (`list_mcp_tools`, resources and prompts) are constant JSON.
- The `run_search_gold` endpoint (`stock.py:533-569`) only schedules the search.
- pandas coercion (`to_numeric`, `to_datetime`, dropping NaN): closes are exact reals and dates are well-formed strings.
- Indicators: the rolling mean, the EWM, MACD, the signal line and the cross comparisons are computed over exact reals, where pandas uses doubles. A near-tie comparison (`SMA5 > SMA10`, or the shifted `<=`) can come out differently in the source. Constant windows and series agree, since pandas returns the constant exactly there.
- CSV export, logging and `send_mail`. The HTML of `format_email_content` beyond the no-results case: the table is modelled as its rows.
- The back-test simulator `runstrat`: an input returning profit, ratio and win probability, or a raise.
- The language model behind the classifier: an input returning a parsed reply or a failure. `_extract_json` is folded into that input.
- `intent_reasoning` and `entities` are not modelled.
- The chat, search and reasoning workflows call a language model or a template: they are an input (`AgentService.ModelWorkflows`).
- `audio_service.save_audio` is an input reporting the saved file name or the error.
- `run_agent_task` (a deprecated wrapper) is not modelled.
- `turtle/app/services/agent_service.py` (a mock) is not part of this model.
- `get_all_stock_codes_with_name`, `get_all_stock_codes_with_date` and `get_all_stock_data` (`database.py:194-222`) are not used by the modelled operations.
- `ChatStateMachine.get_info` only reports fields the model exposes directly.
- Unordered SQL results: `get_index_stocks` and `get_all_stock_codes` are modelled in ascending code order. `get_stock_name`'s `LIMIT 1` without `ORDER BY` is read as the row of the least index type.
- StockRouter.Round: rounds the exact real value half-to-even. Python's `round` works on the nearest binary double, so on inputs like 2.675 the source gives 2.67 where the model gives 2.68.
- IntentClassifier.RuleBasedClassify: matches keywords against the input itself rather than `input.lower()`. Every keyword is CJK, so lowering cannot change a match for them; characters outside ASCII that Python lowers (such as Greek capitals) are not modelled.
- IntentClassifier.AsciiLower: lowers A-Z only, where Python's `str.lower` also lowers other scripts. The model's intent values are lower-case ASCII, so lowering other scripts could only matter through a character that lowers to ASCII; such inputs are not modelled.
- WebSocketAgent.OnMessage: the fallback reply "抱歉，未能生成回复。" is not modelled. The agent's result always carries a reply, so the fallback cannot be reached.
- WebSocketAgent.OnAudio: the same holds for the audio fallback reply.
- Workflows.PlaySong: stated for song names without the play keywords or surrounding spaces. Other names are covered by `Workflows.MusicExecute`, which does not state the reply text.
- Workflows.ExecuteTask: stated for task names without the other command keywords' first characters or surrounding spaces. Other inputs are covered by `Workflows.FuncallExecute`, which does not state the reply text.
- DailyRefresh: cancellation is modelled only while waiting for 02:00. A cancel during a refresh is caught by the same `except asyncio.CancelledError: break` (`stock.py:87-88`), and one during the hour's cool-down (`stock.py:92`) propagates out of the task. Both end the loop after a partial round, which the trace does not show.
- ChatHistory.ValidateApiKey: its own contract states only soundness; the full characterisation is `ChatHistory.ValidateAgainstSettings`.

## Notes on the source

- Pause vs play: `test_workflows.py:157-164` expects "暂停播放" to pause. `music_workflow.py:33-40` checks the play keyword "播放" first, so that input plays "暂停". The model follows the code (`Workflows.PausePlaybackReadsAsPlay`). The pause-first reading is `Workflows.MusicActionIntended`: it differs from the code only on inputs with both the pause word and a play word, and under it "暂停播放" pauses (`Workflows.PausePlaybackPauses`).
- Retry delay: the comment at `background_tasks.py:45` calls the back-off exponential, but the code multiplies the delay by the attempt number, so each step grows linearly. The comment and the code disagree and nothing shows which one is intended. The model follows the code (`Retry.Backoff`, `Retry.BackoffTotal`).
- MACD lookback: the lookback `iloc[-7]` in `search_macd_gold.py:158-161` raises for a stock with a cross but fewer than seven rows. The MACD search catches nothing per stock, so such a stock aborts the whole index search (`Screening.MacdShortCrossedSeriesRaises`, `Screening.DetectFailsIffSomeRaise`). The SMA search uses `iloc[-3]`, which cannot raise because an SMA cross needs at least eleven rows (`Indicators.NoSmaCrossBeforeRow10`, `Screening.SmaDecisionNeverRaises`). The evidently intended lookback covers the last min(7, n) rows: `Screening.DecideClamped` never raises and agrees with the code wherever the code does not raise, and with it detection always succeeds (`Screening.ClampedDetectSucceeds`). The rest of the model follows the code.

=== FILE: acquisition.dfy ===
/**
 * Data acquisition: the per-stock fetch with retries, the fetch-and-save of
 * one stock, the two bulk loops over every member code (full history and the
 * 30-day refresh) and the membership fetch of both indexes. The market-data
 * provider is an oracle: `provider(code, window, k)` is what the `k`-th
 * attempt of the query for `code` over `window` returns or raises.
 */
module Acquisition {
  import opened Wrappers
  import opened Retry
  import opened BarStore

  /** The `start_date`/`end_date` pair of one query. */
  datatype Window = Window(start: string, end: string)

  type Provider = (string, Window, nat) -> Outcome<seq<DailyRecord>>

  /** The attempts of one query, as `retry_on_failure` sees them. */
  function Attempts(provider: Provider, code: string, w: Window): nat -> Outcome<seq<DailyRecord>>
  {
    (k: nat) => provider(code, w, k)
  }

  /** `fetch_stock_daily_data`: the frame, or `None` once every attempt raised. */
  datatype Fetched = Fetched(data: Option<seq<DailyRecord>>, logins: nat)

  function FetchStockDailyData(provider: Provider, code: string, w: Window, sharedSession: bool, maxRetries: int): (r: Fetched)
    ensures r.data.Some? <==> exists k :: 0 <= k < maxRetries && provider(code, w, k).Ok?
    ensures r.data.Some? ==> exists k :: 0 <= k < maxRetries && provider(code, w, k) == Ok(r.data.value)
                                         && forall j :: 0 <= j < k ==> provider(code, w, j).Err?
    ensures sharedSession ==> r.logins == 0
    ensures !sharedSession ==> r.logins == CallsMade(Attempts(provider, code, w), maxRetries)
  {
    var calls := Attempts(provider, code, w);
    assert forall k: nat :: calls(k) == provider(code, w, k);
    var logins := if sharedSession then 0 else CallsMade(calls, maxRetries);
    if maxRetries <= 0 then Fetched(None, logins)
    else
      match FirstOk(calls, maxRetries)
      case Some(k) => Fetched(Some(calls(k).value), logins)
      case None => Fetched(None, logins)
  }

  /** `fetch_and_save_stock_data`: how many records were saved, and the table after. */
  datatype Saved = Saved(count: nat, bars: BarTable)

  function FetchAndSaveStockData(bars: BarTable, provider: Provider, code: string, w: Window): (r: Saved)
    ensures var f := FetchStockDailyData(provider, code, w, false, MaxRetries).data;
            (r.count == 0 <==> f.None? || |f.value| == 0)
            && (r.count == 0 ==> r.bars == bars)
            && (r.count > 0 ==> r.count == |f.value| && r.bars == SaveDailyData(bars, code, f.value))
  {
    var f := FetchStockDailyData(provider, code, w, false, MaxRetries).data;
    if f.None? || |f.value| == 0 then Saved(0, bars)
    else Saved(|f.value|, SaveDailyData(bars, code, f.value))
  }

  // ---------------------------------------------------------------- bulk loops

  /** One retried query of a bulk loop: the frame, or `None` when every attempt raised. */
  function FetchOne(provider: Provider, code: string, w: Window): (r: Option<seq<DailyRecord>>)
    ensures r.Some? <==> exists k :: 0 <= k < MaxRetries && provider(code, w, k).Ok?
    ensures r.Some? ==> exists k :: 0 <= k < MaxRetries && provider(code, w, k) == Ok(r.value)
                                    && forall j :: 0 <= j < k ==> provider(code, w, j).Err?
  {
    FetchStockDailyData(provider, code, w, true, MaxRetries).data
  }

  /** `all_data`: the dict and its insertion order (re-assigning a key keeps its place). */
  datatype AllData = AllData(data: map<string, seq<DailyRecord>>, order: seq<string>)

  predicate Distinct(s: seq<string>)
  {
    forall i, j :: 0 <= i < j < |s| ==> s[i] != s[j]
  }

  /** The data a bulk loop keeps from one iteration: a frame that was fetched and is not empty. */
  function Kept(f: Option<seq<DailyRecord>>): bool
  {
    f.Some? && |f.value| > 0
  }

  /**
   * The fetch loop over `codes`; `fetch(c, i)` is the retried query of the
   * `i`-th code. A code whose query raised or came back empty is skipped.
   */
  function FetchLoop(fetch: (string, nat) -> Option<seq<DailyRecord>>, codes: seq<string>): (r: AllData)
    ensures forall c :: c in r.data ==> c in codes && |r.data[c]| > 0
    ensures forall c :: c in r.data <==> c in r.order
    ensures Distinct(r.order)
    decreases |codes|
  {
    if |codes| == 0 then AllData(map[], [])
    else
      var n := |codes| - 1;
      var front := FetchLoop(fetch, codes[..n]);
      var c := codes[n];
      var f := fetch(c, n);
      if !Kept(f) then front
      else
        var order := if c in front.data then front.order else front.order + [c];
        AllData(front.data[c := f.value], order)
  }

  /** One iteration adds at most the iteration's own code. */
  lemma FetchLoopStep(fetch: (string, nat) -> Option<seq<DailyRecord>>, codes: seq<string>, c: string)
    requires |codes| > 0
    ensures var n := |codes| - 1;
            c in FetchLoop(fetch, codes).data
            <==> c in FetchLoop(fetch, codes[..n]).data || (codes[n] == c && Kept(fetch(c, n)))
  {
  }

  /** Some iteration over `codes` kept data for `c`. */
  predicate KeptSomewhere(fetch: (string, nat) -> Option<seq<DailyRecord>>, codes: seq<string>, c: string)
  {
    exists i :: 0 <= i < |codes| && codes[i] == c && Kept(fetch(c, i))
  }

  /** Splitting off the last iteration. */
  lemma KeptSomewhereStep(fetch: (string, nat) -> Option<seq<DailyRecord>>, codes: seq<string>, c: string)
    requires |codes| > 0
    ensures var n := |codes| - 1;
            KeptSomewhere(fetch, codes, c)
            <==> KeptSomewhere(fetch, codes[..n], c) || (codes[n] == c && Kept(fetch(c, n)))
  {
    var n := |codes| - 1;
    var front := codes[..n];
    if KeptSomewhere(fetch, front, c) {
      var i :| 0 <= i < n && front[i] == c && Kept(fetch(c, i));
      assert codes[i] == front[i];
    }
    if KeptSomewhere(fetch, codes, c) {
      var i :| 0 <= i < |codes| && codes[i] == c && Kept(fetch(c, i));
      if i < n {
        assert front[i] == codes[i];
      }
    }
  }

  /** A code is in the result exactly when one of its iterations kept data. */
  lemma {:induction false} FetchLoopKeys(fetch: (string, nat) -> Option<seq<DailyRecord>>, codes: seq<string>, c: string)
    ensures c in FetchLoop(fetch, codes).data
            <==> exists i :: 0 <= i < |codes| && codes[i] == c && Kept(fetch(c, i))
    decreases |codes|
  {
    if |codes| > 0 {
      FetchLoopKeys(fetch, codes[..|codes| - 1], c);
      FetchLoopStep(fetch, codes, c);
      KeptSomewhereStep(fetch, codes, c);
    }
  }

  /** With distinct codes, each stored entry is that code's own fetch. */
  lemma {:induction false} FetchLoopValues(fetch: (string, nat) -> Option<seq<DailyRecord>>, codes: seq<string>, i: nat)
    requires Distinct(codes) && i < |codes|
    ensures var r := FetchLoop(fetch, codes);
            var f := fetch(codes[i], i);
            (codes[i] in r.data <==> Kept(f)) && (Kept(f) ==> r.data[codes[i]] == f.value)
    decreases |codes|
  {
    var n := |codes| - 1;
    var front := FetchLoop(fetch, codes[..n]);
    if i < n {
      assert Distinct(codes[..n]);
      FetchLoopValues(fetch, codes[..n], i);
      assert codes[..n][i] == codes[i];
      assert codes[n] != codes[i];
    } else {
      assert codes[n] !in codes[..n];
      assert codes[n] !in front.data;
    }
  }

  function SumLengths(m: map<string, seq<DailyRecord>>, order: seq<string>): nat
    requires forall c :: c in order ==> c in m
  {
    if |order| == 0 then 0 else SumLengths(m, order[..|order| - 1]) + |m[order[|order| - 1]]|
  }

  /** `sum(len(data) for data in all_data.values())`. */
  function Total(a: AllData): nat
    requires forall c :: c in a.order ==> c in a.data
  {
    SumLengths(a.data, a.order)
  }

  /** The save loop: one `save_stock_daily_data` per key, in insertion order. */
  function SaveAll(bars: BarTable, m: map<string, seq<DailyRecord>>, order: seq<string>): (r: BarTable)
    requires forall c :: c in order ==> c in m
    ensures forall k :: k in bars ==> k in r
    ensures forall k :: k in r && k.0 !in order ==> k in bars && r[k] == bars[k]
    decreases |order|
  {
    if |order| == 0 then bars
    else
      var c := order[|order| - 1];
      SaveDailyData(SaveAll(bars, m, order[..|order| - 1]), c, m[c])
  }

  /** Two tables agree on one key: both lack it, or both hold the same values. */
  predicate SameAt(a: BarTable, b: BarTable, k: (string, string))
  {
    (k in a <==> k in b) && (k in a ==> a[k] == b[k])
  }

  /** An upsert batch for `code` reads nothing of the table at a key of `code` but that key itself. */
  lemma SaveDailyDataLocal(x: BarTable, y: BarTable, code: string, data: seq<DailyRecord>, date: string)
    requires SameAt(x, y, (code, date))
    ensures SameAt(SaveDailyData(x, code, data), SaveDailyData(y, code, data), (code, date))
  {
    SaveDailyDataContents(x, code, data, date);
    SaveDailyDataContents(y, code, data, date);
  }

  /**
   * The save loop stores every listed code's batch: with distinct keys, each
   * row of a listed code is what saving that code's batch alone would give.
   */
  lemma {:induction false} SaveAllStoresEach(bars: BarTable, m: map<string, seq<DailyRecord>>, order: seq<string>,
                                             c: string, date: string)
    requires forall x :: x in order ==> x in m
    requires Distinct(order) && c in order
    ensures SameAt(SaveAll(bars, m, order), SaveDailyData(bars, c, m[c]), (c, date))
    decreases |order|
  {
    var n := |order| - 1;
    var front := order[..n];
    var d := order[n];
    var before := SaveAll(bars, m, front);
    if d == c {
      assert c !in front by {
        forall i | 0 <= i < n ensures front[i] != c { assert front[i] == order[i]; }
      }
      SaveDailyDataLocal(before, bars, c, m[c], date);
    } else {
      assert c in front by {
        var i :| 0 <= i < |order| && order[i] == c;
        assert front[i] == c;
      }
      assert Distinct(front);
      SaveAllStoresEach(bars, m, front, c, date);
    }
  }

  /** Per-code record counts in code order: what the total adds up when codes are distinct. */
  function FetchedCount(fetch: (string, nat) -> Option<seq<DailyRecord>>, codes: seq<string>): nat
  {
    if |codes| == 0 then 0
    else
      var n := |codes| - 1;
      var f := fetch(codes[n], n);
      FetchedCount(fetch, codes[..n]) + (if f.Some? then |f.value| else 0)
  }

  /** With distinct codes, the reported total is the sum of the successful fetches' lengths. */
  lemma {:induction false} TotalIsSumOfFetches(fetch: (string, nat) -> Option<seq<DailyRecord>>, codes: seq<string>)
    requires Distinct(codes)
    ensures Total(FetchLoop(fetch, codes)) == FetchedCount(fetch, codes)
    decreases |codes|
  {
    if |codes| > 0 {
      var n := |codes| - 1;
      assert Distinct(codes[..n]);
      TotalIsSumOfFetches(fetch, codes[..n]);
      var front := FetchLoop(fetch, codes[..n]);
      var c := codes[n];
      assert c !in codes[..n];
      assert c !in front.data;
      var f := fetch(c, n);
      if Kept(f) {
        var r := FetchLoop(fetch, codes);
        assert r.order == front.order + [c];
        assert r.order[..|r.order| - 1] == front.order;
        SumLengthsFrame(front.data, c, f.value, front.order);
      }
    }
  }

  /** Adding a key outside `order` does not change the sum over `order`. */
  lemma {:induction false} SumLengthsFrame(m: map<string, seq<DailyRecord>>, c: string, d: seq<DailyRecord>, order: seq<string>)
    requires forall x :: x in order ==> x in m
    requires c !in order
    ensures SumLengths(m[c := d], order) == SumLengths(m, order)
    decreases |order|
  {
    if |order| > 0 {
      SumLengthsFrame(m, c, d, order[..|order| - 1]);
    }
  }

  /** The query of the `i`-th code, over the window the loop computed for it. */
  function BulkQuery(provider: Provider, windowOf: nat -> Window): (string, nat) -> Option<seq<DailyRecord>>
  {
    (c: string, i: nat) => FetchOne(provider, c, windowOf(i))
  }

  /** The outcome of `fetch_all_stocks_daily_data` or `refresh_daily_data`. */
  datatype BulkRun =
    | NoCodes                                                   // returned early, nothing fetched
    | Ran(total: nat, bars: BarTable, logins: nat, windows: seq<Window>)

  /** Both bulk loops: read every member code, fetch in one session, save, report the total. */
  function BulkFetch(table: IndexTable, bars: BarTable, provider: Provider, windowOf: nat -> Window): (r: BulkRun)
    ensures r.NoCodes? <==> |table| == 0
    ensures r.Ran? ==> r.logins == 1 && |r.windows| == |AllStockCodes(table)|
    ensures r.Ran? ==> forall i :: 0 <= i < |r.windows| ==> r.windows[i] == windowOf(i)
  {
    var codes := AllStockCodes(table);
    if |codes| == 0 then
      assert forall k :: k in table ==> k.1 in codes;
      NoCodes
    else
      var a := FetchLoop(BulkQuery(provider, windowOf), codes);
      Ran(Total(a), SaveAll(bars, a.data, a.order), 1, seq(|codes|, i requires 0 <= i < |codes| => windowOf(i)))
  }

  /** `fetch_all_stocks_daily_data`: the window is recomputed from the clock for every code. */
  function FetchAllStocksDailyData(table: IndexTable, bars: BarTable, provider: Provider, clock: nat -> Window): BulkRun
  {
    BulkFetch(table, bars, provider, clock)
  }

  /** `refresh_daily_data`: one 30-day window, computed once, for every code. */
  function RefreshDailyData(table: IndexTable, bars: BarTable, provider: Provider, w: Window): (r: BulkRun)
    ensures r.Ran? ==> forall i :: 0 <= i < |r.windows| ==> r.windows[i] == w
  {
    BulkFetch(table, bars, provider, i => w)
  }

  /** The bulk total is the sum of what each member code's fetch returned; failed codes add nothing. */
  lemma BulkTotal(table: IndexTable, bars: BarTable, provider: Provider, windowOf: nat -> Window)
    requires |table| > 0
    ensures BulkFetch(table, bars, provider, windowOf).total
            == FetchedCount(BulkQuery(provider, windowOf), AllStockCodes(table))
  {
    TotalIsSumOfFetches(BulkQuery(provider, windowOf), AllStockCodes(table));
  }

  /**
   * A member code whose fetch kept data has that data stored: each of its
   * rows after the run is what upserting its own fetched batch gives.
   */
  lemma BulkStoresFetched(table: IndexTable, bars: BarTable, provider: Provider, windowOf: nat -> Window, i: nat, date: string)
    requires i < |AllStockCodes(table)|
    requires Kept(FetchOne(provider, AllStockCodes(table)[i], windowOf(i)))
    ensures var r := BulkFetch(table, bars, provider, windowOf);
            var code := AllStockCodes(table)[i];
            r.Ran? && SameAt(r.bars, SaveDailyData(bars, code, FetchOne(provider, code, windowOf(i)).value), (code, date))
  {
    var codes := AllStockCodes(table);
    var fetch := BulkQuery(provider, windowOf);
    assert codes[i] in codes;
    FetchLoopValues(fetch, codes, i);
    var a := FetchLoop(fetch, codes);
    SaveAllStoresEach(bars, a.data, a.order, codes[i], date);
  }

  /** A member code whose fetch failed or came back empty keeps its stored bars untouched. */
  lemma FailedCodeUntouched(table: IndexTable, bars: BarTable, provider: Provider, windowOf: nat -> Window, i: nat, date: string)
    requires i < |AllStockCodes(table)|
    requires !Kept(FetchOne(provider, AllStockCodes(table)[i], windowOf(i)))
    ensures var r := BulkFetch(table, bars, provider, windowOf);
            var code := AllStockCodes(table)[i];
            r.Ran? && ((code, date) in r.bars <==> (code, date) in bars)
            && ((code, date) in bars ==> r.bars[(code, date)] == bars[(code, date)])
  {
    var codes := AllStockCodes(table);
    assert codes[i] in codes;
    FetchLoopValues(BulkQuery(provider, windowOf), codes, i);
  }

  // ---------------------------------------------------------------- index membership

  /** What one membership query returns: the rows and the field names. */
  datatype IndexFetch = IndexFetch(stocks: seq<seq<string>>, fields: seq<string>)

  /** `fetch_and_save_hs300` / `fetch_and_save_zz500`: `None` when every attempt raised. */
  function FetchAndSaveIndex(table: IndexTable, t: string, attempts: nat -> Outcome<IndexFetch>): (r: (Option<nat>, IndexTable))
    ensures r.0.None? <==> forall k :: 0 <= k < MaxRetries ==> attempts(k).Err?
    ensures r.0.None? ==> r.1 == table
    ensures r.0.Some? ==>
      exists k :: (0 <= k < MaxRetries && attempts(k).Ok?
        && (forall j :: 0 <= j < k ==> attempts(j).Err?)
        && r.0.value == |attempts(k).value.stocks|
        && r.1 == SaveIndexStocks(table, t, attempts(k).value.stocks, attempts(k).value.fields))
  {
    match RetrySpec(attempts, MaxRetries)
    case Success(f) => (Some(|f.stocks|), SaveIndexStocks(table, t, f.stocks, f.fields))
    case Failure(_) => (None, table)
  }

  datatype IndexCounts = IndexCounts(hs300: nat, zz500: nat, table: IndexTable)

  /** `fetch_all_index_stocks`: a failed index counts 0 and leaves its rows alone; the other proceeds. */
  function FetchAllIndexStocks(table: IndexTable, hs: nat -> Outcome<IndexFetch>, zz: nat -> Outcome<IndexFetch>): IndexCounts
  {
    var (h, t1) := FetchAndSaveIndex(table, "hs300", hs);
    var (z, t2) := FetchAndSaveIndex(t1, "zz500", zz);
    IndexCounts(h.GetOr(0), z.GetOr(0), t2)
  }

  /** The hs300 rows after the run depend only on the hs300 fetch. */
  lemma IndexFetchesIndependent(table: IndexTable, hs: nat -> Outcome<IndexFetch>, zz: nat -> Outcome<IndexFetch>, code: string)
    ensures var r := FetchAllIndexStocks(table, hs, zz);
            var (_, t1) := FetchAndSaveIndex(table, "hs300", hs);
            (("hs300", code) in r.table <==> ("hs300", code) in t1)
            && (("hs300", code) in t1 ==> r.table[("hs300", code)] == t1[("hs300", code)])
  {
  }

  /** A failed membership fetch counts 0 and leaves that index's rows as they were. */
  lemma FailedIndexKeepsRows(table: IndexTable, hs: nat -> Outcome<IndexFetch>, zz: nat -> Outcome<IndexFetch>, code: string)
    requires forall k :: hs(k).Err?
    ensures var r := FetchAllIndexStocks(table, hs, zz);
            r.hs300 == 0 && (("hs300", code) in r.table <==> ("hs300", code) in table)
  {
  }

  lemma {:induction false} StoredCodesBound(stocks: seq<seq<string>>, cols: Columns)
    ensures |StoredCodes(stocks, cols)| <= |stocks|
    decreases |stocks|
  {
    if |stocks| > 0 {
      var n := |stocks| - 1;
      StoredCodesBound(stocks[..n], cols);
      var front := StoredCodes(stocks[..n], cols);
      var all := StoredCodes(stocks, cols);
      if Stored(stocks[n], cols) {
        assert all <= front + {RowCode(stocks[n], cols).value} by {
          forall x | x in all ensures x in front + {RowCode(stocks[n], cols).value} {
            var i :| 0 <= i < |stocks| && Stored(stocks[i], cols) && RowCode(stocks[i], cols).value == x;
            if i < n { assert stocks[..n][i] == stocks[i]; }
          }
        }
        SubsetCard(all, front + {RowCode(stocks[n], cols).value});
      } else {
        assert all <= front by {
          forall x | x in all ensures x in front {
            var i :| 0 <= i < |stocks| && Stored(stocks[i], cols) && RowCode(stocks[i], cols).value == x;
            assert i < n;
            assert stocks[..n][i] == stocks[i];
          }
        }
        SubsetCard(all, front);
      }
    }
  }

  lemma SubsetCard(a: set<string>, b: set<string>)
    requires a <= b
    ensures |a| <= |b|
  {
    assert b == a + (b - a);
  }

  /** The reported count is rows fetched, which can exceed the rows stored (empty or repeated codes). */
  lemma CountIsRowsFetched(table: IndexTable, hs: nat -> Outcome<IndexFetch>, zz: nat -> Outcome<IndexFetch>)
    ensures var (h, t1) := FetchAndSaveIndex(table, "hs300", hs);
            h.Some? ==> GetStockCount(t1, "hs300") <= h.value
  {
    var (h, t1) := FetchAndSaveIndex(table, "hs300", hs);
    if h.Some? {
      var k :| 0 <= k < MaxRetries && hs(k).Ok? && h.value == |hs(k).value.stocks|
               && t1 == SaveIndexStocks(table, "hs300", hs(k).value.stocks, hs(k).value.fields);
      CountAfterSave(table, "hs300", hs(k).value.stocks, hs(k).value.fields);
      StoredCodesBound(hs(k).value.stocks, ResolveColumns(hs(k).value.fields));
    }
  }
}

=== FILE: agent_service.dfy ===
/**
 * The chat agent's dispatcher: classify the input, pick the workflow mapped
 * to the intent (chat when none is), run it with a context built from the
 * request, and stamp the intent on its result; anything raised becomes a
 * fixed apology. The chat, search and reasoning workflows call a language
 * model or a template and are inputs here; the music and function-call
 * workflows are the ones of the `Workflows` module. The background task
 * table of the older task interface is modelled as a map.
 */
module AgentService {
  import opened Wrappers
  import opened Retry
  import opened ChatHistory
  import opened IntentClassifier
  import opened Workflows

  datatype Workflow = ChatWorkflow | SearchWorkflow | ReasoningWorkflow | MusicWorkflow | FuncallWorkflow

  /** Each workflow's `intent_type`. */
  function HandledIntent(w: Workflow): Intent
  {
    match w
    case ChatWorkflow => ChatIntent
    case SearchWorkflow => Search
    case ReasoningWorkflow => Reasoning
    case MusicWorkflow => Music
    case FuncallWorkflow => Funcall
  }

  /** `WORKFLOW_MAP`. */
  const WorkflowMap: map<Intent, Workflow> :=
    map[ChatIntent := ChatWorkflow, Search := SearchWorkflow, Reasoning := ReasoningWorkflow,
        Music := MusicWorkflow, Funcall := FuncallWorkflow]

  /** Every intent has a workflow, and it is the workflow that handles that intent. */
  lemma WorkflowMapCoversAllIntents(i: Intent)
    ensures i in WorkflowMap && HandledIntent(WorkflowMap[i]) == i
  {
  }

  /**
   * `workflows.get(intent)`, falling back to `workflows[CHAT]`; a table
   * without a chat entry raises `KeyError` in the fallback, whose text is
   * the repr of the missing key. The agent's own table (`WorkflowMap`)
   * covers every intent, so the agent never takes that path
   * (`DispatchMatchesIntent`).
   */
  function SelectWorkflow(workflows: map<Intent, Workflow>, i: Intent): (r: Outcome<Workflow>)
    ensures i in workflows ==> r == Ok(workflows[i])
    ensures i !in workflows && ChatIntent in workflows ==> r == Ok(workflows[ChatIntent])
    ensures r.Err? <==> i !in workflows && ChatIntent !in workflows
  {
    if i in workflows then Ok(workflows[i])
    else if ChatIntent in workflows then Ok(workflows[ChatIntent])
    else Err("<IntentType.CHAT: 'chat'>")
  }

  /** With the agent's own table the workflow that runs is the one for the classified intent. */
  lemma DispatchMatchesIntent(i: Intent)
    ensures SelectWorkflow(WorkflowMap, i).Ok?
    ensures HandledIntent(SelectWorkflow(WorkflowMap, i).value) == i
  {
    WorkflowMapCoversAllIntents(i);
  }

  /** An intent missing from the table is served by the chat workflow. */
  lemma MissingIntentFallsBackToChat(workflows: map<Intent, Workflow>, i: Intent)
    requires i !in workflows && workflows[ChatIntent := ChatWorkflow] == workflows
    ensures SelectWorkflow(workflows, i) == Ok(ChatWorkflow)
  {
    assert ChatIntent in workflows[ChatIntent := ChatWorkflow];
  }

  /** What a workflow is told: `intent_reasoning` and `entities` are not modelled. */
  datatype WorkflowContext = WorkflowContext(
    deviceId: Option<string>,
    history: seq<ContextMessage>,
    intent: string,
    intentConfidence: real)

  /** The workflows that need a language model or a template: any result, or a raise. */
  type ModelWorkflows = (Workflow, string, WorkflowContext) -> Outcome<Reply>

  /** The classifier as the agent calls it (the model-backed one, or a stand-in). */
  type Classifier = (string, Option<seq<ContextMessage>>) -> Outcome<IntentResult>

  /** The classifier of the `IntentClassifier` module, which never raises; no history reads as none. */
  function DefaultClassifier(llm: Option<string -> LlmReply>): Classifier
  {
    (s: string, h: Option<seq<ContextMessage>>) => Ok(Classify(llm, s, h.GetOr([])))
  }

  function RunWorkflow(w: Workflow, models: ModelWorkflows, input: string, ctx: WorkflowContext): (r: Outcome<Reply>)
    ensures w == MusicWorkflow ==> r == Ok(MusicExecute(input))
    ensures w == FuncallWorkflow ==> r == Ok(FuncallExecute(input, ctx.deviceId))
    ensures w != MusicWorkflow && w != FuncallWorkflow ==> r == models(w, input, ctx)
  {
    match w
    case MusicWorkflow => Ok(MusicExecute(input))
    case FuncallWorkflow => Ok(FuncallExecute(input, ctx.deviceId))
    case _ => models(w, input, ctx)
  }

  const ErrorReplyText: string := "抱歉，处理您的请求时出现了错误。"

  /** The result when anything raises. */
  function ErrorReply(message: string): Reply
  {
    Reply(false, ErrorReplyText, "unknown", None, None, None, Some(message), None, None)
  }

  /** `AgentService.process`. */
  function Process(classify: Classifier, workflows: map<Intent, Workflow>, models: ModelWorkflows,
                   input: string, deviceId: Option<string>, history: Option<seq<ContextMessage>>): (r: Reply)
    ensures classify(input, history).Err? ==> r == ErrorReply(classify(input, history).message)
    ensures r.intent.Some? ==>
              && classify(input, history).Ok?
              && r.intent == Some(IntentValue(classify(input, history).value.intent))
              && r.intentConfidence == Some(classify(input, history).value.confidence)
    ensures r.intent.None? ==> !r.success && r.workflow == "unknown" && r.reply == ErrorReplyText && r.error.Some?
  {
    match classify(input, history)
    case Err(e) => ErrorReply(e)
    case Ok(ir) =>
      match SelectWorkflow(workflows, ir.intent)
      case Err(e) => ErrorReply(e)
      case Ok(w) =>
        var ctx := WorkflowContext(deviceId, history.GetOr([]), IntentValue(ir.intent), ir.confidence);
        match RunWorkflow(w, models, input, ctx)
        case Err(e) => ErrorReply(e)
        case Ok(res) => res.(intent := Some(IntentValue(ir.intent)), intentConfidence := Some(ir.confidence))
  }

  /**
   * The workflow is called with the device, the history (`[]` for none), the
   * intent's value and its confidence, and its result comes back with the
   * intent stamped on it, whatever it said before.
   */
  lemma WorkflowSeesRequestContext(classify: Classifier, models: ModelWorkflows, input: string,
                                   deviceId: Option<string>, history: Option<seq<ContextMessage>>,
                                   ir: IntentResult, res: Reply)
    requires classify(input, history) == Ok(ir)
    requires ir.intent in {ChatIntent, Search, Reasoning}
    requires models(WorkflowMap[ir.intent], input,
                    WorkflowContext(deviceId, history.GetOr([]), IntentValue(ir.intent), ir.confidence)) == Ok(res)
    ensures Process(classify, WorkflowMap, models, input, deviceId, history)
            == res.(intent := Some(IntentValue(ir.intent)), intentConfidence := Some(ir.confidence))
  {
    WorkflowMapCoversAllIntents(ir.intent);
  }

  /** A workflow that raises yields the apology, marked unsuccessful and with workflow "unknown". */
  lemma RaisingWorkflowGivesApology(classify: Classifier, models: ModelWorkflows, input: string,
                                    deviceId: Option<string>, history: Option<seq<ContextMessage>>)
    requires classify(input, history) == Ok(IntentResult(ChatIntent, 0.9))
    requires models(ChatWorkflow, input, WorkflowContext(deviceId, history.GetOr([]), "chat", 0.9)) == Err("工作流错误")
    ensures Process(classify, WorkflowMap, models, input, deviceId, history) == ErrorReply("工作流错误")
    ensures !Process(classify, WorkflowMap, models, input, deviceId, history).success
  {
  }

  /** Music and function-call requests never take the error path once classified. */
  lemma LocalWorkflowsSucceed(classify: Classifier, models: ModelWorkflows, input: string,
                              deviceId: Option<string>, history: Option<seq<ContextMessage>>)
    requires classify(input, history).Ok? && classify(input, history).value.intent in {Music, Funcall}
    ensures var r := Process(classify, WorkflowMap, models, input, deviceId, history);
            && r.success
            && r.workflow == IntentValue(classify(input, history).value.intent)
            && r.query == Some(input)
  {
  }

  /** Without a model, "打开灯" runs the open command end to end. */
  lemma OpenLightEndToEnd(models: ModelWorkflows, deviceId: Option<string>, history: Option<seq<ContextMessage>>)
    ensures Process(DefaultClassifier(None), WorkflowMap, models, "打开灯", deviceId, history)
            == Reply(true, "已打开：灯", "funcall", Some("open"), Some(deviceId), Some("打开灯"), None,
                     Some("funcall"), Some(0.8))
  {
    OpenIsFuncall();
    OpenLight(deviceId);
  }

  // ------------------------------------------------------------ the task table

  datatype TaskStatus = Running | Completed | Failed

  /** What a finished task holds: the agent's result, or `{"error": message}`. */
  datatype TaskResult = AgentResult(reply: Reply) | ErrorResult(error: string)

  datatype TaskRecord = TaskRecord(status: TaskStatus, result: Option<TaskResult>)

  /** `TASKS`, keyed by task id. */
  type Tasks = map<string, TaskRecord>

  /** `start_task`: the new id (a fresh UUID in the source) is recorded as running with no result. */
  function StartTask(tasks: Tasks, id: string): (r: Tasks)
    ensures id in r && r[id] == TaskRecord(Running, None)
    ensures forall t :: t != id ==> (t in r <==> t in tasks)
    ensures forall t :: t in tasks && t != id ==> r[t] == tasks[t]
  {
    tasks[id := TaskRecord(Running, None)]
  }

  /**
   * The background half of `start_task`: the task completes with the agent's
   * result or fails with the message. A missing entry raises inside the task
   * and the table is left as it was.
   */
  function FinishTask(tasks: Tasks, id: string, outcome: Outcome<Reply>): (r: Tasks)
    ensures id !in tasks ==> r == tasks
    ensures id in tasks && outcome.Ok? ==> r == tasks[id := TaskRecord(Completed, Some(AgentResult(outcome.value)))]
    ensures id in tasks && outcome.Err? ==> r == tasks[id := TaskRecord(Failed, Some(ErrorResult(outcome.message)))]
  {
    if id !in tasks then tasks
    else match outcome
      case Ok(v) => tasks[id := TaskRecord(Completed, Some(AgentResult(v)))]
      case Err(e) => tasks[id := TaskRecord(Failed, Some(ErrorResult(e)))]
  }

  /** `get_task_result`: the record, or `None` for an unknown id. */
  function GetTaskResult(tasks: Tasks, id: string): (r: Option<TaskRecord>)
    ensures r.Some? <==> id in tasks
    ensures r.Some? ==> r.value == tasks[id]
  {
    if id in tasks then Some(tasks[id]) else None
  }

  /**
   * A started task reads as running until it finishes, then as completed with
   * the agent's result; other tasks are untouched throughout. The agent
   * catches everything itself, so a task started on a prompt never fails.
   */
  lemma TaskLifecycle(tasks: Tasks, id: string, other: string, classify: Classifier,
                      workflows: map<Intent, Workflow>, models: ModelWorkflows, prompt: string)
    requires other != id
    ensures GetTaskResult(StartTask(tasks, id), id) == Some(TaskRecord(Running, None))
    ensures var done := FinishTask(StartTask(tasks, id), id, Ok(Process(classify, workflows, models, prompt, None, None)));
            && GetTaskResult(done, id).value.status == Completed
            && GetTaskResult(done, id).value.result == Some(AgentResult(Process(classify, workflows, models, prompt, None, None)))
            && GetTaskResult(done, other) == GetTaskResult(tasks, other)
  {
  }

  /** An id that was never started has no record. */
  lemma UnknownTaskHasNoRecord(id: string)
    ensures GetTaskResult(map[], id).None?
    ensures GetTaskResult(FinishTask(map[], id, Err("e")), id).None?
  {
  }
}

=== FILE: bar_store.dfy ===
/**
 * The two tables behind the screens, as abstract tables rather than SQL:
 * index membership keyed by `(index_type, code)` (the `UNIQUE(index_type, code)`
 * constraint) and daily bars keyed by `(code, date)` (`UNIQUE(code, date)`).
 * `INSERT OR REPLACE` is a map update, `DELETE ... WHERE` a map restriction,
 * `ORDER BY` a sort of the selected keys, `COUNT`/`DISTINCT`/`MAX` set operations.
 */
module BarStore {
  import opened Wrappers
  import opened LexOrder

  // ---------------------------------------------------------------- index membership

  /** The stored columns of one membership row besides its key. */
  datatype Member = Member(name: Option<string>, updateDate: Option<string>)

  /** `index_stocks`, keyed by `(index_type, code)`. */
  type IndexTable = map<(string, string), Member>

  /** Where a provider row keeps its code, name and update date. */
  datatype Columns = Columns(code: nat, name: Option<nat>, date: Option<nat>)

  /** Python's `list.index`: the first position holding `f`. */
  function IndexOf(fields: seq<string>, f: string): (i: nat)
    requires f in fields
    ensures i < |fields| && fields[i] == f
    ensures forall j :: 0 <= j < i ==> fields[j] != f
  {
    if fields[0] == f then 0 else 1 + IndexOf(fields[1..], f)
  }

  /** The first of `candidates` that names a field, as that field's position. */
  function FirstPresent(fields: seq<string>, candidates: seq<string>): (r: Option<nat>)
    ensures r.None? <==> forall k :: 0 <= k < |candidates| ==> candidates[k] !in fields
    ensures r.Some? ==> exists k :: 0 <= k < |candidates| && candidates[k] in fields
                          && r.value == IndexOf(fields, candidates[k])
                          && forall j :: 0 <= j < k ==> candidates[j] !in fields
  {
    if |candidates| == 0 then None
    else if candidates[0] in fields then Some(IndexOf(fields, candidates[0]))
    else
      var r := FirstPresent(fields, candidates[1..]);
      assert forall k :: 1 <= k < |candidates| ==> candidates[k] == candidates[1..][k - 1];
      r
  }

  const NameFields: seq<string> := ["code_name", "name", "stock_name"]
  const DateFields: seq<string> := ["updateDate", "date", "update_date"]

  /** With three candidates, the search is a priority chain. */
  lemma FirstOfThree(fields: seq<string>, a: string, b: string, c: string)
    ensures FirstPresent(fields, [a, b, c])
            == if a in fields then Some(IndexOf(fields, a))
               else if b in fields then Some(IndexOf(fields, b))
               else if c in fields then Some(IndexOf(fields, c))
               else None
  {
    assert [a, b, c][1..] == [b, c];
    assert [b, c][1..] == [c];
    assert [c][1..] == [];
    assert FirstPresent(fields, [c]) == if c in fields then Some(IndexOf(fields, c)) else FirstPresent(fields, []);
    assert FirstPresent(fields, [b, c]) == if b in fields then Some(IndexOf(fields, b)) else FirstPresent(fields, [c]);
  }

  /** The column lookup at the start of `save_index_stocks`. */
  function ResolveColumns(fields: seq<string>): (c: Columns)
    ensures "code" in fields ==> c.code == IndexOf(fields, "code")
    ensures "code" !in fields ==> c.code == 0
    ensures c.name == if "code_name" in fields then Some(IndexOf(fields, "code_name"))
                      else if "name" in fields then Some(IndexOf(fields, "name"))
                      else if "stock_name" in fields then Some(IndexOf(fields, "stock_name"))
                      else None
    ensures c.date == if "updateDate" in fields then Some(IndexOf(fields, "updateDate"))
                      else if "date" in fields then Some(IndexOf(fields, "date"))
                      else if "update_date" in fields then Some(IndexOf(fields, "update_date"))
                      else None
  {
    FirstOfThree(fields, "code_name", "name", "stock_name");
    FirstOfThree(fields, "updateDate", "date", "update_date");
    var code := if "code" in fields then IndexOf(fields, "code") else 0;
    Columns(code, FirstPresent(fields, NameFields), FirstPresent(fields, DateFields))
  }

  /** `stock[idx] if idx is not None and idx < len(stock) else None`. */
  function Cell(row: seq<string>, idx: Option<nat>): Option<string>
  {
    if idx.Some? && idx.value < |row| then Some(row[idx.value]) else None
  }

  function RowCode(row: seq<string>, cols: Columns): Option<string>
  {
    Cell(row, Some(cols.code))
  }

  function RowMember(row: seq<string>, cols: Columns): Member
  {
    Member(Cell(row, cols.name), Cell(row, cols.date))
  }

  /** `if code:` — a row is stored only when its code is present and non-empty. */
  predicate Stored(row: seq<string>, cols: Columns)
  {
    RowCode(row, cols).Some? && RowCode(row, cols).value != ""
  }

  /** The last row that stores `code`: the row whose `INSERT OR REPLACE` survives. */
  function LastRowFor(rows: seq<seq<string>>, cols: Columns, code: string): (r: Option<nat>)
    ensures r.Some? ==> r.value < |rows| && Stored(rows[r.value], cols)
                        && RowCode(rows[r.value], cols) == Some(code)
                        && forall j :: r.value < j < |rows| ==> RowCode(rows[j], cols) != Some(code)
    ensures r.None? ==> forall j :: 0 <= j < |rows| && Stored(rows[j], cols) ==> RowCode(rows[j], cols) != Some(code)
  {
    if |rows| == 0 then None
    else if Stored(rows[|rows| - 1], cols) && RowCode(rows[|rows| - 1], cols) == Some(code) then Some(|rows| - 1)
    else LastRowFor(rows[..|rows| - 1], cols, code)
  }

  /** `DELETE FROM index_stocks WHERE index_type = ?`. */
  function DropType(table: IndexTable, t: string): (r: IndexTable)
    ensures forall k :: k in r <==> k in table && k.0 != t
    ensures forall k :: k in r ==> r[k] == table[k]
  {
    map k | k in table && k.0 != t :: table[k]
  }

  /** The insert loop: one `INSERT OR REPLACE` per stored row, in order. */
  function InsertRows(table: IndexTable, t: string, rows: seq<seq<string>>, cols: Columns): (r: IndexTable)
    ensures forall k :: k in table ==> k in r
    ensures forall k :: k in r && k.0 != t ==> k in table && r[k] == table[k]
    decreases |rows|
  {
    if |rows| == 0 then table
    else
      var before := InsertRows(table, t, rows[..|rows| - 1], cols);
      var row := rows[|rows| - 1];
      if Stored(row, cols) then before[(t, RowCode(row, cols).value) := RowMember(row, cols)] else before
  }

  /** `save_index_stocks(index_type, stocks, fields)`: replace every row of one index type. */
  function SaveIndexStocks(table: IndexTable, t: string, stocks: seq<seq<string>>, fields: seq<string>): (r: IndexTable)
    ensures forall k: (string, string) :: k.0 != t ==> (k in r <==> k in table)
    ensures forall k :: k in r && k.0 != t ==> r[k] == table[k]
  {
    InsertRows(DropType(table, t), t, stocks, ResolveColumns(fields))
  }

  /** The rows of type `t` after the insert loop: the last stored row per code wins. */
  lemma {:induction false} InsertRowsContents(table: IndexTable, t: string, rows: seq<seq<string>>, cols: Columns, code: string)
    ensures var r := InsertRows(table, t, rows, cols);
            ((t, code) in r <==> (t, code) in table || LastRowFor(rows, cols, code).Some?)
            && (LastRowFor(rows, cols, code).Some? ==> r[(t, code)] == RowMember(rows[LastRowFor(rows, cols, code).value], cols))
            && (LastRowFor(rows, cols, code).None? && (t, code) in table ==> r[(t, code)] == table[(t, code)])
    decreases |rows|
  {
    if |rows| > 0 {
      InsertRowsContents(table, t, rows[..|rows| - 1], cols, code);
      var last := |rows| - 1;
      if !(Stored(rows[last], cols) && RowCode(rows[last], cols) == Some(code)) {
        assert LastRowFor(rows, cols, code) == LastRowFor(rows[..last], cols, code);
        var p := LastRowFor(rows[..last], cols, code);
        if p.Some? { assert rows[..last][p.value] == rows[p.value]; }
      }
    }
  }

  /**
   * After saving, type `t` holds exactly the codes of the stored input rows,
   * each with the name and date of its last row.
   */
  lemma SaveIndexStocksContents(table: IndexTable, t: string, stocks: seq<seq<string>>, fields: seq<string>, code: string)
    ensures var r := SaveIndexStocks(table, t, stocks, fields);
            var cols := ResolveColumns(fields);
            ((t, code) in r <==> exists i :: 0 <= i < |stocks| && Stored(stocks[i], cols) && RowCode(stocks[i], cols) == Some(code))
            && ((t, code) in r ==>
                  exists i :: (0 <= i < |stocks| && RowCode(stocks[i], cols) == Some(code)
                    && r[(t, code)] == RowMember(stocks[i], cols)
                    && forall j :: i < j < |stocks| ==> RowCode(stocks[j], cols) != Some(code)))
  {
    var cols := ResolveColumns(fields);
    InsertRowsContents(DropType(table, t), t, stocks, cols, code);
  }

  /** The codes of one index type. */
  function CodesOf(table: IndexTable, t: string): set<string>
  {
    set k | k in table && k.0 == t :: k.1
  }

  lemma CodesOfMember(table: IndexTable, t: string, code: string)
    ensures code in CodesOf(table, t) <==> (t, code) in table
  {
    if (t, code) in table {
      var k := (t, code);
      assert k in table && k.0 == t;
    }
  }

  /** The rows of one index type. */
  function RowsOf(table: IndexTable, t: string): set<(string, string)>
  {
    set k | k in table && k.0 == t
  }

  /** Within one index type the code is the key, so rows and codes correspond one to one. */
  lemma {:induction false} RowsMatchCodes(rows: set<(string, string)>, t: string)
    requires forall k :: k in rows ==> k.0 == t
    ensures |set k | k in rows :: k.1| == |rows|
    decreases |rows|
  {
    if rows != {} {
      var x :| x in rows;
      var rest := rows - {x};
      RowsMatchCodes(rest, t);
      var codes := set k | k in rows :: k.1;
      var restCodes := set k | k in rest :: k.1;
      assert codes == restCodes + {x.1};
      assert x.1 !in restCodes;
    }
  }

  /**
   * `get_stock_count(index_type)`: `COUNT(*)` over the rows of one index
   * type, which is the number of its distinct member codes.
   */
  function GetStockCount(table: IndexTable, t: string): (n: nat)
    ensures n == |CodesOf(table, t)|
    ensures n == 0 <==> forall k :: k in table ==> k.0 != t
  {
    var rows := RowsOf(table, t);
    RowsMatchCodes(rows, t);
    assert (set k | k in rows :: k.1) == CodesOf(table, t);
    if rows == {} then
      assert forall k :: k in table && k.0 == t ==> k in rows;
      |rows|
    else
      var k :| k in rows;
      |rows|
  }

  /** The distinct codes of the stored input rows. */
  function StoredCodes(stocks: seq<seq<string>>, cols: Columns): set<string>
  {
    set i | 0 <= i < |stocks| && Stored(stocks[i], cols) :: RowCode(stocks[i], cols).value
  }

  /** After a save, the count of an index type is the number of distinct non-empty input codes. */
  lemma CountAfterSave(table: IndexTable, t: string, stocks: seq<seq<string>>, fields: seq<string>)
    ensures GetStockCount(SaveIndexStocks(table, t, stocks, fields), t)
            == |StoredCodes(stocks, ResolveColumns(fields))|
  {
    var r := SaveIndexStocks(table, t, stocks, fields);
    var cols := ResolveColumns(fields);
    forall code
      ensures code in CodesOf(r, t) <==> code in StoredCodes(stocks, cols)
    {
      CodesOfMember(r, t, code);
      SaveIndexStocksContents(table, t, stocks, fields, code);
      if code in StoredCodes(stocks, cols) {
        var i :| 0 <= i < |stocks| && Stored(stocks[i], cols) && RowCode(stocks[i], cols).value == code;
        assert RowCode(stocks[i], cols) == Some(code);
      }
    }
    assert CodesOf(r, t) == StoredCodes(stocks, cols);
  }

  /** One membership row as `get_index_stocks` returns it. */
  datatype IndexEntry = IndexEntry(code: string, name: Option<string>, updateDate: Option<string>)

  /**
   * `get_index_stocks(index_type)`. The query has no `ORDER BY`; the model
   * returns the rows in ascending code order.
   */
  function GetIndexStocks(table: IndexTable, t: string): (r: seq<IndexEntry>)
    ensures forall i :: 0 <= i < |r| ==>
      (t, r[i].code) in table && table[(t, r[i].code)] == Member(r[i].name, r[i].updateDate)
    ensures forall code :: (t, code) in table ==> exists i :: 0 <= i < |r| && r[i].code == code
    ensures forall i, j :: 0 <= i < j < |r| ==> r[i].code != r[j].code
  {
    var codes := Sorted(CodesOf(table, t));
    forall code ensures code in CodesOf(table, t) <==> (t, code) in table {
      CodesOfMember(table, t, code);
    }
    forall i, j | 0 <= i < j < |codes| ensures codes[i] != codes[j] {
      LtIrreflexive(codes[i]);
    }
    var r := seq(|codes|, i requires 0 <= i < |codes| =>
      IndexEntry(codes[i], table[(t, codes[i])].name, table[(t, codes[i])].updateDate));
    forall code | (t, code) in table ensures exists i :: 0 <= i < |r| && r[i].code == code {
      var i :| 0 <= i < |codes| && codes[i] == code;
      assert r[i].code == code;
    }
    r
  }

  /** `get_all_stock_codes()`: `SELECT DISTINCT code`, across every index type. */
  function AllStockCodes(table: IndexTable): (r: seq<string>)
    ensures forall code :: code in r <==> exists k :: k in table && k.1 == code
    ensures forall i, j :: 0 <= i < j < |r| ==> r[i] != r[j]
  {
    var codes := set k | k in table :: k.1;
    var r := Sorted(codes);
    forall i, j | 0 <= i < j < |r| ensures r[i] != r[j] {
      LtIrreflexive(r[i]);
    }
    r
  }

  /** The index types that list `code`. */
  function TypesListing(table: IndexTable, code: string): set<string>
  {
    set k | k in table && k.1 == code :: k.0
  }

  /**
   * `get_stock_name(code)`: the name of one row listing the code, or `None`
   * when there is no such row or that row's name is missing or empty. The
   * query's `LIMIT 1` has no `ORDER BY`; the model reads the row of the
   * least index type.
   */
  function GetStockName(table: IndexTable, code: string): (r: Option<string>)
    ensures r.Some? ==> r.value != "" && exists t :: (t, code) in table && table[(t, code)].name == r
    ensures (forall k :: k in table ==> k.1 != code) ==> r.None?
    ensures (exists t :: (t, code) in table)
            && (forall t :: (t, code) in table ==> table[(t, code)].name.Some? && table[(t, code)].name.value != "")
            ==> r.Some?
  {
    var types := TypesListing(table, code);
    if types == {} then
      assert forall t :: (t, code) in table ==> t in types by {
        forall t | (t, code) in table ensures t in types {
          var k := (t, code);
          assert k in table && k.1 == code;
        }
      }
      None
    else
      var t := Least(types);
      assert (t, code) in table by {
        var k :| k in table && k.1 == code && k.0 == t;
      }
      var m := table[(t, code)];
      if m.name.Some? && m.name.value != "" then m.name else None
  }

  // ---------------------------------------------------------------- daily bars

  /** The stored columns of one daily bar besides its key. */
  datatype BarValues = BarValues(open: real, high: real, low: real, close: real,
                                 volume: real, amount: real, adjustFlag: string)

  /** One record handed to `save_stock_daily_data`. */
  datatype DailyRecord = DailyRecord(date: string, values: BarValues)

  /** `stock_daily_data`, keyed by `(code, date)`. */
  type BarTable = map<(string, string), BarValues>

  /** One row returned by the range query. */
  datatype Bar = Bar(code: string, date: string, values: BarValues)

  /** The last record of a batch on `date`: the one whose `INSERT OR REPLACE` survives. */
  function LastRecordOn(data: seq<DailyRecord>, date: string): (r: Option<nat>)
    ensures r.Some? ==> r.value < |data| && data[r.value].date == date
                        && forall j :: r.value < j < |data| ==> data[j].date != date
    ensures r.None? ==> forall j :: 0 <= j < |data| ==> data[j].date != date
  {
    if |data| == 0 then None
    else if data[|data| - 1].date == date then Some(|data| - 1)
    else LastRecordOn(data[..|data| - 1], date)
  }

  /** `save_stock_daily_data(code, data)`: one upsert per record, in order. */
  function SaveDailyData(bars: BarTable, code: string, data: seq<DailyRecord>): (r: BarTable)
    ensures forall k :: k in bars ==> k in r
    ensures forall k :: k in r && k.0 != code ==> k in bars && r[k] == bars[k]
    decreases |data|
  {
    if |data| == 0 then bars
    else
      var last := data[|data| - 1];
      SaveDailyData(bars, code, data[..|data| - 1])[(code, last.date) := last.values]
  }

  /** After an upsert batch, each date of the code holds its last record, and no other date is touched. */
  lemma {:induction false} SaveDailyDataContents(bars: BarTable, code: string, data: seq<DailyRecord>, date: string)
    ensures var r := SaveDailyData(bars, code, data);
            ((code, date) in r <==> (code, date) in bars || LastRecordOn(data, date).Some?)
            && (LastRecordOn(data, date).Some? ==> r[(code, date)] == data[LastRecordOn(data, date).value].values)
            && (LastRecordOn(data, date).None? && (code, date) in bars ==> r[(code, date)] == bars[(code, date)])
    decreases |data|
  {
    if |data| > 0 {
      SaveDailyDataContents(bars, code, data[..|data| - 1], date);
      var last := |data| - 1;
      if data[last].date != date {
        assert LastRecordOn(data, date) == LastRecordOn(data[..last], date);
        var p := LastRecordOn(data[..last], date);
        if p.Some? { assert data[..last][p.value] == data[p.value]; }
      }
    }
  }

  /** The dates stored for one code. */
  function DatesOf(bars: BarTable, code: string): set<string>
  {
    set k | k in bars && k.0 == code :: k.1
  }

  lemma DatesOfMember(bars: BarTable, code: string, date: string)
    ensures date in DatesOf(bars, code) <==> (code, date) in bars
  {
    if (code, date) in bars {
      var k := (code, date);
      assert k in bars && k.0 == code;
    }
  }

  /** A query bound is used only when it is truthy: `None` and `""` both mean "no bound". */
  predicate BoundSet(b: Option<string>)
  {
    b.Some? && b.value != ""
  }

  /** `date >= start` and `date <= end`, for whichever bounds are set. */
  predicate InRange(date: string, start: Option<string>, end: Option<string>)
  {
    (BoundSet(start) ==> Le(start.value, date)) && (BoundSet(end) ==> Le(date, end.value))
  }

  function DatesOfBars(r: seq<Bar>): (ds: seq<string>)
    ensures |ds| == |r|
  {
    seq(|r|, i requires 0 <= i < |r| => r[i].date)
  }

  /**
   * `get_stock_daily_data_from_db(code, start_date, end_date)`: the bars of
   * one code within the inclusive bounds, `ORDER BY date ASC`.
   */
  function QueryBars(bars: BarTable, code: string, start: Option<string>, end: Option<string>): (r: seq<Bar>)
    ensures forall i :: 0 <= i < |r| ==>
      r[i].code == code && (code, r[i].date) in bars
      && r[i].values == bars[(code, r[i].date)] && InRange(r[i].date, start, end)
    ensures forall date :: (code, date) in bars && InRange(date, start, end)
              ==> exists i :: 0 <= i < |r| && r[i].date == date
    ensures StrictlyAscending(DatesOfBars(r))
  {
    var selected := set d | d in DatesOf(bars, code) && InRange(d, start, end);
    var ds := Sorted(selected);
    forall d ensures d in selected <==> (code, d) in bars && InRange(d, start, end) {
      DatesOfMember(bars, code, d);
    }
    var r := seq(|ds|, i requires 0 <= i < |ds| => Bar(code, ds[i], bars[(code, ds[i])]));
    assert DatesOfBars(r) == ds;
    r
  }

  lemma NothingBelowEmpty(d: string)
    ensures Le(d, "") <==> d == ""
  {
  }

  /**
   * `get_stock_data_last_update_date(code)`: `MAX(date)` over the code's bars,
   * or `None` when it has none (or the maximum is the falsy empty string).
   */
  function LastUpdateDate(bars: BarTable, code: string): (r: Option<string>)
    ensures r.Some? ==> (code, r.value) in bars && forall d :: (code, d) in bars ==> Le(d, r.value)
    ensures r.None? <==> forall d :: (code, d) in bars ==> d == ""
  {
    var ds := DatesOf(bars, code);
    forall d ensures d in ds <==> (code, d) in bars {
      DatesOfMember(bars, code, d);
    }
    if ds == {} then None
    else
      var m := Greatest(ds);
      if m == "" then
        assert forall d :: d in ds ==> Le(d, "");
        None
      else Some(m)
  }

  /** After saving a batch, the last update date is at least every date of the batch. */
  lemma LastUpdateAfterSave(bars: BarTable, code: string, data: seq<DailyRecord>, i: nat)
    requires i < |data| && data[i].date != ""
    ensures var u := LastUpdateDate(SaveDailyData(bars, code, data), code);
            u.Some? && Le(data[i].date, u.value)
  {
    SaveDailyDataContents(bars, code, data, data[i].date);
  }
}

=== FILE: chat_history.dfy ===
/**
 * The chat agent's per-device conversation store: a bounded history per
 * device (a deque with `maxlen`), the device registry around it, the context
 * handed to the agent, and the set of accepted API keys read from settings.
 * Timestamps are not modelled.
 */
module ChatHistory {
  import opened Wrappers
  import opened Text

  /** One stored message; `kind` is `"text"` or `"audio"`. */
  datatype Message = Message(role: string, content: string, kind: string)

  /** The last `k` elements of `s` (all of them when there are fewer). */
  function Last<T>(s: seq<T>, k: nat): (r: seq<T>)
    ensures |r| == if |s| <= k then |s| else k
    ensures forall i :: 0 <= i < |r| ==> r[i] == s[|s| - |r| + i]
  {
    if |s| <= k then s else s[|s| - k..]
  }

  /**
   * `deque.append` on a deque with `maxlen`: with no room the oldest element
   * is dropped first; with `maxlen == 0` nothing is ever kept.
   */
  function Push<T>(s: seq<T>, x: T, maxlen: nat): seq<T>
  {
    if maxlen == 0 then []
    else if |s| >= maxlen then s[|s| - maxlen + 1..] + [x]
    else s + [x]
  }

  /** A bounded deque always holds the newest `maxlen` elements appended to it. */
  lemma PushKeepsNewest<T>(s: seq<T>, x: T, maxlen: nat)
    requires |s| <= maxlen
    ensures Push(s, x, maxlen) == Last(s + [x], maxlen)
  {
    if maxlen > 0 && |s| >= maxlen {
      assert (s + [x])[|s| + 1 - maxlen..] == s[|s| - maxlen + 1..] + [x];
    }
  }

  function PushAll<T>(s: seq<T>, xs: seq<T>, maxlen: nat): seq<T>
    decreases |xs|
  {
    if |xs| == 0 then s else Push(PushAll(s, xs[..|xs| - 1], maxlen), xs[|xs| - 1], maxlen)
  }

  /** After any appends, the deque holds the newest `maxlen` elements of everything appended. */
  lemma {:induction false} PushAllKeepsNewest<T>(s: seq<T>, xs: seq<T>, maxlen: nat)
    requires |s| <= maxlen
    ensures PushAll(s, xs, maxlen) == Last(s + xs, maxlen)
    decreases |xs|
  {
    if |xs| == 0 {
      assert s + xs == s;
    } else {
      var n := |xs| - 1;
      PushAllKeepsNewest(s, xs[..n], maxlen);
      var front := Last(s + xs[..n], maxlen);
      assert PushAll(s, xs, maxlen) == Push(front, xs[n], maxlen);
      PushKeepsNewest(front, xs[n], maxlen);
      LastOfLast(s + xs[..n], xs[n], maxlen);
      assert s + xs[..n] + [xs[n]] == s + xs;
      assert Push(front, xs[n], maxlen) == Last(s + xs, maxlen);
    }
  }

  /** Keeping any positive number of elements keeps the newest one. */
  lemma NewestKept<T>(s: seq<T>, k: nat)
    requires |s| > 0 && k > 0
    ensures |Last(s, k)| > 0 && Last(Last(s, k), 1)[0] == s[|s| - 1]
  {
  }

  lemma LastOfLast<T>(s: seq<T>, x: T, k: nat)
    ensures Last(Last(s, k) + [x], k) == Last(s + [x], k)
  {
    var a := Last(Last(s, k) + [x], k);
    var b := Last(s + [x], k);
    assert |a| == |b|;
    forall i | 0 <= i < |a| ensures a[i] == b[i] {
      if i == |a| - 1 {
      } else {
        assert a[i] == Last(s, k)[|Last(s, k)| + 1 - |a| + i];
      }
    }
  }

  /** `ChatHistory`: one device's messages, at most `maxHistory` of them. */
  datatype History = History(deviceId: string, maxHistory: nat, messages: seq<Message>)

  predicate Bounded(h: History)
  {
    |h.messages| <= h.maxHistory
  }

  const DefaultMaxHistory: nat := 100

  function NewHistory(deviceId: string): (h: History)
    ensures Bounded(h) && h.deviceId == deviceId && |h.messages| == 0
  {
    History(deviceId, DefaultMaxHistory, [])
  }

  /** `add_message`: the bound holds afterwards, and the new message is the newest. */
  function AddMessage(h: History, m: Message): (r: History)
    requires Bounded(h)
    ensures Bounded(r) && r.deviceId == h.deviceId && r.maxHistory == h.maxHistory
    ensures r.messages == Last(h.messages + [m], h.maxHistory)
  {
    PushKeepsNewest(h.messages, m, h.maxHistory);
    h.(messages := Push(h.messages, m, h.maxHistory))
  }

  /** Python's `s[start:]` for any integer `start`: negative counts from the end, both clamped. */
  function SliceFrom<T>(s: seq<T>, start: int): seq<T>
  {
    var i := if start < 0 then (if start + |s| < 0 then 0 else start + |s|)
             else (if start > |s| then |s| else start);
    s[i..]
  }

  /**
   * `get_history(limit)`: everything when `limit` is `None` or 0, otherwise
   * `messages[-limit:]` — the last `limit` messages for a positive limit, and
   * all but the first `-limit` for a negative one.
   */
  function GetHistory(h: History, limit: Option<int>): (r: seq<Message>)
    ensures limit.None? || limit.value == 0 ==> r == h.messages
    ensures limit.Some? && limit.value > 0 ==> r == Last(h.messages, limit.value)
    ensures limit.Some? && limit.value < 0 ==>
              r == h.messages[if -limit.value < |h.messages| then -limit.value else |h.messages|..]
  {
    if limit.None? || limit.value == 0 then h.messages
    else SliceFrom(h.messages, -limit.value)
  }

  function ClearHistory(h: History): (r: History)
    ensures Bounded(r) && |r.messages| == 0 && r.deviceId == h.deviceId && r.maxHistory == h.maxHistory
  {
    h.(messages := [])
  }

  // ---------------------------------------------------------------- the service

  /** `ChatService`: the device registry and the accepted API keys. */
  datatype Service = Service(histories: map<string, History>, validKeys: set<string>)

  predicate AllBounded(s: Service)
  {
    forall d :: d in s.histories ==> Bounded(s.histories[d])
  }

  /** A service as constructed: no devices, keys loaded from the two settings. */
  function NewService(apiKey: string, apiKeys: string): Service
  {
    Service(map[], LoadValidApiKeys(apiKey, apiKeys))
  }

  /**
   * `_load_valid_api_keys`: `API_KEY` when it is non-empty, plus every
   * comma-separated part of `API_KEYS` that is non-empty once stripped,
   * stored stripped. (`API_KEY` itself is not stripped.)
   */
  function LoadValidApiKeys(apiKey: string, apiKeys: string): (keys: set<string>)
    ensures forall k :: k in keys ==> k != ""
    ensures apiKey != "" <==> apiKey in keys
  {
    var single: set<string> := if apiKey != "" then {apiKey} else {};
    var parts := if apiKeys != "" then Split(apiKeys, ',') else [];
    single + (set p | p in parts && Strip(p) != "" :: Strip(p))
  }

  /** Keys without commas or whitespace survive a write-out as `API_KEYS` and a reload. */
  lemma ApiKeysRoundTrip(ks: seq<string>)
    requires |ks| >= 1
    requires forall i :: 0 <= i < |ks| ==> ks[i] != "" && ',' !in ks[i]
    requires forall i, j :: 0 <= i < |ks| && 0 <= j < |ks[i]| ==> !IsSpace(ks[i][j])
    ensures LoadValidApiKeys("", Join(ks, ',')) == set k | k in ks
  {
    JoinSplitRoundTrip(ks, ',');
    var joined := Join(ks, ',');
    assert joined != "" by {
      JoinLength(ks, ',');
    }
    forall k | k in ks ensures Strip(k) == k {
      var i :| 0 <= i < |ks| && ks[i] == k;
      StripIsTrimmedSlice(k);
    }
  }

  lemma {:induction false} JoinLength(parts: seq<string>, sep: char)
    requires |parts| >= 1
    ensures |Join(parts, sep)| >= |parts[0]|
  {
  }

  /** Joining parts that do not contain the separator and splitting again gives the parts back. */
  lemma {:induction false} JoinSplitRoundTrip(parts: seq<string>, sep: char)
    requires |parts| >= 1
    requires forall i :: 0 <= i < |parts| ==> sep !in parts[i]
    ensures Split(Join(parts, sep), sep) == parts
    decreases |parts|
  {
    if |parts| > 1 {
      SplitAtFirst(parts[0], sep, Join(parts[1..], sep));
      JoinSplitRoundTrip(parts[1..], sep);
      assert parts == [parts[0]] + parts[1..];
    }
  }

  /** `validate_api_key`: set membership. */
  function ValidateApiKey(s: Service, apiKey: string): (ok: bool)
    ensures ok ==> apiKey != "" || "" in s.validKeys
  {
    apiKey in s.validKeys
  }

  /**
   * Against a freshly loaded key set, a key validates exactly when it is the
   * non-empty `API_KEY` or the stripped form of a part of `API_KEYS`; the
   * empty key never does.
   */
  lemma ValidateAgainstSettings(apiKey: string, apiKeys: string, k: string)
    ensures ValidateApiKey(NewService(apiKey, apiKeys), k)
            <==> k != "" && (k == apiKey || (apiKeys != "" && exists p :: p in Split(apiKeys, ',') && Strip(p) == k))
    ensures !ValidateApiKey(NewService(apiKey, apiKeys), "")
  {
    var keys := LoadValidApiKeys(apiKey, apiKeys);
    assert ValidateApiKey(NewService(apiKey, apiKeys), k) == (k in keys);
    if apiKeys != "" && k != "" && (exists p :: p in Split(apiKeys, ',') && Strip(p) == k) {
      var p :| p in Split(apiKeys, ',') && Strip(p) == k;
      assert k in keys;
    }
  }

  /** `register_device`: create a history for a new device; an existing one is returned unchanged. */
  function RegisterDevice(s: Service, deviceId: string): (r: (Service, History))
    ensures deviceId in r.0.histories && r.0.histories[deviceId] == r.1
    ensures r.0.validKeys == s.validKeys
    ensures deviceId in s.histories ==> r.0 == s
    ensures deviceId !in s.histories ==> r.1 == NewHistory(deviceId)
    ensures forall d :: d != deviceId ==> (d in r.0.histories <==> d in s.histories)
    ensures forall d :: d != deviceId && d in s.histories ==> r.0.histories[d] == s.histories[d]
  {
    if deviceId !in s.histories then
      var h := NewHistory(deviceId);
      (s.(histories := s.histories[deviceId := h]), h)
    else (s, s.histories[deviceId])
  }

  /** Registering again changes nothing. */
  lemma RegisterIdempotent(s: Service, deviceId: string)
    ensures var (s1, h1) := RegisterDevice(s, deviceId);
            RegisterDevice(s1, deviceId) == (s1, h1)
  {
  }

  /** `save_message`: append to a registered device's history; an unknown device is ignored. */
  function SaveMessage(s: Service, deviceId: Option<string>, m: Message): (r: Service)
    requires AllBounded(s)
    ensures AllBounded(r) && r.validKeys == s.validKeys
    ensures deviceId.None? || deviceId.value !in s.histories ==> r == s
    ensures forall d :: d in r.histories <==> d in s.histories
    ensures forall d :: d in s.histories && Some(d) != deviceId ==> r.histories[d] == s.histories[d]
    ensures deviceId.Some? && deviceId.value in s.histories ==>
              r.histories[deviceId.value].messages
              == Last(s.histories[deviceId.value].messages + [m], s.histories[deviceId.value].maxHistory)
  {
    if deviceId.Some? && deviceId.value in s.histories then
      var d := deviceId.value;
      s.(histories := s.histories[d := AddMessage(s.histories[d], m)])
    else s
  }

  /** What the agent sees of one message. */
  datatype ContextMessage = ContextMessage(role: string, content: string)

  /** Two messages saved in a row land in order, as one two-element append would. */
  lemma SaveTwoMessages(s: Service, d: string, m1: Message, m2: Message)
    requires AllBounded(s) && d in s.histories
    ensures var r := SaveMessage(SaveMessage(s, Some(d), m1), Some(d), m2);
            var h := s.histories[d];
            && r.histories[d].messages == Last(h.messages + [m1, m2], h.maxHistory)
            && forall e :: e in s.histories && e != d ==> r.histories[e] == s.histories[e]
  {
    var h := s.histories[d];
    LastOfLast(h.messages + [m1], m2, h.maxHistory);
    assert h.messages + [m1] + [m2] == h.messages + [m1, m2];
  }

  const DefaultContextLimit: int := 10

  /** `get_conversation_context`: the last `limit` messages of a device, reduced to role and content. */
  function GetConversationContext(s: Service, deviceId: Option<string>, limit: int): (r: seq<ContextMessage>)
    ensures deviceId.None? || deviceId.value !in s.histories ==> r == []
    ensures deviceId.Some? && deviceId.value in s.histories ==>
              var msgs := GetHistory(s.histories[deviceId.value], Some(limit));
              |r| == |msgs| && forall i :: 0 <= i < |r| ==> r[i] == ContextMessage(msgs[i].role, msgs[i].content)
  {
    if deviceId.None? || deviceId.value !in s.histories then []
    else
      var msgs := GetHistory(s.histories[deviceId.value], Some(limit));
      seq(|msgs|, i requires 0 <= i < |msgs| => ContextMessage(msgs[i].role, msgs[i].content))
  }

  /** The default context holds at most ten messages: the newest ones, in order. */
  lemma DefaultContextIsNewestTen(s: Service, deviceId: string)
    requires deviceId in s.histories
    ensures var r := GetConversationContext(s, Some(deviceId), DefaultContextLimit);
            var msgs := s.histories[deviceId].messages;
            |r| <= 10 && |r| == (if |msgs| <= 10 then |msgs| else 10)
            && forall i :: 0 <= i < |r| ==> r[i].content == msgs[|msgs| - |r| + i].content
  {
  }

  /** `clear_device_history`: empty the history, keep the device; unknown devices are ignored. */
  function ClearDeviceHistory(s: Service, deviceId: string): (r: Service)
    ensures forall d :: d in r.histories <==> d in s.histories
    ensures deviceId in s.histories ==> |r.histories[deviceId].messages| == 0
    ensures forall d :: d in s.histories && d != deviceId ==> r.histories[d] == s.histories[d]
    ensures deviceId !in s.histories ==> r == s
    ensures AllBounded(s) ==> AllBounded(r)
  {
    if deviceId in s.histories then
      s.(histories := s.histories[deviceId := ClearHistory(s.histories[deviceId])])
    else s
  }

  /** `remove_device`: forget the device; unknown devices are ignored. */
  function RemoveDevice(s: Service, deviceId: string): (r: Service)
    ensures deviceId !in r.histories
    ensures forall d :: d != deviceId ==> (d in r.histories <==> d in s.histories)
    ensures forall d :: d in r.histories ==> r.histories[d] == s.histories[d]
    ensures deviceId !in s.histories ==> r == s
    ensures AllBounded(s) ==> AllBounded(r)
  {
    if deviceId in s.histories then s.(histories := s.histories - {deviceId}) else s
  }

  /** After a clear, saving starts a fresh history; after a remove, saving is ignored. */
  lemma ClearThenRemoveDiffer(s: Service, deviceId: string, m: Message)
    requires AllBounded(s) && deviceId in s.histories && s.histories[deviceId].maxHistory > 0
    ensures SaveMessage(ClearDeviceHistory(s, deviceId), Some(deviceId), m).histories[deviceId].messages == [m]
    ensures SaveMessage(RemoveDevice(s, deviceId), Some(deviceId), m) == RemoveDevice(s, deviceId)
  {
  }
}

=== FILE: chat_state_machine.dfy ===
/**
 * The per-connection state machine of the chat agent: INIT until an API key
 * is accepted, AUTHENTICATED until a device registers, READY, then CHATTING.
 * Each transition is guarded by the state it starts from; a refused
 * transition reports `false` and changes nothing. Only `reset` goes back.
 */
module ChatStateMachine {
  import opened Wrappers

  datatype ChatState = Init | Authenticated | Ready | Chatting

  /** The `value` of each state, as reported to clients. */
  function StateValue(s: ChatState): string
  {
    match s
    case Init => "init"
    case Authenticated => "authenticated"
    case Ready => "ready"
    case Chatting => "chatting"
  }

  datatype Machine = Machine(state: ChatState, apiKey: Option<string>, deviceId: Option<string>)

  /** A freshly constructed machine. */
  function Initial(): Machine
  {
    Machine(Init, None, None)
  }

  /** The key is set exactly after authentication, the device exactly once registered. */
  predicate Valid(m: Machine)
  {
    && (m.apiKey.Some? <==> m.state != Init)
    && (m.deviceId.Some? <==> m.state == Ready || m.state == Chatting)
  }

  function IsAuthenticated(m: Machine): bool
  {
    m.state != Init
  }

  function IsReady(m: Machine): bool
  {
    m.state == Ready || m.state == Chatting
  }

  /** On a valid machine, being authenticated means holding a key, being ready means holding a device. */
  lemma QueriesMatchFields(m: Machine)
    requires Valid(m)
    ensures IsAuthenticated(m) <==> m.apiKey.Some?
    ensures IsReady(m) <==> m.deviceId.Some?
    ensures IsReady(m) ==> IsAuthenticated(m)
  {
  }

  /** A transition's outcome: whether it was accepted, and the machine after it. */
  datatype Step = Step(ok: bool, machine: Machine)

  /** `authenticate`: accepted only in INIT; records the key and moves one step forward. */
  function Authenticate(m: Machine, apiKey: string): (r: Step)
    ensures r.ok <==> m.state == Init
    ensures r.ok ==> Rank(r.machine.state) == Rank(m.state) + 1 && r.machine.apiKey == Some(apiKey)
    ensures Valid(m) ==> Valid(r.machine)
    ensures r.ok ==> r.machine == m.(state := Authenticated, apiKey := Some(apiKey))
    ensures !r.ok ==> r.machine == m
  {
    if m.state != Init then Step(false, m)
    else Step(true, m.(apiKey := Some(apiKey), state := Authenticated))
  }

  /** `register_device`: accepted only once authenticated; keeps the key, records the device. */
  function RegisterDevice(m: Machine, deviceId: string): (r: Step)
    ensures r.ok <==> m.state == Authenticated
    ensures r.ok ==> && Rank(r.machine.state) == Rank(m.state) + 1
                     && r.machine.apiKey == m.apiKey && r.machine.deviceId == Some(deviceId)
    ensures Valid(m) ==> Valid(r.machine)
    ensures r.ok ==> r.machine == m.(state := Ready, deviceId := Some(deviceId))
    ensures !r.ok ==> r.machine == m
  {
    if m.state != Authenticated then Step(false, m)
    else Step(true, m.(deviceId := Some(deviceId), state := Ready))
  }

  /** `start_chatting`: accepted only when READY; keeps key and device. */
  function StartChatting(m: Machine): (r: Step)
    ensures r.ok <==> m.state == Ready
    ensures r.ok ==> && Rank(r.machine.state) == Rank(m.state) + 1
                     && r.machine.apiKey == m.apiKey && r.machine.deviceId == m.deviceId
    ensures Valid(m) ==> Valid(r.machine)
    ensures r.ok ==> r.machine == m.(state := Chatting)
    ensures !r.ok ==> r.machine == m
  {
    if m.state != Ready then Step(false, m)
    else Step(true, m.(state := Chatting))
  }

  /** `reset`: back to the freshly constructed machine, whatever the state; it forgets key and device. */
  function Reset(m: Machine): (r: Machine)
    ensures r == Initial()
    ensures !IsAuthenticated(r) && !IsReady(r) && Valid(r)
  {
    Machine(Init, None, None)
  }

  /** The operations a connection can apply to its machine. */
  datatype Op = AuthenticateOp(apiKey: string) | RegisterOp(deviceId: string) | StartOp | ResetOp

  function Apply(m: Machine, op: Op): Machine
  {
    match op
    case AuthenticateOp(k) => Authenticate(m, k).machine
    case RegisterOp(d) => RegisterDevice(m, d).machine
    case StartOp => StartChatting(m).machine
    case ResetOp => Reset(m)
  }

  /** The machine after a sequence of operations from the initial one. */
  function Run(ops: seq<Op>): Machine
  {
    if |ops| == 0 then Initial() else Apply(Run(ops[..|ops| - 1]), ops[|ops| - 1])
  }

  /** Every operation keeps the field invariant. */
  lemma ApplyKeepsValid(m: Machine, op: Op)
    requires Valid(m)
    ensures Valid(Apply(m, op))
  {
  }

  /** Every reachable machine satisfies the field invariant. */
  lemma {:induction false} ReachableIsValid(ops: seq<Op>)
    ensures Valid(Run(ops))
  {
    if |ops| > 0 {
      ReachableIsValid(ops[..|ops| - 1]);
      ApplyKeepsValid(Run(ops[..|ops| - 1]), ops[|ops| - 1]);
    }
  }

  /** How far along the handshake a state is. */
  function Rank(s: ChatState): nat
  {
    match s
    case Init => 0
    case Authenticated => 1
    case Ready => 2
    case Chatting => 3
  }

  /** Transitions other than `reset` only move forward, one state at a time; none leaves CHATTING. */
  lemma OnlyResetGoesBack(m: Machine, op: Op)
    requires !op.ResetOp?
    ensures Rank(Apply(m, op).state) == Rank(m.state) || Rank(Apply(m, op).state) == Rank(m.state) + 1
    ensures m.state == Chatting ==> Apply(m, op) == m
  {
  }

  /** The accepted path from a fresh machine: key, device, chat. */
  lemma HandshakeReachesChatting(apiKey: string, deviceId: string)
    ensures Run([AuthenticateOp(apiKey), RegisterOp(deviceId), StartOp])
            == Machine(Chatting, Some(apiKey), Some(deviceId))
  {
    var ops := [AuthenticateOp(apiKey), RegisterOp(deviceId), StartOp];
    assert ops[..2][..1] == [AuthenticateOp(apiKey)];
    assert ops[..2] == [AuthenticateOp(apiKey), RegisterOp(deviceId)];
    assert Run(ops[..2][..1]) == Machine(Authenticated, Some(apiKey), None);
  }
}

=== FILE: daily_refresh.dfy ===
/**
 * The daily refresh loop of the stock service: wait until the next 02:00,
 * refresh the index membership, then the bars; on an error cool down for an
 * hour and start over; on cancellation leave the loop. The wall clock is an
 * input: every wake-up carries the time of day at which the trigger is
 * computed and what happened during that round.
 */
module DailyRefresh {

  const SecondsPerDay: real := 86400.0
  /** 02:00:00, in seconds after midnight. */
  const TriggerTime: real := 7200.0
  /** The pause after a failed round. */
  const Cooldown: real := 3600.0

  /** A naive time of day in seconds after midnight (microseconds included). */
  type TimeOfDay = t: real | 0.0 <= t < 86400.0 witness 0.0

  /**
   * Seconds from `now` until the next 02:00: today's when `now` is before it,
   * tomorrow's otherwise (so exactly 02:00:00 waits a whole day).
   */
  function SecondsUntilTrigger(now: TimeOfDay): (wait: real)
    ensures 0.0 < wait <= SecondsPerDay
    ensures wait == SecondsPerDay <==> now == TriggerTime
  {
    var target := if now >= TriggerTime then TriggerTime + SecondsPerDay else TriggerTime;
    target - now
  }

  /**
   * The wait ends on today's or tomorrow's 02:00, and on the first 02:00
   * instant (counted in whole days `k` from today's) strictly after `now`.
   */
  lemma WaitEndsOnNextTrigger(now: TimeOfDay, k: int)
    ensures now + SecondsUntilTrigger(now) == TriggerTime
            || now + SecondsUntilTrigger(now) == TriggerTime + SecondsPerDay
    ensures TriggerTime + SecondsPerDay * k as real > now
            ==> now + SecondsUntilTrigger(now) <= TriggerTime + SecondsPerDay * k as real
  {
    if TriggerTime + SecondsPerDay * k as real > now && k <= 0 {
      assert SecondsPerDay * k as real <= 0.0;
    }
  }

  /** What one round ended with. */
  datatype RoundOutcome =
    | Refreshed          // both refreshes returned
    | MembershipRaised   // `fetch_all_index_stocks` raised
    | BarsRaised         // `refresh_daily_data` raised
    | Cancelled          // the task was cancelled while waiting

  /** One wake-up of the loop: the clock when the trigger was computed, and the outcome. */
  datatype Round = Round(now: TimeOfDay, outcome: RoundOutcome)

  /** The loop's observable steps. */
  datatype Action =
    | WaitForTrigger(seconds: real)
    | RefreshMembership
    | RefreshBars
    | CoolDown(seconds: real)

  /** The steps of one round. */
  function RoundActions(r: Round): seq<Action>
  {
    var wait := WaitForTrigger(SecondsUntilTrigger(r.now));
    match r.outcome
    case Refreshed => [wait, RefreshMembership, RefreshBars]
    case MembershipRaised => [wait, RefreshMembership, CoolDown(Cooldown)]
    case BarsRaised => [wait, RefreshMembership, RefreshBars, CoolDown(Cooldown)]
    case Cancelled => [wait]
  }

  /** `daily_refresh_task`: the rounds run one after another until one is cancelled. */
  function Trace(rounds: seq<Round>): seq<Action>
  {
    if |rounds| == 0 then []
    else if rounds[0].outcome.Cancelled? then RoundActions(rounds[0])
    else RoundActions(rounds[0]) + Trace(rounds[1..])
  }

  /** The failed rounds the loop lived through, up to the first cancellation. */
  function Failures(rounds: seq<Round>): nat
  {
    if |rounds| == 0 || rounds[0].outcome.Cancelled? then 0
    else (if rounds[0].outcome.Refreshed? then 0 else 1) + Failures(rounds[1..])
  }

  function CoolDowns(t: seq<Action>): nat
  {
    if |t| == 0 then 0 else (if t[0].CoolDown? then 1 else 0) + CoolDowns(t[1..])
  }

  lemma {:induction false} CoolDownsAppend(a: seq<Action>, b: seq<Action>)
    ensures CoolDowns(a + b) == CoolDowns(a) + CoolDowns(b)
    decreases |a|
  {
    if |a| > 0 {
      assert (a + b)[1..] == a[1..] + b;
      assert (a + b)[0] == a[0];
      CoolDownsAppend(a[1..], b);
    } else {
      assert a + b == b;
    }
  }

  /** Every failed round costs exactly one hour-long cool-down, and nothing else does. */
  lemma {:induction false} OneCoolDownPerFailure(rounds: seq<Round>)
    ensures CoolDowns(Trace(rounds)) == Failures(rounds)
    decreases |rounds|
  {
    if |rounds| > 0 {
      var head := RoundActions(rounds[0]);
      assert CoolDowns(head) == (if rounds[0].outcome.Cancelled? || rounds[0].outcome.Refreshed? then 0 else 1) by {
        match rounds[0].outcome
        case Refreshed =>
          assert CoolDowns([RefreshBars]) == 0;
          assert CoolDowns([RefreshMembership, RefreshBars]) == 0;
          assert head[1..] == [RefreshMembership, RefreshBars];
        case MembershipRaised =>
          assert CoolDowns([CoolDown(Cooldown)]) == 1;
          assert CoolDowns([RefreshMembership, CoolDown(Cooldown)]) == 1;
          assert head[1..] == [RefreshMembership, CoolDown(Cooldown)];
        case BarsRaised =>
          assert CoolDowns([CoolDown(Cooldown)]) == 1;
          assert CoolDowns([RefreshBars, CoolDown(Cooldown)]) == 1;
          assert CoolDowns([RefreshMembership, RefreshBars, CoolDown(Cooldown)]) == 1;
          assert head[1..] == [RefreshMembership, RefreshBars, CoolDown(Cooldown)];
        case Cancelled =>
          assert head[1..] == [];
      }
      if !rounds[0].outcome.Cancelled? {
        OneCoolDownPerFailure(rounds[1..]);
        CoolDownsAppend(head, Trace(rounds[1..]));
      }
    }
  }

  /** Every bar refresh in `t` comes right after a membership refresh. */
  predicate MembershipFirst(t: seq<Action>)
  {
    forall j :: 0 <= j < |t| && t[j] == RefreshBars ==> j >= 1 && t[j - 1] == RefreshMembership
  }

  /** Every wait in `t` lies in `(0, 86400]` seconds. */
  predicate WaitsWithinADay(t: seq<Action>)
  {
    forall j :: 0 <= j < |t| && t[j].WaitForTrigger? ==> 0.0 < t[j].seconds <= SecondsPerDay
  }

  /** Within a round, the bar refresh always comes right after the membership refresh. */
  lemma RoundOrder(r: Round)
    ensures MembershipFirst(RoundActions(r))
  {
  }

  /** Every bar refresh of the loop is immediately preceded by a membership refresh. */
  lemma {:induction false} MembershipBeforeBars(rounds: seq<Round>)
    ensures MembershipFirst(Trace(rounds))
    decreases |rounds|
  {
    if |rounds| > 0 {
      var head := RoundActions(rounds[0]);
      RoundOrder(rounds[0]);
      if !rounds[0].outcome.Cancelled? {
        MembershipBeforeBars(rounds[1..]);
        var rest := Trace(rounds[1..]);
        var t := head + rest;
        forall j | 0 <= j < |t| && t[j] == RefreshBars
          ensures j >= 1 && t[j - 1] == RefreshMembership
        {
          if j < |head| {
            assert head[j] == RefreshBars;
            assert t[j - 1] == head[j - 1];
          } else {
            assert rest[j - |head|] == RefreshBars;
            assert rest[0].WaitForTrigger? by {
              assert rounds[1..][0] == rounds[1];
            }
            assert j - |head| >= 1;
            assert t[j - 1] == rest[j - |head| - 1];
          }
        }
      }
    }
  }

  /** A cancelled round ends the loop: whatever would have come after it never happens. */
  lemma {:induction false} CancellationEndsLoop(rounds: seq<Round>, i: nat)
    requires i < |rounds| && rounds[i].outcome.Cancelled?
    ensures Trace(rounds) == Trace(rounds[..i + 1])
    decreases i
  {
    if i > 0 {
      assert !rounds[0].outcome.Cancelled? || Trace(rounds) == RoundActions(rounds[0]);
      if !rounds[0].outcome.Cancelled? {
        CancellationEndsLoop(rounds[1..], i - 1);
        assert rounds[1..][..i] == rounds[..i + 1][1..];
      } else {
        assert Trace(rounds[..i + 1]) == RoundActions(rounds[0]);
      }
    }
  }

  /** Every wait of the loop lies in `(0, 86400]` seconds. */
  lemma {:induction false} WaitsBounded(rounds: seq<Round>)
    ensures WaitsWithinADay(Trace(rounds))
    decreases |rounds|
  {
    if |rounds| > 0 && !rounds[0].outcome.Cancelled? {
      WaitsBounded(rounds[1..]);
      var head := RoundActions(rounds[0]);
      var rest := Trace(rounds[1..]);
      var t: seq<Action> := head + rest;
      forall j | 0 <= j < |t| && t[j].WaitForTrigger?
        ensures 0.0 < t[j].seconds <= SecondsPerDay
      {
        if j >= |head| {
          assert t[j] == rest[j - |head|];
        } else {
          assert t[j] == head[j];
          assert j == 0;
          assert head[0] == WaitForTrigger(SecondsUntilTrigger(rounds[0].now));
        }
      }
    }
  }
}

=== FILE: indicators.dfy ===
/**
 * The indicator series behind both golden-cross screens: the rolling simple
 * moving average (pandas `rolling(window).mean()`, undefined during warm-up),
 * the recursive exponential moving average (`ewm(span, adjust=False).mean()`),
 * MACD with its signal line, and the crossover test over two series.
 * Closing prices are exact reals; an undefined (NaN) value is `None`.
 */
module Indicators {
  import opened Wrappers

  // ---------------------------------------------------------------- sums

  function Sum(s: seq<real>): real
  {
    if |s| == 0 then 0.0 else Sum(s[..|s| - 1]) + s[|s| - 1]
  }

  lemma {:induction false} SumFront(s: seq<real>)
    requires |s| > 0
    ensures Sum(s) == s[0] + Sum(s[1..])
    decreases |s|
  {
    if |s| > 1 {
      SumFront(s[..|s| - 1]);
      assert s[..|s| - 1][1..] == s[1..][..|s[1..]| - 1];
    }
  }

  lemma {:induction false} SumConstant(s: seq<real>, c: real)
    requires forall i :: 0 <= i < |s| ==> s[i] == c
    ensures Sum(s) == |s| as real * c
    decreases |s|
  {
    if |s| > 0 { SumConstant(s[..|s| - 1], c); }
  }

  // ---------------------------------------------------------------- SMA

  /** Rolling mean at row `t`: undefined until a full window of `w` rows is available. */
  function SmaAt(x: seq<real>, w: nat, t: nat): Option<real>
    requires w >= 1 && t < |x|
  {
    if t + 1 < w then None else Some(Sum(x[t + 1 - w..t + 1]) / w as real)
  }

  /** `close.rolling(window=w).mean()`. */
  function Sma(x: seq<real>, w: nat): (r: seq<Option<real>>)
    requires w >= 1
    ensures |r| == |x|
  {
    seq(|x|, t requires 0 <= t < |x| => SmaAt(x, w, t))
  }

  /**
   * The rolling mean computed the way a streaming implementation does it,
   * with one running window sum; it agrees with the definition at every row.
   */
  method RollingMean(x: seq<real>, w: nat) returns (r: seq<Option<real>>)
    requires w >= 1
    ensures r == Sma(x, w)
  {
    r := [];
    var sum := 0.0;
    var i := 0;
    while i < |x|
      invariant 0 <= i <= |x|
      invariant |r| == i
      invariant forall t :: 0 <= t < i ==> r[t] == SmaAt(x, w, t)
      invariant sum == Sum(x[WindowStart(i, w)..i])
    {
      if i >= w {
        SlideWindow(x, w, i);
        sum := sum + x[i] - x[i - w];
      } else {
        GrowWindow(x, w, i);
        sum := sum + x[i];
      }
      var mean := if i + 1 < w then None else Some(sum / w as real);
      r := r + [mean];
      i := i + 1;
    }
    assert forall t :: 0 <= t < |x| ==> r[t] == Sma(x, w)[t];
  }

  /** First row of the running window after `i` rows: the window holds at most `w` rows. */
  function WindowStart(i: nat, w: nat): nat
  {
    if i < w then 0 else i - w
  }

  /** Moving a full window one row on: add the new row, drop the oldest. */
  lemma SlideWindow(x: seq<real>, w: nat, i: nat)
    requires 1 <= w <= i < |x|
    ensures Sum(x[i + 1 - w..i + 1]) == Sum(x[i - w..i]) + x[i] - x[i - w]
  {
    var win := x[i - w..i + 1];
    assert win[..w] == x[i - w..i];
    SumFront(win);
    assert win[1..] == x[i + 1 - w..i + 1];
  }

  /** While the window is still filling, the running sum covers every row so far. */
  lemma GrowWindow(x: seq<real>, w: nat, i: nat)
    requires i < w && i < |x|
    ensures Sum(x[..i + 1]) == Sum(x[..i]) + x[i]
    ensures i + 1 == w ==> x[..i + 1] == x[i + 1 - w..i + 1]
  {
    assert x[..i + 1][..i] == x[..i];
  }

  // ---------------------------------------------------------------- EMA

  /** The smoothing factor pandas derives from a span. */
  function Alpha(span: nat): real
  {
    2.0 / (span as real + 1.0)
  }

  /** `ewm(span, adjust=False)`: starts at the first value, then blends each new value in. */
  function EmaAt(x: seq<real>, alpha: real, t: nat): real
    requires t < |x|
  {
    if t == 0 then x[0] else alpha * x[t] + (1.0 - alpha) * EmaAt(x, alpha, t - 1)
  }

  function Ema(x: seq<real>, alpha: real): (r: seq<real>)
    ensures |r| == |x|
  {
    seq(|x|, t requires 0 <= t < |x| => EmaAt(x, alpha, t))
  }

  /** One step of the recurrence, stated for a row after the first. */
  lemma EmaStep(x: seq<real>, alpha: real, t: nat)
    requires 0 < t < |x|
    ensures EmaAt(x, alpha, t) == alpha * x[t] + (1.0 - alpha) * EmaAt(x, alpha, t - 1)
  {
  }

  /** The EMA never leaves the range of the values it averages (for `0 < alpha <= 1`). */
  lemma {:induction false} EmaWithinRange(x: seq<real>, alpha: real, lo: real, hi: real, t: nat)
    requires 0.0 < alpha <= 1.0
    requires t < |x|
    requires forall i :: 0 <= i < |x| ==> lo <= x[i] <= hi
    ensures lo <= EmaAt(x, alpha, t) <= hi
  {
    if t > 0 {
      EmaWithinRange(x, alpha, lo, hi, t - 1);
      EmaStep(x, alpha, t);
      ConvexBetween(alpha, x[t], EmaAt(x, alpha, t - 1), lo, hi);
    }
  }

  lemma MulNonneg(a: real, b: real)
    requires a >= 0.0 && b >= 0.0
    ensures a * b >= 0.0
  {
  }

  /** A blend `a*u + (1-a)*v` with `0 <= a <= 1` lies between any bounds of `u` and `v`. */
  lemma ConvexBetween(a: real, u: real, v: real, lo: real, hi: real)
    requires 0.0 <= a <= 1.0
    requires lo <= u <= hi && lo <= v <= hi
    ensures lo <= a * u + (1.0 - a) * v <= hi
  {
    var d := u - v;
    assert a * u + (1.0 - a) * v == v + a * d;
    if d >= 0.0 {
      MulNonneg(a, d);
      MulNonneg(1.0 - a, d);
      assert (1.0 - a) * d == d - a * d;
    } else {
      MulNonneg(a, -d);
      MulNonneg(1.0 - a, -d);
      assert a * (-d) == -(a * d);
      assert (1.0 - a) * (-d) == a * d - d;
    }
  }

  /** The EMA of a constant series is that constant. */
  lemma {:induction false} ConstantEma(x: seq<real>, alpha: real, c: real, t: nat)
    requires t < |x|
    requires forall i :: 0 <= i < |x| ==> x[i] == c
    ensures EmaAt(x, alpha, t) == c
  {
    if t > 0 {
      ConstantEma(x, alpha, c, t - 1);
      EmaStep(x, alpha, t);
      assert alpha * c + (1.0 - alpha) * c == c;
    }
  }

  /** The streaming EMA loop: one running value, updated per row. */
  method EwmMean(x: seq<real>, span: nat) returns (r: seq<real>)
    ensures |r| == |x|
    ensures r == Ema(x, Alpha(span))
  {
    var alpha := Alpha(span);
    r := [];
    var i := 0;
    while i < |x|
      invariant 0 <= i <= |x|
      invariant |r| == i
      invariant forall t :: 0 <= t < i ==> r[t] == EmaAt(x, alpha, t)
    {
      var next: real;
      if i == 0 {
        next := x[0];
      } else {
        next := alpha * x[i] + (1.0 - alpha) * r[i - 1];
        EmaStep(x, alpha, i);
      }
      r := r + [next];
      i := i + 1;
    }
    assert forall t :: 0 <= t < |x| ==> r[t] == Ema(x, alpha)[t];
  }

  // ---------------------------------------------------------------- MACD

  const FastSpan: nat := 12
  const SlowSpan: nat := 26
  const SignalSpan: nat := 9

  /** MACD line: fast EMA minus slow EMA of the closes. */
  function Macd(x: seq<real>): (r: seq<real>)
    ensures |r| == |x|
  {
    seq(|x|, t requires 0 <= t < |x| => EmaAt(x, Alpha(FastSpan), t) - EmaAt(x, Alpha(SlowSpan), t))
  }

  /** Signal line: the 9-span EMA of the MACD line. */
  function Signal(x: seq<real>): (r: seq<real>)
    ensures |r| == |x|
  {
    Ema(Macd(x), Alpha(SignalSpan))
  }

  function Histogram(x: seq<real>): (r: seq<real>)
    ensures |r| == |x|
  {
    seq(|x|, t requires 0 <= t < |x| => Macd(x)[t] - Signal(x)[t])
  }

  /** Both EMAs start at the first close, so MACD, signal and histogram all start at zero. */
  lemma MacdStartsAtZero(x: seq<real>)
    requires |x| > 0
    ensures Macd(x)[0] == 0.0 && Signal(x)[0] == 0.0 && Histogram(x)[0] == 0.0
  {
  }

  /** A flat series has a flat MACD and signal at zero. */
  lemma ConstantMacdIsZero(x: seq<real>, c: real, t: nat)
    requires t < |x|
    requires forall i :: 0 <= i < |x| ==> x[i] == c
    ensures Macd(x)[t] == 0.0 && Signal(x)[t] == 0.0
  {
    ConstantEma(x, Alpha(FastSpan), c, t);
    ConstantEma(x, Alpha(SlowSpan), c, t);
    var m := Macd(x);
    forall i | 0 <= i < |m| ensures m[i] == 0.0 {
      ConstantEma(x, Alpha(FastSpan), c, i);
      ConstantEma(x, Alpha(SlowSpan), c, i);
    }
    ConstantEma(m, Alpha(SignalSpan), 0.0, t);
  }

  // ---------------------------------------------------------------- crossovers

  /** `a > b` on values that may be NaN: a comparison with NaN is false. */
  predicate Above(a: Option<real>, b: Option<real>)
  {
    a.Some? && b.Some? && a.value > b.value
  }

  /** `a <= b` on values that may be NaN. */
  predicate AtOrBelow(a: Option<real>, b: Option<real>)
  {
    a.Some? && b.Some? && a.value <= b.value
  }

  /**
   * `(a > b) & (a.shift(1) <= b.shift(1))`: the fast series is above the slow one
   * at row `t` and was at or below it the row before; the shifted row 0 is NaN.
   */
  predicate CrossedAt(a: seq<Option<real>>, b: seq<Option<real>>, t: nat)
    requires |a| == |b| && t < |a|
  {
    t >= 1 && Above(a[t], b[t]) && AtOrBelow(a[t - 1], b[t - 1])
  }

  function CrossFlags(a: seq<Option<real>>, b: seq<Option<real>>): (r: seq<bool>)
    requires |a| == |b|
    ensures |r| == |a|
  {
    seq(|a|, t requires 0 <= t < |a| => CrossedAt(a, b, t))
  }

  function Defined(s: seq<real>): (r: seq<Option<real>>)
    ensures |r| == |s|
  {
    seq(|s|, t requires 0 <= t < |s| => Some(s[t]))
  }

  const ShortWindow: nat := 5
  const LongWindow: nat := 10

  /** `detect_golden_cross`: SMA5 crossing above SMA10. */
  function SmaCrossFlags(x: seq<real>): (r: seq<bool>)
    ensures |r| == |x|
  {
    CrossFlags(Sma(x, ShortWindow), Sma(x, LongWindow))
  }

  /** `detect_macd_golden_cross`: MACD crossing above its signal line. */
  function MacdCrossFlags(x: seq<real>): (r: seq<bool>)
    ensures |r| == |x|
  {
    CrossFlags(Defined(Macd(x)), Defined(Signal(x)))
  }

  /** The SMA cross needs SMA10 on the previous row, so nothing crosses before row 10. */
  lemma NoSmaCrossBeforeRow10(x: seq<real>, t: nat)
    requires t < |x|
    ensures SmaCrossFlags(x)[t] ==> t >= 10
  {
  }

  /** A series of at most ten rows has no SMA crossover at all. */
  lemma ShortSeriesHasNoSmaCross(x: seq<real>)
    requires |x| <= 10
    ensures forall t :: 0 <= t < |x| ==> !SmaCrossFlags(x)[t]
  {
  }

  /** Row 0 of either screen never crosses: the shifted previous row is NaN. */
  lemma RowZeroNeverCrosses(x: seq<real>)
    requires |x| > 0
    ensures !SmaCrossFlags(x)[0] && !MacdCrossFlags(x)[0]
  {
  }

  /** A flat price series produces no SMA crossover: both averages equal the price. */
  lemma ConstantSeriesHasNoSmaCross(x: seq<real>, c: real, t: nat)
    requires t < |x|
    requires forall i :: 0 <= i < |x| ==> x[i] == c
    ensures !SmaCrossFlags(x)[t]
  {
    if t >= 9 {
      var s5 := x[t + 1 - 5..t + 1];
      var s10 := x[t + 1 - 10..t + 1];
      SumConstant(s5, c);
      SumConstant(s10, c);
      assert Sma(x, ShortWindow)[t] == Sma(x, LongWindow)[t];
    }
  }

  /** A flat price series produces no MACD crossover: MACD and signal are both zero throughout. */
  lemma ConstantSeriesHasNoMacdCross(x: seq<real>, c: real, t: nat)
    requires t < |x|
    requires forall i :: 0 <= i < |x| ==> x[i] == c
    ensures !MacdCrossFlags(x)[t]
  {
    ConstantMacdIsZero(x, c, t);
  }

  /** Without a warm-up period the MACD screen can fire as early as row 1. */
  lemma MacdCanCrossAtRow1()
    ensures MacdCrossFlags([0.0, 1.0])[1]
  {
    var x := [0.0, 1.0];
    var m := Macd(x);
    assert EmaAt(x, Alpha(FastSpan), 1) == 2.0 / 13.0;
    assert EmaAt(x, Alpha(SlowSpan), 1) == 2.0 / 27.0;
    assert m[0] == 0.0;
    assert m[1] == 2.0 / 13.0 - 2.0 / 27.0;
    var sig := Signal(x);
    assert sig[0] == EmaAt(m, Alpha(SignalSpan), 0) == 0.0;
    assert sig[1] == EmaAt(m, Alpha(SignalSpan), 1) == 0.2 * m[1];
    assert CrossedAt(Defined(m), Defined(sig), 1);
  }
}

=== FILE: intents.dfy ===
/**
 * The chat agent's intent classifier. Without a language model it looks for
 * keywords, trying search, reasoning, music and function-call words in that
 * order and falling back to chat. With a model it sends the input (prefixed by
 * the last three context messages) and trusts the intent the model names,
 * mapping unknown names and any failure to chat.
 */
module IntentClassifier {
  import opened Wrappers
  import opened Text
  import opened Keywords
  import opened ChatHistory

  datatype Intent = ChatIntent | Search | Reasoning | Music | Funcall

  /** The enum's string value. */
  function IntentValue(i: Intent): string
  {
    match i
    case ChatIntent => "chat"
    case Search => "search"
    case Reasoning => "reasoning"
    case Music => "music"
    case Funcall => "funcall"
  }

  /** `IntentType(s)`: the intent whose value is `s`, if any. */
  function ParseIntent(s: string): (r: Option<Intent>)
    ensures r.Some? ==> IntentValue(r.value) == s
    ensures r.None? ==> forall i: Intent :: IntentValue(i) != s
  {
    if s == "chat" then Some(ChatIntent)
    else if s == "search" then Some(Search)
    else if s == "reasoning" then Some(Reasoning)
    else if s == "music" then Some(Music)
    else if s == "funcall" then Some(Funcall)
    else None
  }

  /** Reading a value back gives the intent it was written from. */
  lemma IntentValueRoundTrip(i: Intent)
    ensures ParseIntent(IntentValue(i)) == Some(i)
  {
  }

  /**
   * `str.lower()` restricted to what matters here: ASCII capitals become small
   * letters. No other character lowercases to an ASCII letter that occurs in
   * an intent value, so equality with a value is decided the same way.
   */
  function AsciiLower(s: string): (r: string)
    ensures |r| == |s|
    ensures forall i :: 0 <= i < |s| ==> r[i] == if 'A' <= s[i] <= 'Z' then (s[i] as int + 32) as char else s[i]
  {
    if |s| == 0 then []
    else [if 'A' <= s[0] <= 'Z' then (s[0] as int + 32) as char else s[0]] + AsciiLower(s[1..])
  }

  /** The classifier's answer; `reasoning` and `entities` are not modelled. */
  datatype IntentResult = IntentResult(intent: Intent, confidence: real)

  const SearchKeywords: seq<string> := ["搜索", "查询", "查找", "找", "搜索一下", "查一下", "天气", "新闻", "股票"]
  const ReasoningKeywords: seq<string> := ["计算", "算", "求解", "推理", "分析", "为什么", "如何", "怎么"]
  const MusicKeywords: seq<string> := ["播放", "音乐", "歌曲", "听歌", "暂停", "下一首", "切歌"]
  const FuncallKeywords: seq<string> := ["打开", "关闭", "设置", "执行", "运行", "启动", "停止"]

  /** The keyword groups in the order the rules try them. */
  const Rules: seq<(Intent, seq<string>)> :=
    [(Search, SearchKeywords), (Reasoning, ReasoningKeywords), (Music, MusicKeywords), (Funcall, FuncallKeywords)]

  const RuleConfidence: real := 0.8
  const ChatConfidence: real := 0.7

  /**
   * `_rule_based_classify`. The source lowercases the input first; every
   * keyword is written in CJK characters, which have no case, so matching the
   * input itself decides the same.
   */
  function RuleBasedClassify(s: string): (r: IntentResult)
    ensures r.confidence == if r.intent == ChatIntent then ChatConfidence else RuleConfidence
    ensures 0.0 <= r.confidence <= 1.0
  {
    if AnyKeyword(s, SearchKeywords) then IntentResult(Search, RuleConfidence)
    else if AnyKeyword(s, ReasoningKeywords) then IntentResult(Reasoning, RuleConfidence)
    else if AnyKeyword(s, MusicKeywords) then IntentResult(Music, RuleConfidence)
    else if AnyKeyword(s, FuncallKeywords) then IntentResult(Funcall, RuleConfidence)
    else IntentResult(ChatIntent, ChatConfidence)
  }

  /** The rule classifier picks the first keyword group in `Rules` that occurs, and chat when none does. */
  lemma RuleBasedIsFirstMatch(s: string)
    ensures RuleBasedClassify(s).intent == FirstMatch(s, Rules).GetOr(ChatIntent)
    ensures RuleBasedClassify(s).intent == ChatIntent
            <==> forall j :: 0 <= j < |Rules| ==> !AnyKeyword(s, Rules[j].1)
  {
    var r1 := Rules[1..];
    var r2 := r1[1..];
    var r3 := r2[1..];
    assert Rules[0] == (Search, SearchKeywords) && r1[0] == (Reasoning, ReasoningKeywords);
    assert r2[0] == (Music, MusicKeywords) && r3 == [(Funcall, FuncallKeywords)] && r3[1..] == [];
    assert FirstMatch(s, Rules) == if AnyKeyword(s, SearchKeywords) then Some(Search) else FirstMatch(s, r1);
    assert FirstMatch(s, r1) == if AnyKeyword(s, ReasoningKeywords) then Some(Reasoning) else FirstMatch(s, r2);
    assert FirstMatch(s, r2) == if AnyKeyword(s, MusicKeywords) then Some(Music) else FirstMatch(s, r3);
    assert FirstMatch(s, r3) == if AnyKeyword(s, FuncallKeywords) then Some(Funcall) else None;
  }

  /** A rule answer names a group that occurs, and no group tried before it occurs. */
  lemma RuleBasedPriority(s: string)
    requires RuleBasedClassify(s).intent != ChatIntent
    ensures exists j :: 0 <= j < |Rules| && Rules[j].0 == RuleBasedClassify(s).intent
                        && AnyKeyword(s, Rules[j].1)
                        && forall k :: 0 <= k < j ==> !AnyKeyword(s, Rules[k].1)
  {
    RuleBasedIsFirstMatch(s);
    FirstMatchIsEarliest(s, Rules);
  }

  /** A weather question is a search even though it also asks "how" (a reasoning word). */
  lemma WeatherQuestionIsSearch()
    ensures RuleBasedClassify("你好，今天天气怎么样？") == IntentResult(Search, 0.8)
  {
    KeywordAt("你好，今天天气怎么样？", SearchKeywords, 6, 5);
  }

  lemma CalculationIsReasoning()
    ensures RuleBasedClassify("计算 1+1 等于多少") == IntentResult(Reasoning, 0.8)
  {
    NoKeyword("计算 1+1 等于多少", SearchKeywords);
    KeywordAt("计算 1+1 等于多少", ReasoningKeywords, 0, 0);
  }

  lemma PlayIsMusic()
    ensures RuleBasedClassify("播放一首歌") == IntentResult(Music, 0.8)
  {
    NoKeyword("播放一首歌", SearchKeywords);
    NoKeyword("播放一首歌", ReasoningKeywords);
    KeywordAt("播放一首歌", MusicKeywords, 0, 0);
  }

  lemma OpenIsFuncall()
    ensures RuleBasedClassify("打开灯") == IntentResult(Funcall, 0.8)
  {
    NoKeyword("打开灯", SearchKeywords);
    NoKeyword("打开灯", ReasoningKeywords);
    NoKeyword("打开灯", MusicKeywords);
    KeywordAt("打开灯", FuncallKeywords, 0, 0);
  }

  lemma GreetingIsChat()
    ensures RuleBasedClassify("你好") == IntentResult(ChatIntent, 0.7)
  {
    NoKeyword("你好", SearchKeywords);
    NoKeyword("你好", ReasoningKeywords);
    NoKeyword("你好", MusicKeywords);
    NoKeyword("你好", FuncallKeywords);
  }

  // ------------------------------------------------------------ the model path

  /** How many context messages accompany the input. */
  const ContextWindow: nat := 3

  /** `sep.join(parts)`, empty for no parts. */
  function JoinLines(parts: seq<string>, sep: string): string
  {
    if |parts| == 0 then "" else if |parts| == 1 then parts[0] else parts[0] + sep + JoinLines(parts[1..], sep)
  }

  function FormatMessage(m: ContextMessage): string
  {
    m.role + ": " + m.content
  }

  function FormatAll(ms: seq<ContextMessage>): (r: seq<string>)
    ensures |r| == |ms| && forall i :: 0 <= i < |ms| ==> r[i] == FormatMessage(ms[i])
  {
    seq(|ms|, i requires 0 <= i < |ms| => FormatMessage(ms[i]))
  }

  /** What the model is asked about: the input alone, or the last three messages and the input. */
  function FullInput(userInput: string, history: seq<ContextMessage>): string
  {
    if |history| == 0 then userInput
    else "对话上下文：\n" + JoinLines(FormatAll(SliceFrom(history, -(ContextWindow as int))), "\n")
         + "\n\n当前用户输入：" + userInput
  }

  /** Only the last three context messages reach the model. */
  lemma FullInputSeesLastThree(userInput: string, history: seq<ContextMessage>, older: seq<ContextMessage>)
    requires |history| >= ContextWindow
    ensures FullInput(userInput, older + history) == FullInput(userInput, history)
    ensures FullInput(userInput, history) == FullInput(userInput, Last(history, ContextWindow))
  {
    assert SliceFrom(older + history, -3) == history[|history| - 3..];
    assert SliceFrom(Last(history, 3), -3) == Last(history, 3) == history[|history| - 3..];
  }

  /** Without context the model sees the input as typed. */
  lemma NoContextNoPrefix(userInput: string)
    ensures FullInput(userInput, []) == userInput
  {
  }

  /**
   * What came back from the model, already taken out of its JSON: the call
   * raised or produced something unusable (no object, a non-string intent, a
   * confidence that is not a number), or an object with optional `intent` and
   * `confidence` fields.
   */
  datatype LlmReply = LlmFailed | LlmJson(intent: Option<string>, confidence: Option<real>)

  const FailureConfidence: real := 0.5
  const MissingConfidence: real := 0.5

  /**
   * `classify`: the rules when no model is configured; otherwise the model's
   * intent (unknown names read as chat) with its confidence as given, and chat
   * at 0.5 when anything fails.
   */
  function Classify(llm: Option<string -> LlmReply>, userInput: string, history: seq<ContextMessage>): (r: IntentResult)
    ensures llm.None? ==> r == RuleBasedClassify(userInput)
    ensures llm.Some? && llm.value(FullInput(userInput, history)).LlmFailed? ==> r == IntentResult(ChatIntent, 0.5)
    ensures llm.Some? && llm.value(FullInput(userInput, history)).LlmJson? ==>
              var reply := llm.value(FullInput(userInput, history));
              && r.confidence == reply.confidence.GetOr(0.5)
              && (r.intent == ChatIntent <==> ParseIntent(AsciiLower(reply.intent.GetOr(""))) in {None, Some(ChatIntent)})
              && (r.intent != ChatIntent ==> IntentValue(r.intent) == AsciiLower(reply.intent.GetOr("")))
  {
    if llm.None? then RuleBasedClassify(userInput)
    else
      match llm.value(FullInput(userInput, history))
      case LlmFailed => IntentResult(ChatIntent, FailureConfidence)
      case LlmJson(intent, confidence) =>
        IntentResult(ParseIntent(AsciiLower(intent.GetOr(""))).GetOr(ChatIntent), confidence.GetOr(MissingConfidence))
  }

  /** A named intent is accepted whatever its capitalisation. */
  lemma CapitalisedIntentAccepted(llm: string -> LlmReply, userInput: string)
    requires llm(userInput) == LlmJson(Some("MUSIC"), Some(0.9))
    ensures Classify(Some(llm), userInput, []) == IntentResult(Music, 0.9)
  {
    assert AsciiLower("MUSIC") == "music";
  }

  /** The model's confidence is passed through unchecked, even outside `[0, 1]`. */
  lemma ModelConfidenceUnclamped(llm: string -> LlmReply, userInput: string)
    requires llm(userInput) == LlmJson(Some("search"), Some(7.0))
    ensures Classify(Some(llm), userInput, []).confidence == 7.0
  {
  }
}

=== FILE: keywords.dfy ===
/**
 * Keyword rules as the chat agent's classifier and command parsers use them:
 * an input matches a group when it contains any of the group's keywords, and
 * a rule list picks the first group that matches.
 */
module Keywords {
  import opened Wrappers
  import opened Text

  /** `any(k in s for k in ks)`. */
  predicate AnyKeyword(s: string, ks: seq<string>)
  {
    exists i :: 0 <= i < |ks| && Contains(s, ks[i])
  }

  /** The label of the first rule whose keywords occur in `s`, if any. */
  function FirstMatch<L>(s: string, rules: seq<(L, seq<string>)>): (r: Option<L>)
    ensures r.None? <==> forall j :: 0 <= j < |rules| ==> !AnyKeyword(s, rules[j].1)
    decreases |rules|
  {
    if |rules| == 0 then None
    else if AnyKeyword(s, rules[0].1) then Some(rules[0].0)
    else
      var r := FirstMatch(s, rules[1..]);
      assert forall j :: 1 <= j < |rules| ==> rules[j] == rules[1..][j - 1];
      r
  }

  /** A match names a rule that fires, and no earlier rule fires. */
  lemma {:induction false} FirstMatchIsEarliest<L>(s: string, rules: seq<(L, seq<string>)>)
    requires FirstMatch(s, rules).Some?
    ensures exists j :: 0 <= j < |rules| && rules[j].0 == FirstMatch(s, rules).value
                        && AnyKeyword(s, rules[j].1)
                        && forall k :: 0 <= k < j ==> !AnyKeyword(s, rules[k].1)
    decreases |rules|
  {
    if !AnyKeyword(s, rules[0].1) {
      FirstMatchIsEarliest(s, rules[1..]);
      var j :| 0 <= j < |rules[1..]| && rules[1..][j].0 == FirstMatch(s, rules[1..]).value
               && AnyKeyword(s, rules[1..][j].1)
               && forall k :: 0 <= k < j ==> !AnyKeyword(s, rules[1..][k].1);
      assert rules[j + 1] == rules[1..][j];
      forall k | 0 <= k < j + 1 ensures !AnyKeyword(s, rules[k].1) {
        if k > 0 { assert rules[k] == rules[1..][k - 1]; }
      }
    } else {
      assert rules[0].0 == FirstMatch(s, rules).value;
    }
  }

  /** A group of one keyword matches exactly when that keyword occurs. */
  lemma OneKeyword(s: string, a: string)
    ensures AnyKeyword(s, [a]) <==> Contains(s, a)
  {
    assert [a][0] == a;
  }

  /** A group of two keywords matches exactly when either occurs. */
  lemma TwoKeywords(s: string, a: string, b: string)
    ensures AnyKeyword(s, [a, b]) <==> Contains(s, a) || Contains(s, b)
  {
    assert [a, b][0] == a && [a, b][1] == b;
  }

  /** A keyword whose first character does not occur in `s` cannot occur in `s`. */
  lemma {:induction false} AbsentByFirstChar(s: string, k: string)
    requires |k| > 0 && k[0] !in s
    ensures !Contains(s, k)
    decreases |s|
  {
    if |k| <= |s| {
      assert s[..|k|][0] == s[0];
    }
    if |s| > 0 {
      assert k[0] !in s[1..] by {
        assert forall c :: c in s[1..] ==> c in s;
      }
      AbsentByFirstChar(s[1..], k);
    }
  }

  /** No keyword of a group occurs when none of their first characters does. */
  lemma NoKeyword(s: string, ks: seq<string>)
    requires forall i :: 0 <= i < |ks| ==> |ks[i]| > 0 && ks[i][0] !in s
    ensures !AnyKeyword(s, ks)
  {
    forall i | 0 <= i < |ks| ensures !Contains(s, ks[i]) {
      AbsentByFirstChar(s, ks[i]);
    }
  }

  /** A keyword found at a known position makes the group match. */
  lemma KeywordAt(s: string, ks: seq<string>, i: nat, at: nat)
    requires i < |ks| && OccursAt(s, ks[i], at)
    ensures AnyKeyword(s, ks)
  {
    OccursImpliesContains(s, ks[i], at);
  }
}

=== FILE: lex_order.dfy ===
/**
 * The text order used for dates and codes. SQLite compares TEXT columns with
 * the BINARY collation (byte-wise on UTF-8, which is code-point order) and
 * Python compares `str` by code point, so one lexicographic order on
 * `seq<char>` serves both. On `YYYY-MM-DD` dates it is chronological order.
 */
module LexOrder {

  /** Strictly before, by code point, a proper prefix coming first. */
  predicate Lt(a: string, b: string)
  {
    if |a| == 0 then |b| > 0
    else if |b| == 0 then false
    else a[0] < b[0] || (a[0] == b[0] && Lt(a[1..], b[1..]))
  }

  predicate Le(a: string, b: string)
  {
    a == b || Lt(a, b)
  }

  lemma {:induction false} LtIrreflexive(a: string)
    ensures !Lt(a, a)
  {
    if |a| > 0 { LtIrreflexive(a[1..]); }
  }

  lemma {:induction false} LtTransitive(a: string, b: string, c: string)
    requires Lt(a, b) && Lt(b, c)
    ensures Lt(a, c)
  {
    if |a| > 0 && |b| > 0 && |c| > 0 && a[0] == b[0] && b[0] == c[0] {
      LtTransitive(a[1..], b[1..], c[1..]);
    }
  }

  lemma {:induction false} LtTrichotomy(a: string, b: string)
    ensures a == b || Lt(a, b) || Lt(b, a)
  {
    if |a| > 0 && |b| > 0 && a[0] == b[0] {
      LtTrichotomy(a[1..], b[1..]);
      if a[1..] == b[1..] {
        assert a == [a[0]] + a[1..] && b == [b[0]] + b[1..];
      }
    }
  }

  lemma LtAsymmetric(a: string, b: string)
    requires Lt(a, b)
    ensures !Lt(b, a)
  {
    if Lt(b, a) {
      LtTransitive(a, b, a);
      LtIrreflexive(a);
    }
  }

  /** `Le` is the reflexive closure of a strict total order. */
  lemma LeTotal(a: string, b: string)
    ensures Le(a, b) || Le(b, a)
    ensures Le(a, b) && Le(b, a) ==> a == b
    ensures Le(a, b) <==> !Lt(b, a)
  {
    LtTrichotomy(a, b);
    if Lt(a, b) { LtAsymmetric(a, b); }
    if Lt(b, a) { LtAsymmetric(b, a); }
    if a == b { LtIrreflexive(a); }
  }

  lemma LeTransitive(a: string, b: string, c: string)
    requires Le(a, b) && Le(b, c)
    ensures Le(a, c)
  {
    if Lt(a, b) && Lt(b, c) { LtTransitive(a, b, c); }
  }

  /** Every element strictly before the next: the shape of `ORDER BY date ASC` over unique dates. */
  predicate StrictlyAscending(s: seq<string>)
  {
    forall i, j :: 0 <= i < j < |s| ==> Lt(s[i], s[j])
  }

  /** In a strictly ascending sequence, comparing elements is comparing positions. */
  lemma AscendingIndexOrder(s: seq<string>, i: nat, j: nat)
    requires StrictlyAscending(s)
    requires i < |s| && j < |s|
    ensures Le(s[j], s[i]) <==> j <= i
  {
    if i < j {
      LtAsymmetric(s[i], s[j]);
      LtIrreflexive(s[i]);
      assert !Le(s[j], s[i]);
    }
  }

  predicate IsLeast(m: string, s: set<string>)
  {
    m in s && forall x :: x in s ==> Le(m, x)
  }

  predicate IsGreatest(m: string, s: set<string>)
  {
    m in s && forall x :: x in s ==> Le(x, m)
  }

  lemma {:induction false} LeastExists(s: set<string>)
    requires s != {}
    ensures exists m :: IsLeast(m, s)
    decreases |s|
  {
    var x :| x in s;
    if s == {x} {
      assert IsLeast(x, s);
    } else {
      LeastExists(s - {x});
      var m :| IsLeast(m, s - {x});
      LtTrichotomy(m, x);
      if Lt(x, m) {
        forall y | y in s
          ensures Le(x, y)
        {
          if y != x {
            assert Le(m, y);
            if y != m { LtTransitive(x, m, y); }
          }
        }
        assert IsLeast(x, s);
      } else {
        assert IsLeast(m, s);
      }
    }
  }

  lemma {:induction false} GreatestExists(s: set<string>)
    requires s != {}
    ensures exists m :: IsGreatest(m, s)
    decreases |s|
  {
    var x :| x in s;
    if s == {x} {
      assert IsGreatest(x, s);
    } else {
      GreatestExists(s - {x});
      var m :| IsGreatest(m, s - {x});
      LtTrichotomy(m, x);
      if Lt(m, x) {
        forall y | y in s
          ensures Le(y, x)
        {
          if y != x {
            assert Le(y, m);
            if y != m { LtTransitive(y, m, x); }
          }
        }
        assert IsGreatest(x, s);
      } else {
        assert IsGreatest(m, s);
      }
    }
  }

  lemma ExtremaUnique(s: set<string>)
    ensures forall m, m' :: IsLeast(m, s) && IsLeast(m', s) ==> m == m'
    ensures forall m, m' :: IsGreatest(m, s) && IsGreatest(m', s) ==> m == m'
  {
    forall m, m' | IsLeast(m, s) && IsLeast(m', s)
      ensures m == m'
    {
      LeTotal(m, m');
    }
    forall m, m' | IsGreatest(m, s) && IsGreatest(m', s)
      ensures m == m'
    {
      LeTotal(m, m');
    }
  }

  /** SQL `MIN` over a non-empty set of text values. */
  function Least(s: set<string>): (m: string)
    requires s != {}
    ensures IsLeast(m, s)
  {
    LeastExists(s);
    ExtremaUnique(s);
    var m :| IsLeast(m, s); m
  }

  /** SQL `MAX` over a non-empty set of text values. */
  function Greatest(s: set<string>): (m: string)
    requires s != {}
    ensures IsGreatest(m, s)
  {
    GreatestExists(s);
    ExtremaUnique(s);
    var m :| IsGreatest(m, s); m
  }

  /** `ORDER BY` over a finite set of distinct text values. */
  function Sorted(s: set<string>): (r: seq<string>)
    ensures StrictlyAscending(r)
    ensures |r| == |s|
    ensures forall x :: x in s <==> x in r
    decreases |s|
  {
    if s == {} then []
    else
      var m := Least(s);
      var rest := Sorted(s - {m});
      assert forall j :: 0 <= j < |rest| ==> Lt(m, rest[j]) by {
        forall j | 0 <= j < |rest| ensures Lt(m, rest[j]) {
          assert rest[j] in s - {m};
        }
      }
      [m] + rest
  }
}

=== FILE: main_board_checker.dfy ===
/**
 * Exchange-board classification of a security code such as `sh.600000`:
 * the board is decided by the leading digits of the part after the first dot.
 */
module MainBoardChecker {
  import opened Wrappers
  import opened Text

  datatype Board = Star | ChiNext | ShanghaiMain | ShenzhenMain | Unknown

  /** The label the source returns for each board. */
  function Label(b: Board): string
  {
    match b
    case Star => "科创板"
    case ChiNext => "创业板"
    case ShanghaiMain => "沪市主板"
    case ShenzhenMain => "深市主板"
    case Unknown => "未知"
  }

  /** `code.split(".")[1]` on a code without a dot. */
  datatype BoardError = IndexError

  /** `code.split(".")[1]`: the part between the first and the second dot. */
  function Segment(code: string): (r: Result<string, BoardError>)
    ensures r.Failure? <==> '.' !in code
  {
    var parts := Split(code, '.');
    if |parts| < 2 then Failure(IndexError)
    else Success(parts[1])
  }

  /** The chain of `startswith` tests, in the source's order. */
  function BoardOfSegment(seg: string): Board
  {
    if StartsWith(seg, "688") || StartsWith(seg, "689") then Star
    else if StartsWith(seg, "300") then ChiNext
    else if StartsWith(seg, "600") || StartsWith(seg, "601") || StartsWith(seg, "603") || StartsWith(seg, "605") then ShanghaiMain
    else if StartsWith(seg, "000") || StartsWith(seg, "001") || StartsWith(seg, "002") then ShenzhenMain
    else Unknown
  }

  /** `stock_board`. */
  function StockBoard(code: string): (r: Result<Board, BoardError>)
    ensures r.Failure? <==> '.' !in code
  {
    match Segment(code)
    case Failure(e) => Failure(e)
    case Success(seg) => Success(BoardOfSegment(seg))
  }

  /** `is_main_board`: the board is one of the two main boards (raises like `stock_board`). */
  function IsMainBoard(code: string): (r: Result<bool, BoardError>)
    ensures r.Failure? <==> '.' !in code
    ensures r.Success? ==> (r.value <==> StockBoard(code).value in {ShanghaiMain, ShenzhenMain})
  {
    match StockBoard(code)
    case Failure(e) => Failure(e)
    case Success(b) => Success(Label(b) in ["沪市主板", "深市主板"])
  }

  /** The seven main-board prefixes. */
  const MainPrefixes: set<string> := {"600", "601", "603", "605", "000", "001", "002"}

  /** Reference table: which board each three-digit prefix names; anything else is unknown. */
  const PrefixTable: map<string, Board> := map[
    "688" := Star, "689" := Star,
    "300" := ChiNext,
    "600" := ShanghaiMain, "601" := ShanghaiMain, "603" := ShanghaiMain, "605" := ShanghaiMain,
    "000" := ShenzhenMain, "001" := ShenzhenMain, "002" := ShenzhenMain]

  function TableBoard(seg: string): Board
  {
    if |seg| >= 3 && seg[..3] in PrefixTable then PrefixTable[seg[..3]] else Unknown
  }

  /** The `startswith` chain agrees with a lookup of the first three characters. */
  lemma BoardIsPrefixLookup(seg: string)
    ensures BoardOfSegment(seg) == TableBoard(seg)
  {
    if |seg| >= 3 {
      var p := seg[..3];
      assert forall q :: |q| == 3 ==> (StartsWith(seg, q) <==> p == q);
    } else {
      assert forall q :: |q| == 3 ==> !StartsWith(seg, q);
    }
  }

  /** Classification reads only the segment after the first dot: the exchange tag is ignored. */
  lemma {:induction false} TagIgnored(tag: string, seg: string)
    requires '.' !in tag && '.' !in seg
    ensures StockBoard(tag + "." + seg) == Success(TableBoard(seg))
  {
    var code := tag + "." + seg;
    assert code[|tag|] == '.';
    var i := FirstIndex(code, '.');
    assert i <= |tag| by {
      assert forall j :: 0 <= j < i ==> code[..i][j] == code[j];
    }
    assert i >= |tag| by {
      assert forall j :: 0 <= j < |tag| ==> code[j] == tag[j];
    }
    assert code[..|tag|] == tag;
    assert code[|tag| + 1..] == seg;
    assert Split(code, '.')[1] == seg;
    BoardIsPrefixLookup(seg);
  }

  /** A code counts as main board exactly when its segment starts with one of the seven main prefixes. */
  lemma MainBoardIffMainPrefix(code: string)
    requires '.' in code
    ensures IsMainBoard(code).value <==> (|Segment(code).value| >= 3 && Segment(code).value[..3] in MainPrefixes)
  {
    BoardIsPrefixLookup(Segment(code).value);
  }

  /** A concrete code: tag, dot, six digits. */
  lemma ExampleBoard(tag: string, seg: string, b: Board)
    requires tag in {"sh", "sz"}
    requires |seg| == 6 && '.' !in seg
    requires TableBoard(seg) == b
    ensures StockBoard(tag + "." + seg) == Success(b)
  {
    TagIgnored(tag, seg);
  }

  /** ChiNext-looking prefixes other than `300`, such as `301`, fall through to unknown. */
  lemma Prefix301IsUnknown()
    ensures StockBoard("sz.301001") == Success(Unknown)
    ensures IsMainBoard("sz.301001") == Success(false)
  {
    assert "301001"[..3] == "301";
    assert "sz.301001" == "sz" + "." + "301001";
    ExampleBoard("sz", "301001", Unknown);
  }

  lemma StarExample()
    ensures StockBoard("sh.688001") == Success(Star)
  {
    assert "688001"[..3] == "688";
    assert "sh.688001" == "sh" + "." + "688001";
    ExampleBoard("sh", "688001", Star);
  }

  lemma MainBoardExample()
    ensures IsMainBoard("sh.600000") == Success(true)
  {
    assert "600000"[..3] == "600";
    assert "sh.600000" == "sh" + "." + "600000";
    ExampleBoard("sh", "600000", ShanghaiMain);
  }

  /** A code without a dot raises instead of classifying. */
  lemma UndottedCodeRaises()
    ensures StockBoard("600000") == Failure(IndexError)
  {
    assert forall i :: 0 <= i < 6 ==> "600000"[i] != '.';
  }

  /** The classifier returns one of five distinct labels. */
  lemma LabelsDistinct(a: Board, b: Board)
    ensures Label(a) in {"科创板", "创业板", "沪市主板", "深市主板", "未知"}
    ensures Label(a) == Label(b) ==> a == b
  {
  }
}

=== FILE: retry.dfy ===
/**
 * `retry_on_failure`: call a function up to `max_retries` times, sleeping
 * `delay * (attempt + 1)` seconds after every failed attempt but the last,
 * and return the first success or re-raise the last failure. The function
 * is an oracle: `calls(k)` is what the `k`-th call (from 0) returns or raises.
 * Sleeping is recorded, not performed.
 */
module Retry {
  import opened Wrappers

  /** What `retry_on_failure` raises. */
  datatype RetryError =
    | Raised(message: string)   // the last attempt's exception, re-raised
    | RaiseNone                 // `raise None` when no attempt was made: a TypeError

  const MaxRetries: int := 3
  const RetryDelay: real := 2.0

  /** The first successful attempt among the first `n`, if any. */
  function FirstOk<T>(calls: nat -> Outcome<T>, n: nat): (r: Option<nat>)
    ensures r.Some? ==> r.value < n && calls(r.value).Ok? && forall k :: 0 <= k < r.value ==> calls(k).Err?
    ensures r.None? ==> forall k :: 0 <= k < n ==> calls(k).Err?
  {
    if n == 0 then None
    else
      var front := FirstOk(calls, n - 1);
      if front.Some? then front
      else if calls(n - 1).Ok? then Some(n - 1)
      else None
  }

  /** The result `retry_on_failure` returns or raises, stated over the attempts. */
  function RetrySpec<T>(calls: nat -> Outcome<T>, maxRetries: int): Result<T, RetryError>
  {
    if maxRetries <= 0 then Failure(RaiseNone)
    else
      match FirstOk(calls, maxRetries)
      case Some(k) => Success(calls(k).value)
      case None => Failure(Raised(calls(maxRetries - 1).message))
  }

  /** The number of calls made: up to and including the first success, else all of them. */
  function CallsMade<T>(calls: nat -> Outcome<T>, maxRetries: int): (n: nat)
    ensures maxRetries <= 0 ==> n == 0
    ensures maxRetries > 0 ==> 1 <= n <= maxRetries
  {
    if maxRetries <= 0 then 0
    else
      match FirstOk(calls, maxRetries)
      case Some(k) => k + 1
      case None => maxRetries
  }

  /** The linear backoff schedule: `delay * 1, delay * 2, ...`, one entry per sleep. */
  function Backoff(delay: real, n: nat): (r: seq<real>)
    ensures |r| == n
    ensures forall k :: 0 <= k < n ==> r[k] == delay * (k + 1) as real
    ensures delay > 0.0 ==> forall a, b :: 0 <= a < b < n ==> r[a] < r[b]
  {
    var r := seq(n, k requires 0 <= k < n => delay * (k + 1) as real);
    assert delay > 0.0 ==> forall a, b :: 0 <= a < b < n ==> r[a] < r[b] by {
      if delay > 0.0 {
        forall a, b | 0 <= a < b < n
          ensures r[a] < r[b]
        {
          assert r[b] - r[a] == delay * (b - a) as real;
        }
      }
    }
    r
  }

  /** The retry loop. */
  method RetryOnFailure<T>(calls: nat -> Outcome<T>, maxRetries: int, delay: real)
    returns (r: Result<T, RetryError>, callsMade: nat, sleeps: seq<real>)
    ensures r == RetrySpec(calls, maxRetries)
    ensures callsMade == CallsMade(calls, maxRetries)
    ensures sleeps == Backoff(delay, if callsMade == 0 then 0 else callsMade - 1)
  {
    callsMade := 0;
    sleeps := [];
    var attempt := 0;
    var last: Option<string> := None;
    while attempt < maxRetries
      invariant 0 <= attempt && (maxRetries > 0 ==> attempt < maxRetries)
      invariant maxRetries <= 0 ==> attempt == 0
      invariant callsMade == attempt
      invariant FirstOk(calls, attempt).None?
      invariant last.Some? <==> attempt > 0
      invariant attempt > 0 ==> last.value == calls(attempt - 1).message
      invariant sleeps == Backoff(delay, attempt)
      decreases maxRetries - attempt
    {
      var outcome := calls(attempt);
      callsMade := callsMade + 1;
      if outcome.Ok? {
        r := Success(outcome.value);
        assert FirstOk(calls, attempt + 1) == Some(attempt);
        assert FirstOk(calls, maxRetries) == Some(attempt);
        assert CallsMade(calls, maxRetries) == attempt + 1;
        return;
      }
      last := Some(outcome.message);
      if attempt < maxRetries - 1 {
        sleeps := sleeps + [delay * (attempt + 1) as real];
        assert forall k :: 0 <= k < attempt + 1 ==> sleeps[k] == Backoff(delay, attempt + 1)[k];
      } else {
        assert FirstOk(calls, attempt + 1).None?;
        assert attempt + 1 == maxRetries;
        assert CallsMade(calls, maxRetries) == maxRetries;
        r := Failure(Raised(outcome.message));
        return;
      }
      attempt := attempt + 1;
    }
    r := Failure(RaiseNone);
  }

  function SumReals(s: seq<real>): real
  {
    if |s| == 0 then 0.0 else SumReals(s[..|s| - 1]) + s[|s| - 1]
  }

  /** Linear, not exponential: `n` sleeps take `delay * n * (n + 1) / 2` seconds in all. */
  lemma BackoffTotal(delay: real, n: nat)
    ensures SumReals(Backoff(delay, n)) == delay * (n * (n + 1) / 2) as real
  {
    BackoffSum(delay, n);
    TriangleClosed(n);
  }

  /** `1 + 2 + ... + n`. */
  function Triangle(n: nat): nat
  {
    if n == 0 then 0 else Triangle(n - 1) + n
  }

  lemma {:induction false} BackoffSum(delay: real, n: nat)
    ensures SumReals(Backoff(delay, n)) == delay * Triangle(n) as real
  {
    if n > 0 {
      BackoffSum(delay, n - 1);
      var b := Backoff(delay, n);
      assert b[..n - 1] == Backoff(delay, n - 1);
      assert b[n - 1] == delay * n as real;
      Distribute(delay, Triangle(n - 1), n);
    }
  }

  lemma {:induction false} TriangleClosed(n: nat)
    ensures Triangle(n) == n * (n + 1) / 2
  {
    if n > 0 {
      TriangleClosed(n - 1);
      assert n * (n + 1) == (n - 1) * n + 2 * n;
    }
  }

  lemma Distribute(d: real, a: int, b: int)
    ensures d * (a + b) as real == d * a as real + d * b as real
  {
  }

  /** With the defaults, three failures cost two sleeps of 2 s and 4 s before the error. */
  lemma DefaultExhaustion<T>(calls: nat -> Outcome<T>)
    requires forall k :: calls(k).Err?
    ensures RetrySpec(calls, MaxRetries) == Failure(Raised(calls(2).message))
    ensures CallsMade(calls, MaxRetries) == 3
    ensures Backoff(RetryDelay, CallsMade(calls, MaxRetries) - 1) == [2.0, 4.0]
  {
  }
}

=== FILE: screening.dfy ===
/**
 * The two golden-cross screens: for every member of an index, read its bars
 * for the date window, flag crossover rows, and keep the stock when its last
 * crossover lies within the final `detect_days` rows; then backtest each
 * selected stock and keep the profitable ones for the e-mail report.
 */
module Screening {
  import opened Wrappers
  import opened LexOrder
  import opened Indicators
  import opened BarStore
  import opened MainBoardChecker

  /** The SMA(5)/SMA(10) screen or the MACD/signal screen. */
  datatype Screen = SmaScreen | MacdScreen

  /** `detect_days` as each `do_search` passes it. */
  function DetectDays(screen: Screen): int
  {
    match screen
    case SmaScreen => 3
    case MacdScreen => 7
  }

  /** The crossover column of `detect_golden_cross` / `detect_macd_golden_cross`. */
  function Flags(screen: Screen, closes: seq<real>): (r: seq<bool>)
    ensures |r| == |closes|
  {
    match screen
    case SmaScreen => SmaCrossFlags(closes)
    case MacdScreen => MacdCrossFlags(closes)
  }

  /**
   * One element of `stock_list`: `stock.get('code')` and the value of the
   * `name` key, the outer `None` standing for an absent key.
   */
  datatype Candidate = Candidate(code: Option<string>, name: Option<Option<string>>)

  /** The rows `get_index_stocks` returns always carry both keys. */
  function CandidateOf(e: IndexEntry): Candidate
  {
    Candidate(Some(e.code), Some(e.name))
  }

  /** `stock.get('name', code)`: the code only when the key is absent, even if the name is `None`. */
  function NameOf(c: Candidate): (r: Option<string>)
    ensures c.name.Some? ==> r == c.name.value
    ensures c.name.None? ==> r == c.code
  {
    match c.name
    case Some(n) => n
    case None => c.code
  }

  /** `if not code: continue`. */
  predicate HasCode(c: Candidate)
  {
    c.code.Some? && c.code.value != ""
  }

  /** One row of the detection frame. */
  datatype Hit = Hit(code: string, name: Option<string>, lastCrossDate: string)

  datatype ScreenError =
    | LookbackOutOfRange(code: string)   // `data['date'].iloc[-detect_days]` raised IndexError
    | UndottedCode(code: string)         // `is_main_board(code)` raised IndexError
    | BacktestRaised(code: string, message: string)  // `runstrat(data)` raised

  function Closes(rows: seq<Bar>): (r: seq<real>)
    ensures |r| == |rows|
  {
    seq(|rows|, i requires 0 <= i < |rows| => rows[i].values.close)
  }

  /** The position of the last `True` flag: `cross_points['date'].iloc[-1]`. */
  function LastTrue(flags: seq<bool>): (r: Option<nat>)
    ensures r.Some? ==> r.value < |flags| && flags[r.value]
                        && forall j :: r.value < j < |flags| ==> !flags[j]
    ensures r.None? <==> forall j :: 0 <= j < |flags| ==> !flags[j]
  {
    if |flags| == 0 then None
    else if flags[|flags| - 1] then Some(|flags| - 1)
    else LastTrue(flags[..|flags| - 1])
  }

  /** The row `iloc[-d]` selects out of `n`, or `None` where pandas raises IndexError. */
  function ILocFromEnd(n: nat, d: int): (r: Option<nat>)
    ensures 1 <= d <= n ==> r == Some(n - d)
    ensures d > n ==> r.None?
    ensures d <= 0 ==> (r.Some? <==> -d < n)
    ensures r.Some? ==> r.value < n
  {
    var k := -d;
    if k < 0 then (if n + k >= 0 then Some(n + k) else None)
    else if k < n then Some(k) else None
  }

  /** What the selection loop does with one stock. */
  datatype Decision = Skip | Select(hit: Hit) | Raise(error: ScreenError)

  /** The body of the `for stock in stock_list` loop of both `..._from_db` functions. */
  function Decide(screen: Screen, bars: BarTable, c: Candidate, start: string, end: string, d: int): Decision
  {
    if !HasCode(c) then Skip
    else DecideOnRows(screen, c.code.value, NameOf(c), QueryBars(bars, c.code.value, Some(start), Some(end)), d)
  }

  /** The same loop body once the stock's rows have been read. */
  function DecideOnRows(screen: Screen, code: string, name: Option<string>, rows: seq<Bar>, d: int): Decision
  {
    if |rows| == 0 then Skip
    else
      match LastTrue(Flags(screen, Closes(rows)))
      case None => Skip
      case Some(k) =>
        match ILocFromEnd(|rows|, d)
        case None => Raise(LookbackOutOfRange(code))
        case Some(j) =>
          if Le(rows[j].date, rows[k].date) then Select(Hit(code, name, rows[k].date)) else Skip
  }

  /** On rows with strictly ascending dates, the date test is the row-index test. */
  lemma RowWindow(screen: Screen, code: string, name: Option<string>, rows: seq<Bar>, d: int)
    requires StrictlyAscending(DatesOfBars(rows))
    requires 1 <= d
    ensures var k := LastTrue(Flags(screen, Closes(rows)));
            var dec := DecideOnRows(screen, code, name, rows, d);
            (dec.Select? <==> k.Some? && d <= |rows| && k.value >= |rows| - d)
            && (dec.Raise? <==> k.Some? && d > |rows|)
            && (dec.Select? ==> dec.hit == Hit(code, name, rows[k.value].date))
  {
    var k := LastTrue(Flags(screen, Closes(rows)));
    if |rows| > 0 && k.Some? {
      var j := ILocFromEnd(|rows|, d);
      if j.Some? {
        assert j.value == |rows| - d;
        var ds := DatesOfBars(rows);
        AscendingIndexOrder(ds, k.value, j.value);
        assert ds[j.value] == rows[j.value].date && ds[k.value] == rows[k.value].date;
      }
    }
  }

  /**
   * The date test is a row-index test: with strictly ascending dates the last
   * cross is kept exactly when it lies in the final `d` rows.
   */
  lemma SelectionIsRowWindow(screen: Screen, bars: BarTable, c: Candidate, start: string, end: string, d: int)
    requires HasCode(c)
    requires 1 <= d
    ensures var rows := QueryBars(bars, c.code.value, Some(start), Some(end));
            var k := LastTrue(Flags(screen, Closes(rows)));
            var dec := Decide(screen, bars, c, start, end, d);
            (dec.Select? <==> k.Some? && d <= |rows| && k.value >= |rows| - d)
            && (dec.Raise? <==> k.Some? && d > |rows|)
            && (dec.Select? ==> dec.hit == Hit(c.code.value, NameOf(c), rows[k.value].date))
  {
    RowWindow(screen, c.code.value, NameOf(c), QueryBars(bars, c.code.value, Some(start), Some(end)), d);
  }

  /** The frame the loop builds from a sequence of per-stock decisions; the first error aborts it. */
  function Collect(ds: seq<Decision>): (r: Result<seq<Hit>, ScreenError>)
    ensures r.Success? ==> |r.value| <= |ds|
    decreases |ds|
  {
    if |ds| == 0 then Success([])
    else
      var front := Collect(ds[..|ds| - 1]);
      if front.Failure? then front
      else
        match ds[|ds| - 1]
        case Skip => front
        case Select(h) => Success(front.value + [h])
        case Raise(e) => Failure(e)
  }

  /** The decisions of a whole list, in list order. */
  function MapDecide(f: Candidate -> Decision, list: seq<Candidate>): (r: seq<Decision>)
    ensures |r| == |list|
    ensures forall i :: 0 <= i < |list| ==> r[i] == f(list[i])
  {
    seq(|list|, i requires 0 <= i < |list| => f(list[i]))
  }

  /** `detect_golden_cross_from_db` / `detect_macd_golden_cross_from_db`: the frame of kept stocks, in list order. */
  function Detect(screen: Screen, bars: BarTable, list: seq<Candidate>, start: string, end: string, d: int): Result<seq<Hit>, ScreenError>
  {
    Collect(MapDecide(c => Decide(screen, bars, c, start, end, d), list))
  }

  /** The frame of concatenated decisions is the concatenation of the frames; the first error wins. */
  lemma {:induction false} CollectAppend(a: seq<Decision>, b: seq<Decision>)
    ensures Collect(a + b) == if Collect(a).Failure? then Collect(a)
                              else if Collect(b).Failure? then Collect(b)
                              else Success(Collect(a).value + Collect(b).value)
    decreases |b|
  {
    if |b| == 0 {
      assert a + b == a;
      if Collect(a).Success? { assert Collect(a).value + [] == Collect(a).value; }
    } else {
      var b' := b[..|b| - 1];
      var x := b[|b| - 1];
      CollectAppend(a, b');
      assert (a + b)[..|a + b| - 1] == a + b';
      assert (a + b)[|a + b| - 1] == x;
      var ra, rb', rab' := Collect(a), Collect(b'), Collect(a + b');
      assert Collect(a + b) == if rab'.Failure? then rab' else
        match x
        case Skip => rab'
        case Select(h) => Success(rab'.value + [h])
        case Raise(e) => Failure(e);
      assert Collect(b) == if rb'.Failure? then rb' else
        match x
        case Skip => rb'
        case Select(h) => Success(rb'.value + [h])
        case Raise(e) => Failure(e);
      if !ra.Failure? && !rb'.Failure? && x.Select? {
        assert ra.value + (rb'.value + [x.hit]) == (ra.value + rb'.value) + [x.hit];
      }
    }
  }

  /** Splitting the stock list splits the frame: the output keeps list order. */
  lemma DetectAppend(screen: Screen, bars: BarTable, a: seq<Candidate>, b: seq<Candidate>, start: string, end: string, d: int)
    ensures var ra := Detect(screen, bars, a, start, end, d);
            var rb := Detect(screen, bars, b, start, end, d);
            Detect(screen, bars, a + b, start, end, d)
            == if ra.Failure? then ra else if rb.Failure? then rb else Success(ra.value + rb.value)
  {
    var f := c => Decide(screen, bars, c, start, end, d);
    MapDecideAppend(f, a, b);
    CollectAppend(MapDecide(f, a), MapDecide(f, b));
  }

  lemma MapDecideAppend(f: Candidate -> Decision, a: seq<Candidate>, b: seq<Candidate>)
    ensures MapDecide(f, a + b) == MapDecide(f, a) + MapDecide(f, b)
  {
    var l, r := MapDecide(f, a + b), MapDecide(f, a) + MapDecide(f, b);
    assert |l| == |r|;
    forall i | 0 <= i < |l| ensures l[i] == r[i] {
      if i < |a| { assert (a + b)[i] == a[i]; } else { assert (a + b)[i] == b[i - |a|]; }
    }
  }

  /** A one-element list: skipped, kept, or the error it raised. */
  lemma DetectSingle(screen: Screen, bars: BarTable, c: Candidate, start: string, end: string, d: int)
    ensures var r := Detect(screen, bars, [c], start, end, d);
            match Decide(screen, bars, c, start, end, d)
            case Skip => r == Success([])
            case Select(h) => r == Success([h])
            case Raise(e) => r == Failure(e)
  {
    var f := c => Decide(screen, bars, c, start, end, d);
    var x := f(c);
    assert MapDecide(f, [c]) == [x];
    CollectSingle(x);
  }

  /** The frame of one decision. */
  lemma CollectSingle(x: Decision)
    ensures Collect([x]) == match x
                            case Skip => Success([])
                            case Select(h) => Success([h])
                            case Raise(e) => Failure(e)
  {
    assert [x][..0] == [];
    if x.Select? {
      assert [] + [x.hit] == [x.hit];
    }
  }

  /** Every hit of the frame is the decision of some element. */
  lemma {:induction false} CollectKeepsOnlySelected(ds: seq<Decision>)
    ensures Collect(ds).Success? ==> forall h :: h in Collect(ds).value ==> Select(h) in ds
    decreases |ds|
  {
    if |ds| > 0 {
      var front := ds[..|ds| - 1];
      CollectKeepsOnlySelected(front);
      assert forall x :: x in front ==> x in ds;
    }
  }

  /** The frame fails exactly when some decision raises. */
  lemma {:induction false} CollectFailsIffSomeRaise(ds: seq<Decision>)
    ensures Collect(ds).Failure? <==> exists i :: 0 <= i < |ds| && ds[i].Raise?
    decreases |ds|
  {
    if |ds| > 0 {
      var front := ds[..|ds| - 1];
      CollectFailsIffSomeRaise(front);
      if exists i :: 0 <= i < |front| && front[i].Raise? {
        var i :| 0 <= i < |front| && front[i].Raise?;
        assert ds[i] == front[i];
      }
      if exists i :: 0 <= i < |ds| && ds[i].Raise? {
        var i :| 0 <= i < |ds| && ds[i].Raise?;
        if i < |front| { assert front[i] == ds[i]; }
      }
    }
  }

  /** Every kept stock comes from the list with a `Select` decision. */
  lemma DetectKeepsOnlyCrossedStocks(screen: Screen, bars: BarTable, list: seq<Candidate>, start: string, end: string, d: int)
    ensures var r := Detect(screen, bars, list, start, end, d);
            r.Success? ==> forall h :: h in r.value ==>
              exists i :: 0 <= i < |list| && Decide(screen, bars, list[i], start, end, d) == Select(h)
  {
    var f := c => Decide(screen, bars, c, start, end, d);
    var ds := MapDecide(f, list);
    CollectKeepsOnlySelected(ds);
    var r := Collect(ds);
    if r.Success? {
      forall h | h in r.value
        ensures exists i :: 0 <= i < |list| && Decide(screen, bars, list[i], start, end, d) == Select(h)
      {
        var i :| 0 <= i < |ds| && ds[i] == Select(h);
        assert f(list[i]) == Select(h);
      }
    }
  }

  /** Detection fails exactly when some stock's lookback is out of range. */
  lemma DetectFailsIffSomeRaise(screen: Screen, bars: BarTable, list: seq<Candidate>, start: string, end: string, d: int)
    ensures Detect(screen, bars, list, start, end, d).Failure?
            <==> exists i :: 0 <= i < |list| && Decide(screen, bars, list[i], start, end, d).Raise?
  {
    var f := c => Decide(screen, bars, c, start, end, d);
    var ds := MapDecide(f, list);
    CollectFailsIffSomeRaise(ds);
    if exists i :: 0 <= i < |list| && Decide(screen, bars, list[i], start, end, d).Raise? {
      var i :| 0 <= i < |list| && Decide(screen, bars, list[i], start, end, d).Raise?;
      assert ds[i] == f(list[i]);
    }
  }

  /** A kept stock's hit carries the stock's own code and name. */
  lemma SelectedHit(screen: Screen, bars: BarTable, c: Candidate, start: string, end: string, d: int)
    requires Decide(screen, bars, c, start, end, d).Select?
    ensures HasCode(c)
    ensures Decide(screen, bars, c, start, end, d).hit.code == c.code.value
    ensures Decide(screen, bars, c, start, end, d).hit.name == NameOf(c)
  {
  }

  /** A selected stock was kept: it had a code, bars and a crossover. */
  lemma SelectedMeansCrossed(screen: Screen, bars: BarTable, c: Candidate, start: string, end: string, d: int)
    requires Decide(screen, bars, c, start, end, d).Select?
    ensures HasCode(c)
    ensures var rows := QueryBars(bars, c.code.value, Some(start), Some(end));
            |rows| > 0 && exists t :: 0 <= t < |rows| && Flags(screen, Closes(rows))[t]
  {
    var rows := QueryBars(bars, c.code.value, Some(start), Some(end));
    var k := LastTrue(Flags(screen, Closes(rows)));
    assert Flags(screen, Closes(rows))[k.value];
  }

  /** With `detect_days = 3` the SMA screen never raises: a crossover needs at least eleven rows. */
  lemma SmaDecisionNeverRaises(bars: BarTable, c: Candidate, start: string, end: string)
    ensures !Decide(SmaScreen, bars, c, start, end, DetectDays(SmaScreen)).Raise?
  {
    if HasCode(c) {
      var rows := QueryBars(bars, c.code.value, Some(start), Some(end));
      var k := LastTrue(Flags(SmaScreen, Closes(rows)));
      if k.Some? {
        NoSmaCrossBeforeRow10(Closes(rows), k.value);
      }
    }
  }

  lemma SmaDetectSucceeds(bars: BarTable, list: seq<Candidate>, start: string, end: string)
    ensures Detect(SmaScreen, bars, list, start, end, DetectDays(SmaScreen)).Success?
  {
    forall i | 0 <= i < |list|
      ensures !Decide(SmaScreen, bars, list[i], start, end, DetectDays(SmaScreen)).Raise?
    {
      SmaDecisionNeverRaises(bars, list[i], start, end);
    }
    DetectFailsIffSomeRaise(SmaScreen, bars, list, start, end, DetectDays(SmaScreen));
  }

  /** The MACD screen raises on a stock whose bars cross but are fewer than seven rows. */
  lemma MacdShortCrossedSeriesRaises(bars: BarTable, c: Candidate, start: string, end: string)
    requires HasCode(c)
    requires var rows := QueryBars(bars, c.code.value, Some(start), Some(end));
             |rows| < 7 && exists t :: 0 <= t < |rows| && MacdCrossFlags(Closes(rows))[t]
    ensures Decide(MacdScreen, bars, c, start, end, DetectDays(MacdScreen)).Raise?
  {
  }

  /**
   * The evidently intended lookback: the last `min(d, n)` rows of the stock,
   * so that a crossed series shorter than `detect_days` is examined whole
   * rather than raising. Wherever the source's decision does not raise, the
   * two agree.
   */
  function DecideClamped(screen: Screen, bars: BarTable, c: Candidate, start: string, end: string, d: int): (r: Decision)
    ensures 1 <= d ==> !r.Raise?
    ensures !Decide(screen, bars, c, start, end, d).Raise? ==> r == Decide(screen, bars, c, start, end, d)
  {
    if !HasCode(c) then Skip
    else
      var rows := QueryBars(bars, c.code.value, Some(start), Some(end));
      DecideOnRows(screen, c.code.value, NameOf(c), rows, if d <= |rows| then d else |rows|)
  }

  /** The detection run with the clamped lookback. */
  function DetectClamped(screen: Screen, bars: BarTable, list: seq<Candidate>, start: string, end: string, d: int): Result<seq<Hit>, ScreenError>
  {
    Collect(MapDecide(c => DecideClamped(screen, bars, c, start, end, d), list))
  }

  /**
   * With the clamped lookback the detection run never fails, for either
   * screen, and wherever the source's run succeeds it returns the same frame.
   */
  lemma ClampedDetectSucceeds(screen: Screen, bars: BarTable, list: seq<Candidate>, start: string, end: string, d: int)
    requires 1 <= d
    ensures DetectClamped(screen, bars, list, start, end, d).Success?
    ensures Detect(screen, bars, list, start, end, d).Success?
            ==> DetectClamped(screen, bars, list, start, end, d) == Detect(screen, bars, list, start, end, d)
  {
    var f := c => Decide(screen, bars, c, start, end, d);
    var g := c => DecideClamped(screen, bars, c, start, end, d);
    var ds, gs := MapDecide(f, list), MapDecide(g, list);
    CollectFailsIffSomeRaise(gs);
    if Detect(screen, bars, list, start, end, d).Success? {
      DetectFailsIffSomeRaise(screen, bars, list, start, end, d);
      forall i | 0 <= i < |list| ensures gs[i] == ds[i] {
        assert !Decide(screen, bars, list[i], start, end, d).Raise?;
      }
      assert gs == ds;
    }
  }

  // ---------------------------------------------------------------- do_search

  /** What `runstrat` reports for one stock; the backtest itself is outside the model. */
  datatype Backtest = Backtest(avgProfit: real, avgProfitRatio: real, winProb: real)

  /** `avg_profit_ratio >= 0.02 and win_prob >= 0.5`, both bounds inclusive. */
  predicate Profitable(b: Backtest)
  {
    b.avgProfitRatio >= 0.02 && b.winProb >= 0.5
  }

  /** One tuple of `content`. */
  datatype ContentRow = ContentRow(code: string, name: Option<string>, avgProfit: real, avgProfitRatio: real, winProb: real)

  /** The index types `do_search` walks, in the order of the `stocks` dict. */
  const IndexTypes: seq<string> := ["hs300", "zz500"]

  /** The backtest loop over the detection frame of one index type. */
  function Backtests(screen: Screen, bars: BarTable, hits: seq<Hit>, start: string, end: string,
                     runstrat: seq<Bar> -> Outcome<Backtest>): (r: Result<seq<ContentRow>, ScreenError>)
    ensures r.Success? ==> forall row :: row in r.value ==>
              Profitable(Backtest(row.avgProfit, row.avgProfitRatio, row.winProb))
              && exists h :: h in hits && h.code == row.code && h.name == row.name
    ensures r.Success? && screen == MacdScreen ==> forall row :: row in r.value ==> IsMainBoard(row.code) == Success(true)
    ensures r.Failure? ==> r.error.BacktestRaised? || (screen == MacdScreen && r.error.UndottedCode?)
    decreases |hits|
  {
    if |hits| == 0 then Success([])
    else
      var front := Backtests(screen, bars, hits[..|hits| - 1], start, end, runstrat);
      var h := hits[|hits| - 1];
      assert forall x :: x in hits[..|hits| - 1] ==> x in hits;
      if front.Failure? then front
      else if screen == MacdScreen && IsMainBoard(h.code).Failure? then Failure(UndottedCode(h.code))
      else if screen == MacdScreen && !IsMainBoard(h.code).value then front
      else
        var rows := QueryBars(bars, h.code, Some(start), Some(end));
        if |rows| == 0 then front
        else
          match runstrat(rows)
          case Err(e) => Failure(BacktestRaised(h.code, e))
          case Ok(b) =>
            if Profitable(b) then Success(front.value + [ContentRow(h.code, h.name, b.avgProfit, b.avgProfitRatio, b.winProb)])
            else front
  }

  /**
   * The back-test loop raises on this hit: its code has no dot (MACD only,
   * where the board is checked), or it passed the board filter, has rows,
   * and the simulator raises on them.
   */
  predicate BacktestRaises(screen: Screen, bars: BarTable, h: Hit, start: string, end: string,
                           runstrat: seq<Bar> -> Outcome<Backtest>)
  {
    if screen == MacdScreen && IsMainBoard(h.code).Failure? then true
    else if screen == MacdScreen && !IsMainBoard(h.code).value then false
    else
      var rows := QueryBars(bars, h.code, Some(start), Some(end));
      |rows| > 0 && runstrat(rows).Err?
  }

  /** One step of the loop: it fails when the earlier hits did or the last one raises. */
  lemma BacktestsStep(screen: Screen, bars: BarTable, hits: seq<Hit>, start: string, end: string,
                      runstrat: seq<Bar> -> Outcome<Backtest>)
    requires |hits| > 0
    ensures Backtests(screen, bars, hits, start, end, runstrat).Failure?
            <==> Backtests(screen, bars, hits[..|hits| - 1], start, end, runstrat).Failure?
                 || BacktestRaises(screen, bars, hits[|hits| - 1], start, end, runstrat)
  {
  }

  /** Some hit of the list satisfies `raises`. */
  predicate SomeRaises(raises: Hit -> bool, hits: seq<Hit>)
  {
    exists i :: 0 <= i < |hits| && raises(hits[i])
  }

  /** Extending a hit list by one: some hit raises iff an earlier one or the new one does. */
  lemma SomeRaisesStep(raises: Hit -> bool, hits: seq<Hit>)
    requires |hits| > 0
    ensures SomeRaises(raises, hits) <==> SomeRaises(raises, hits[..|hits| - 1]) || raises(hits[|hits| - 1])
  {
    var n := |hits| - 1;
    if SomeRaises(raises, hits) {
      var i :| 0 <= i < |hits| && raises(hits[i]);
      if i < n {
        assert hits[..n][i] == hits[i];
      }
    }
    if SomeRaises(raises, hits[..n]) {
      var i :| 0 <= i < n && raises(hits[..n][i]);
      assert hits[..n][i] == hits[i];
    }
  }

  /** Nothing catches inside the loop: it fails exactly when some hit raises. */
  lemma {:induction false} BacktestsFailIffSomeRaise(screen: Screen, bars: BarTable, hits: seq<Hit>, start: string, end: string,
                                                     runstrat: seq<Bar> -> Outcome<Backtest>)
    ensures Backtests(screen, bars, hits, start, end, runstrat).Failure?
            <==> SomeRaises(h => BacktestRaises(screen, bars, h, start, end, runstrat), hits)
    decreases |hits|
  {
    if |hits| > 0 {
      BacktestsFailIffSomeRaise(screen, bars, hits[..|hits| - 1], start, end, runstrat);
      BacktestsStep(screen, bars, hits, start, end, runstrat);
      SomeRaisesStep(h => BacktestRaises(screen, bars, h, start, end, runstrat), hits);
    }
  }

  /** One index type: skip an empty membership, else detect and backtest. */
  function SearchIndex(screen: Screen, table: IndexTable, bars: BarTable, t: string, start: string, end: string,
                       runstrat: seq<Bar> -> Outcome<Backtest>): Result<seq<ContentRow>, ScreenError>
  {
    var members := GetIndexStocks(table, t);
    if |members| == 0 then Success([])
    else
      var list := seq(|members|, i requires 0 <= i < |members| => CandidateOf(members[i]));
      var hits := Detect(screen, bars, list, start, end, DetectDays(screen));
      if hits.Failure? then Failure(hits.error)
      else Backtests(screen, bars, hits.value, start, end, runstrat)
  }

  /** `do_search` of either screen: the report rows of every index type, in order. */
  function DoSearch(screen: Screen, table: IndexTable, bars: BarTable, start: string, end: string,
                    runstrat: seq<Bar> -> Outcome<Backtest>, types: seq<string>): Result<seq<ContentRow>, ScreenError>
    decreases |types|
  {
    if |types| == 0 then Success([])
    else
      var front := DoSearch(screen, table, bars, start, end, runstrat, types[..|types| - 1]);
      if front.Failure? then front
      else
        var more := SearchIndex(screen, table, bars, types[|types| - 1], start, end, runstrat);
        if more.Failure? then more else Success(front.value + more.value)
  }

  /** Every reported stock passed both thresholds and is a member of one of the walked indexes. */
  lemma {:induction false} ReportedStocksQualify(screen: Screen, table: IndexTable, bars: BarTable, start: string, end: string,
                                                 runstrat: seq<Bar> -> Outcome<Backtest>, types: seq<string>)
    ensures var r := DoSearch(screen, table, bars, start, end, runstrat, types);
            r.Success? ==> forall row :: row in r.value ==>
              Profitable(Backtest(row.avgProfit, row.avgProfitRatio, row.winProb))
              && (exists t :: t in types && (t, row.code) in table)
              && (screen == MacdScreen ==> IsMainBoard(row.code) == Success(true))
    decreases |types|
  {
    if |types| > 0 {
      var ts := types[..|types| - 1];
      var t := types[|types| - 1];
      ReportedStocksQualify(screen, table, bars, start, end, runstrat, ts);
      var r := DoSearch(screen, table, bars, start, end, runstrat, types);
      var front := DoSearch(screen, table, bars, start, end, runstrat, ts);
      var more := SearchIndex(screen, table, bars, t, start, end, runstrat);
      if r.Success? {
        forall row | row in r.value
          ensures exists t' :: t' in types && (t', row.code) in table
        {
          if row in front.value {
            var t' :| t' in ts && (t', row.code) in table;
            assert t' in types;
          } else {
            assert row in more.value;
            MembersOfSearch(screen, table, bars, t, start, end, runstrat, row);
          }
        }
      }
    }
  }

  /** A row reported for one index type names a member of that index. */
  lemma MembersOfSearch(screen: Screen, table: IndexTable, bars: BarTable, t: string, start: string, end: string,
                        runstrat: seq<Bar> -> Outcome<Backtest>, row: ContentRow)
    requires var r := SearchIndex(screen, table, bars, t, start, end, runstrat); r.Success? && row in r.value
    ensures (t, row.code) in table
  {
    var members := GetIndexStocks(table, t);
    var list := seq(|members|, i requires 0 <= i < |members| => CandidateOf(members[i]));
    var d := DetectDays(screen);
    var hits := Detect(screen, bars, list, start, end, d);
    var h :| h in hits.value && h.code == row.code && h.name == row.name;
    DetectKeepsOnlyCrossedStocks(screen, bars, list, start, end, d);
    var i :| 0 <= i < |list| && Decide(screen, bars, list[i], start, end, d) == Select(h);
    SelectedHit(screen, bars, list[i], start, end, d);
    assert h.code == members[i].code;
  }

  /**
   * The SMA report can only fail through a raising back-test, since its
   * lookback is always in range and it checks no board; with a simulator
   * that never raises it always succeeds.
   */
  lemma {:induction false} SmaSearchSucceeds(table: IndexTable, bars: BarTable, start: string, end: string,
                                             runstrat: seq<Bar> -> Outcome<Backtest>, types: seq<string>)
    ensures var r := DoSearch(SmaScreen, table, bars, start, end, runstrat, types);
            r.Failure? ==> r.error.BacktestRaised?
    ensures (forall rows :: runstrat(rows).Ok?) ==> DoSearch(SmaScreen, table, bars, start, end, runstrat, types).Success?
    decreases |types|
  {
    if |types| > 0 {
      SmaSearchSucceeds(table, bars, start, end, runstrat, types[..|types| - 1]);
      var members := GetIndexStocks(table, types[|types| - 1]);
      var list := seq(|members|, i requires 0 <= i < |members| => CandidateOf(members[i]));
      SmaDetectSucceeds(bars, list, start, end);
      var hits := Detect(SmaScreen, bars, list, start, end, DetectDays(SmaScreen));
      BacktestsFailIffSomeRaise(SmaScreen, bars, hits.value, start, end, runstrat);
    }
  }

  // ---------------------------------------------------------------- report

  /** `format_email_content`: a fixed paragraph when nothing qualified, else an HTML table of the rows. */
  datatype Report = NoResults(text: string) | Table(rows: seq<ContentRow>)

  const NoResultsText: string := "<p>暂无选股结果。</p>"

  function FormatEmailContent(content: seq<ContentRow>): (r: Report)
    ensures r.NoResults? <==> |content| == 0
    ensures r.NoResults? ==> r.text == NoResultsText
    ensures r.Table? ==> r.rows == content
  {
    if |content| == 0 then NoResults(NoResultsText) else Table(content)
  }

  /**
   * What the daily email says about a successful search: the no-results
   * paragraph exactly when nothing qualified, else a table whose every row
   * is a profitable member of a walked index (main board for MACD).
   */
  lemma EmailedStocksQualify(screen: Screen, table: IndexTable, bars: BarTable, start: string, end: string,
                             runstrat: seq<Bar> -> Outcome<Backtest>, types: seq<string>)
    requires DoSearch(screen, table, bars, start, end, runstrat, types).Success?
    ensures var report := FormatEmailContent(DoSearch(screen, table, bars, start, end, runstrat, types).value);
            && (report.NoResults? <==> |DoSearch(screen, table, bars, start, end, runstrat, types).value| == 0)
            && (report.Table? ==> forall row :: row in report.rows ==>
                  && Profitable(Backtest(row.avgProfit, row.avgProfitRatio, row.winProb))
                  && (exists t :: t in types && (t, row.code) in table)
                  && (screen == MacdScreen ==> IsMainBoard(row.code) == Success(true)))
  {
    ReportedStocksQualify(screen, table, bars, start, end, runstrat, types);
  }
}

=== FILE: stock_router.dfy ===
/**
 * The decision logic of the stock router: the SMA backtest endpoint's
 * request validation, defaults, check order and response rounding, and the
 * argument checks of the MCP tool-call endpoint. The market-data query, the
 * backtest simulator and the tool implementations are oracles.
 */
module StockRouter {
  import opened Wrappers
  import opened Retry
  import opened BarStore
  import opened Screening

  // ---------------------------------------------------------------- SMA backtest

  /** The request body; absent optional fields are `None`. */
  datatype BacktestRequest = BacktestRequest(code: string, sma1: Option<int>, sma2: Option<int>, holdDays: Option<int>)

  const DefaultSma1: int := 5
  const DefaultSma2: int := 10
  const DefaultHoldDays: int := 21
  const MaxSma: int := 100
  const MaxHoldDays: int := 365
  /** The fewest rows a backtest accepts. */
  const MinRows: nat := 10

  predicate InBounds(v: Option<int>, hi: int)
  {
    v.None? || 1 <= v.value <= hi
  }

  /** The request model's field constraints, checked before the handler runs. */
  predicate RequestValid(q: BacktestRequest)
  {
    InBounds(q.sma1, MaxSma) && InBounds(q.sma2, MaxSma) && InBounds(q.holdDays, MaxHoldDays)
  }

  /** The strategy parameters after defaults are applied. */
  datatype Params = Params(sma1: int, sma2: int, holdDays: int)

  function Resolve(q: BacktestRequest): (p: Params)
    ensures q.sma1.Some? ==> p.sma1 == q.sma1.value
    ensures q.sma1.None? ==> p.sma1 == DefaultSma1
    ensures q.sma2.Some? ==> p.sma2 == q.sma2.value
    ensures q.sma2.None? ==> p.sma2 == DefaultSma2
    ensures q.holdDays.Some? ==> p.holdDays == q.holdDays.value
    ensures q.holdDays.None? ==> p.holdDays == DefaultHoldDays
  {
    Params(q.sma1.GetOr(DefaultSma1), q.sma2.GetOr(DefaultSma2), q.holdDays.GetOr(DefaultHoldDays))
  }

  /** A valid request's resolved parameters stay within the request bounds. */
  lemma ResolvedWithinBounds(q: BacktestRequest)
    requires RequestValid(q)
    ensures var p := Resolve(q);
            1 <= p.sma1 <= MaxSma && 1 <= p.sma2 <= MaxSma && 1 <= p.holdDays <= MaxHoldDays
  {
  }

  /** `10 ** n`. */
  function Pow10(n: nat): (r: nat)
    ensures r >= 1
  {
    if n == 0 then 1 else 10 * Pow10(n - 1)
  }

  /** The integer nearest to `y`, ties to the even one. */
  function RoundHalfEven(y: real): (n: int)
    ensures -0.5 <= n as real - y <= 0.5
    ensures y == y.Floor as real ==> n as real == y
    ensures n as real - y == 0.5 || n as real - y == -0.5 ==> n % 2 == 0
  {
    var f := y.Floor;
    var frac := y - f as real;
    if frac > 0.5 then f + 1
    else if frac < 0.5 then f
    else if f % 2 == 0 then f
    else f + 1
  }

  /** `x * p` is a whole number. */
  predicate WholeMultiple(x: real, p: real)
  {
    x * p == (x * p).Floor as real
  }

  /** A value that is a whole number of `10^-digits` steps. */
  predicate OnGrid(x: real, digits: nat)
  {
    WholeMultiple(x, Pow10(digits) as real)
  }

  /**
   * Python's `round(x, digits)` on the exact value: the nearest multiple of
   * `10^-digits`, at most half a step away, ties to the even multiple; a value
   * already on the grid is returned as is.
   */
  function Round(x: real, digits: nat): (r: real)
    ensures OnGrid(r, digits)
    ensures -0.5 <= (r - x) * Pow10(digits) as real <= 0.5
    ensures OnGrid(x, digits) ==> r == x
  {
    var p := Pow10(digits) as real;
    ScaleBack(x, p);
    RoundHalfEven(x * p) as real / p
  }

  /** Dividing the rounded multiple back by the scale. */
  lemma ScaleBack(x: real, p: real)
    requires p > 0.0
    ensures var r := RoundHalfEven(x * p) as real / p;
            && WholeMultiple(r, p)
            && -0.5 <= (r - x) * p <= 0.5
            && (WholeMultiple(x, p) ==> r == x)
  {
    var y := x * p;
    var n := RoundHalfEven(y);
    assert -0.5 <= n as real - y <= 0.5;
    assert WholeMultiple(x, p) ==> n as real == y;
    var r := n as real / p;
    assert r * p == n as real;
    assert (n as real).Floor == n;
    assert (r - x) * p == n as real - y;
  }

  /** What the endpoint sends back. */
  datatype BacktestResponse = BacktestResponse(
    code: string, avgProfit: real, avgProfitRatio: real, winProb: real,
    dataCount: nat, sma1: int, sma2: int, holdDays: int)

  datatype BacktestReply =
    | Done(response: BacktestResponse)
    | HttpError(status: int)

  /**
   * `sma_backtest`. `data` is the one-year query: a raised exception, `None`,
   * or the frame's rows; `runstrat` is the simulator, which may raise.
   */
  function SmaBacktest(q: BacktestRequest, data: Outcome<Option<seq<DailyRecord>>>,
                       runstrat: (seq<DailyRecord>, Params) -> Outcome<Backtest>): (r: BacktestReply)
    ensures !RequestValid(q) ==> r == HttpError(422)
    ensures r.Done? ==> RequestValid(q) && data.Ok? && data.value.Some?
                        && r.response.dataCount == |data.value.value| >= MinRows
                        && r.response.sma1 < r.response.sma2
                        && Params(r.response.sma1, r.response.sma2, r.response.holdDays) == Resolve(q)
    ensures r.Done? ==> var b := runstrat(data.value.value, Resolve(q));
                        && b.Ok? && r.response.code == q.code
                        && r.response.avgProfit == Round(b.value.avgProfit, 2)
                        && r.response.avgProfitRatio == Round(b.value.avgProfitRatio, 4)
                        && r.response.winProb == Round(b.value.winProb, 4)
    ensures (&& RequestValid(q) && data.Ok? && data.value.Some? && |data.value.value| >= MinRows
             && Resolve(q).sma1 >= Resolve(q).sma2) ==> r == HttpError(400)
    ensures (&& RequestValid(q) && data.Ok? && data.value.Some? && |data.value.value| >= MinRows
             && Resolve(q).sma1 < Resolve(q).sma2 && runstrat(data.value.value, Resolve(q)).Err?) ==> r == HttpError(500)
    ensures r.HttpError? ==> r.status in {422, 404, 400, 500}
  {
    if !RequestValid(q) then HttpError(422)
    else if data.Err? || data.value.None? || |data.value.value| == 0 then HttpError(404)
    else
      var rows := data.value.value;
      if |rows| < MinRows then HttpError(400)
      else
        var p := Resolve(q);
        if p.sma1 >= p.sma2 then HttpError(400)
        else
          match runstrat(rows, p)
          case Err(_) => HttpError(500)
          case Ok(b) =>
            Done(BacktestResponse(q.code, Round(b.avgProfit, 2), Round(b.avgProfitRatio, 4), Round(b.winProb, 4),
                                  |rows|, p.sma1, p.sma2, p.holdDays))
  }

  /** A backtest succeeds exactly when every check passes and the simulator returns. */
  lemma BacktestSucceedsIff(q: BacktestRequest, data: Outcome<Option<seq<DailyRecord>>>,
                            runstrat: (seq<DailyRecord>, Params) -> Outcome<Backtest>)
    ensures SmaBacktest(q, data, runstrat).Done?
            <==> RequestValid(q) && data.Ok? && data.value.Some? && |data.value.value| >= MinRows
                 && Resolve(q).sma1 < Resolve(q).sma2 && runstrat(data.value.value, Resolve(q)).Ok?
  {
  }

  /** The length check comes before the parameter check: a short series reports 400 for its length. */
  lemma ShortSeriesWinsOverBadParams(q: BacktestRequest, rows: seq<DailyRecord>,
                                     runstrat: (seq<DailyRecord>, Params) -> Outcome<Backtest>)
    requires RequestValid(q)
    requires 0 < |rows| < MinRows
    ensures SmaBacktest(q, Ok(Some(rows)), runstrat) == HttpError(400)
  {
  }

  /** No data, an empty frame or a failed query is 404, whatever the parameters. */
  lemma NoDataIsNotFound(q: BacktestRequest, data: Outcome<Option<seq<DailyRecord>>>,
                         runstrat: (seq<DailyRecord>, Params) -> Outcome<Backtest>)
    requires RequestValid(q)
    requires data.Err? || data.value.None? || |data.value.value| == 0
    ensures SmaBacktest(q, data, runstrat) == HttpError(404)
  {
  }

  /** With no parameters the backtest runs SMA(5)/SMA(10) held 21 days, and reports rounded figures. */
  lemma DefaultsApplied(code: string, rows: seq<DailyRecord>, runstrat: (seq<DailyRecord>, Params) -> Outcome<Backtest>)
    requires |rows| >= MinRows
    requires runstrat(rows, Params(5, 10, 21)).Ok?
    ensures var r := SmaBacktest(BacktestRequest(code, None, None, None), Ok(Some(rows)), runstrat);
            var b := runstrat(rows, Params(5, 10, 21)).value;
            r.Done? && r.response.sma1 == 5 && r.response.sma2 == 10 && r.response.holdDays == 21
            && r.response.avgProfit == Round(b.avgProfit, 2)
            && r.response.avgProfitRatio == Round(b.avgProfitRatio, 4)
            && r.response.winProb == Round(b.winProb, 4)
  {
  }

  /** Only `sma1 = 10` given: the default `sma2 = 10` is not larger, so the request is refused. */
  lemma Sma1AtDefaultSma2Refused(code: string, rows: seq<DailyRecord>, runstrat: (seq<DailyRecord>, Params) -> Outcome<Backtest>)
    requires |rows| >= MinRows
    ensures SmaBacktest(BacktestRequest(code, Some(10), None, None), Ok(Some(rows)), runstrat) == HttpError(400)
  {
  }

  // ---------------------------------------------------------------- MCP tool call

  datatype ToolRequest = ToolRequest(name: string, arguments: map<string, string>)

  /** A call the endpoint forwards to one of the three tools. */
  datatype ToolTarget =
    | StockData(code: string, startDate: string, endDate: string)
    | Hs300Stocks
    | Zz500Stocks

  datatype ToolResponse = ToolResponse(text: string, isError: bool)

  const MissingArguments: string := "缺少必需参数：code, start_date, end_date"
  const UnknownToolPrefix: string := "未知的工具："
  const CallFailedPrefix: string := "调用工具失败："

  predicate HasStockArguments(a: map<string, string>)
  {
    "code" in a && "start_date" in a && "end_date" in a
  }

  /** The tool a request names, or the error text that answers it without any call. */
  function Dispatch(q: ToolRequest): (r: Result<ToolTarget, string>)
    ensures r.Success? <==> (q.name == "get_stock_data" && HasStockArguments(q.arguments))
                            || q.name == "get_hs300_stocks" || q.name == "get_zz500_stocks"
    ensures r.Success? && r.value.StockData? ==>
              HasStockArguments(q.arguments) && r.value == StockData(q.arguments["code"], q.arguments["start_date"], q.arguments["end_date"])
    ensures r.Success? ==> && (r.value.StockData? <==> q.name == "get_stock_data")
                           && (r.value == Hs300Stocks <==> q.name == "get_hs300_stocks")
                           && (r.value == Zz500Stocks <==> q.name == "get_zz500_stocks")
    ensures r.Failure? ==> r.error == (if q.name == "get_stock_data" then MissingArguments else UnknownToolPrefix + q.name)
  {
    if q.name == "get_stock_data" then
      if !HasStockArguments(q.arguments) then Failure(MissingArguments)
      else Success(StockData(q.arguments["code"], q.arguments["start_date"], q.arguments["end_date"]))
    else if q.name == "get_hs300_stocks" then Success(Hs300Stocks)
    else if q.name == "get_zz500_stocks" then Success(Zz500Stocks)
    else Failure(UnknownToolPrefix + q.name)
  }

  /** `call_mcp_tool`; `tools(t)` is the success text of tool `t`, or the message of what it raised. */
  function CallMcpTool(q: ToolRequest, tools: ToolTarget -> Outcome<string>): (r: ToolResponse)
    ensures r.isError <==> Dispatch(q).Failure? || tools(Dispatch(q).value).Err?
    ensures Dispatch(q).Failure? ==> r.text == Dispatch(q).error
    ensures Dispatch(q).Success? && tools(Dispatch(q).value).Ok? ==> r.text == tools(Dispatch(q).value).value
    ensures Dispatch(q).Success? && tools(Dispatch(q).value).Err? ==> r.text == CallFailedPrefix + tools(Dispatch(q).value).message
  {
    match Dispatch(q)
    case Failure(text) => ToolResponse(text, true)
    case Success(t) =>
      match tools(t)
      case Ok(text) => ToolResponse(text, false)
      case Err(message) => ToolResponse(CallFailedPrefix + message, true)
  }

  /** The request a client sends to reach a tool: its name, and for stock data the three arguments. */
  function RequestFor(t: ToolTarget): ToolRequest
  {
    match t
    case StockData(code, startDate, endDate) =>
      ToolRequest("get_stock_data", map["code" := code, "start_date" := startDate, "end_date" := endDate])
    case Hs300Stocks => ToolRequest("get_hs300_stocks", map[])
    case Zz500Stocks => ToolRequest("get_zz500_stocks", map[])
  }

  /** Dispatch inverts the request encoding: every tool's own request reaches that tool. */
  lemma DispatchRoundTrip(t: ToolTarget)
    ensures Dispatch(RequestFor(t)) == Success(t)
  {
    if t.StockData? {
      var a := RequestFor(t).arguments;
      assert "code" in a && "start_date" in a && "end_date" in a;
    }
  }

  /** Extra arguments do not change where an accepted request goes. */
  lemma DispatchIgnoresExtraArguments(q: ToolRequest, extra: map<string, string>)
    requires Dispatch(q).Success?
    ensures Dispatch(ToolRequest(q.name, extra + q.arguments)) == Dispatch(q)
  {
  }

  /** A stock-data call missing any of its three arguments is an error, and no tool is called. */
  lemma MissingArgumentIsError(q: ToolRequest, tools: ToolTarget -> Outcome<string>, other: ToolTarget -> Outcome<string>)
    requires q.name == "get_stock_data" && !HasStockArguments(q.arguments)
    ensures CallMcpTool(q, tools) == ToolResponse(MissingArguments, true)
    ensures CallMcpTool(q, tools) == CallMcpTool(q, other)
  {
  }

  /** An unknown tool name is an error that names it. */
  lemma UnknownToolIsError(q: ToolRequest, tools: ToolTarget -> Outcome<string>)
    requires q.name !in {"get_stock_data", "get_hs300_stocks", "get_zz500_stocks"}
    ensures CallMcpTool(q, tools) == ToolResponse(UnknownToolPrefix + q.name, true)
  {
  }
}

=== FILE: text.dfy ===
/**
 * The handful of Python `str` operations the modelled code relies on:
 * `startswith`, `in`, `replace(k, "")`, `strip()` and `split(sep)`.
 */
module Text {

  /** `s.startswith(p)`. */
  predicate StartsWith(s: string, p: string)
  {
    |p| <= |s| && s[..|p|] == p
  }

  /** `k in s`: `k` occurs as a contiguous substring (the empty string occurs everywhere). */
  predicate Contains(s: string, k: string)
    decreases |s|
  {
    StartsWith(s, k) || (|s| > 0 && Contains(s[1..], k))
  }

  /** Occurrence at a position. */
  predicate OccursAt(s: string, k: string, i: int)
  {
    0 <= i && i + |k| <= |s| && s[i..i + |k|] == k
  }

  /** An occurrence at any position makes `Contains` hold. */
  lemma {:induction false} OccursImpliesContains(s: string, k: string, i: int)
    requires OccursAt(s, k, i)
    ensures Contains(s, k)
    decreases i
  {
    if i == 0 {
      assert s[..|k|] == k;
    } else {
      assert s[1..][i - 1..i - 1 + |k|] == s[i..i + |k|];
      OccursImpliesContains(s[1..], k, i - 1);
    }
  }

  /** And `Contains` always has a position to show for itself. */
  lemma {:induction false} ContainsWitness(s: string, k: string) returns (i: nat)
    requires Contains(s, k)
    ensures OccursAt(s, k, i)
    decreases |s|
  {
    if StartsWith(s, k) {
      i := 0;
    } else {
      var j := ContainsWitness(s[1..], k);
      assert s[1..][j..j + |k|] == s[j + 1..j + 1 + |k|];
      i := j + 1;
    }
  }

  /**
   * `s.replace(k, "")`: every non-overlapping occurrence of `k`, scanning from
   * the left, is deleted. Python leaves `s` unchanged for an empty `k`.
   */
  function RemoveAll(s: string, k: string): (r: string)
    ensures |r| <= |s|
    decreases |s|
  {
    if |k| == 0 then s
    else if |s| == 0 then s
    else if StartsWith(s, k) then RemoveAll(s[|k|..], k)
    else [s[0]] + RemoveAll(s[1..], k)
  }

  /** A leading word that does not occur again is removed by taking it off the front. */
  lemma RemoveLeadingWord(w: string, rest: string)
    requires |w| > 0 && !Contains(rest, w)
    ensures Contains(w + rest, w)
    ensures RemoveAll(w + rest, w) == rest
  {
    assert (w + rest)[..|w|] == w;
    assert (w + rest)[|w|..] == rest;
    RemoveAllAbsent(rest, w);
  }

  /** Removing a keyword that does not occur changes nothing. */
  lemma {:induction false} RemoveAllAbsent(s: string, k: string)
    requires !Contains(s, k)
    ensures RemoveAll(s, k) == s
    decreases |s|
  {
    if |k| > 0 && |s| > 0 {
      RemoveAllAbsent(s[1..], k);
      assert s == [s[0]] + s[1..];
    }
  }

  /** Every character kept by `RemoveAll` comes from the input. */
  lemma {:induction false} RemoveAllKeepsOnlyInputChars(s: string, k: string)
    ensures forall c :: c in RemoveAll(s, k) ==> c in s
    decreases |s|
  {
    if |k| > 0 && |s| > 0 {
      if StartsWith(s, k) {
        RemoveAllKeepsOnlyInputChars(s[|k|..], k);
      } else {
        RemoveAllKeepsOnlyInputChars(s[1..], k);
      }
    }
  }

  /** Python's `str.isspace()` characters: the characters `strip()` removes. */
  predicate IsSpace(c: char)
  {
    || c == ' ' || c == '\t' || c == '\n' || c == '\r' || c == '\U{000B}' || c == '\U{000C}'
    || ('\U{001C}' <= c <= '\U{001F}') || c == '\U{0085}' || c == '\U{00A0}' || c == '\U{1680}'
    || ('\U{2000}' <= c <= '\U{200A}') || c == '\U{2028}' || c == '\U{2029}' || c == '\U{202F}'
    || c == '\U{205F}' || c == '\U{3000}'
  }

  function LStrip(s: string): string
  {
    if |s| > 0 && IsSpace(s[0]) then LStrip(s[1..]) else s
  }

  function RStrip(s: string): string
  {
    if |s| > 0 && IsSpace(s[|s| - 1]) then RStrip(s[..|s| - 1]) else s
  }

  /** `s.strip()`: whitespace removed from both ends. */
  function Strip(s: string): string
  {
    RStrip(LStrip(s))
  }

  /** A string that neither starts nor ends with whitespace is its own strip. */
  lemma StripUnspaced(s: string)
    requires |s| > 0 && !IsSpace(s[0]) && !IsSpace(s[|s| - 1])
    ensures Strip(s) == s
  {
  }

  /** The stripped string is a slice of the input with no whitespace at either end. */
  lemma {:induction false} StripIsTrimmedSlice(s: string)
    ensures exists i, j :: && 0 <= i <= j <= |s| && Strip(s) == s[i..j]
                           && (forall k :: 0 <= k < i ==> IsSpace(s[k]))
                           && (forall k :: j <= k < |s| ==> IsSpace(s[k]))
    ensures |Strip(s)| > 0 ==> !IsSpace(Strip(s)[0]) && !IsSpace(Strip(s)[|Strip(s)| - 1])
    ensures (forall i :: 0 <= i < |s| ==> !IsSpace(s[i])) ==> Strip(s) == s
  {
    var i := LStripSlice(s);
    var l := s[i..];
    var j := RStripSlice(l);
    assert Strip(s) == l[..j] == s[i..i + j];
    assert forall k :: i + j <= k < |s| ==> s[k] == l[k - i];
    if forall i :: 0 <= i < |s| ==> !IsSpace(s[i]) {
      assert LStrip(s) == s by { if |s| > 0 { assert !IsSpace(s[0]); } }
      assert RStrip(s) == s by { if |s| > 0 { assert !IsSpace(s[|s| - 1]); } }
    }
  }

  lemma {:induction false} LStripSlice(s: string) returns (i: nat)
    ensures i <= |s| && LStrip(s) == s[i..]
    ensures forall k :: 0 <= k < i ==> IsSpace(s[k])
    ensures |LStrip(s)| > 0 ==> !IsSpace(LStrip(s)[0])
  {
    if |s| > 0 && IsSpace(s[0]) {
      var k := LStripSlice(s[1..]);
      i := k + 1;
      assert s[1..][k..] == s[i..];
      assert forall m :: 1 <= m < i ==> s[m] == s[1..][m - 1];
    } else {
      i := 0;
    }
  }

  lemma {:induction false} RStripSlice(s: string) returns (j: nat)
    ensures j <= |s| && RStrip(s) == s[..j]
    ensures forall k :: j <= k < |s| ==> IsSpace(s[k])
    ensures |RStrip(s)| > 0 ==> !IsSpace(RStrip(s)[|RStrip(s)| - 1])
    ensures |s| > 0 && !IsSpace(s[0]) ==> |RStrip(s)| > 0 && RStrip(s)[0] == s[0]
  {
    if |s| > 0 && IsSpace(s[|s| - 1]) {
      j := RStripSlice(s[..|s| - 1]);
      assert s[..|s| - 1][..j] == s[..j];
      assert forall m :: j <= m < |s| - 1 ==> s[m] == s[..|s| - 1][m];
    } else {
      j := |s|;
    }
  }

  /** `s.split(sep)` for a single-character separator: always at least one part. */
  function Split(s: string, sep: char): (parts: seq<string>)
    ensures |parts| >= 1
    ensures sep in s <==> |parts| >= 2
    ensures forall p :: p in parts ==> sep !in p
    decreases |s|
  {
    if sep !in s then [s]
    else
      var i := FirstIndex(s, sep);
      [s[..i]] + Split(s[i + 1..], sep)
  }

  function FirstIndex(s: string, c: char): (i: nat)
    requires c in s
    ensures i < |s| && s[i] == c && c !in s[..i]
  {
    if s[0] == c then 0
    else
      assert c in s[1..] by { var k :| 0 <= k < |s| && s[k] == c; assert s[1..][k - 1] == c; }
      var j := FirstIndex(s[1..], c);
      assert s[..j + 1] == [s[0]] + s[1..][..j];
      j + 1
  }

  /** The first separator ends the first part. */
  lemma SplitAtFirst(a: string, sep: char, b: string)
    requires sep !in a
    ensures Split(a + [sep] + b, sep) == [a] + Split(b, sep)
  {
    var s := a + [sep] + b;
    assert s[|a|] == sep;
    var i := FirstIndex(s, sep);
    assert s[..i] == a;
    assert s[i + 1..] == b;
  }

  /** `sep.join(parts)`. */
  function Join(parts: seq<string>, sep: char): string
    requires |parts| >= 1
  {
    if |parts| == 1 then parts[0] else parts[0] + [sep] + Join(parts[1..], sep)
  }

  /** Splitting loses nothing: joining the parts back gives the input. */
  lemma {:induction false} SplitJoinRoundTrip(s: string, sep: char)
    ensures Join(Split(s, sep), sep) == s
    decreases |s|
  {
    if sep in s {
      var i := FirstIndex(s, sep);
      SplitJoinRoundTrip(s[i + 1..], sep);
      var parts := Split(s, sep);
      assert parts[1..] == Split(s[i + 1..], sep);
      assert s == s[..i] + [sep] + s[i + 1..];
    }
  }
}

=== FILE: websocket_agent.dfy ===
/**
 * One WebSocket connection of the chat agent: each incoming frame is checked
 * against the connection's state machine and either refused with an error
 * response or handled (authenticate, register the device, chat, or take an
 * audio message), updating the machine and the shared chat store. A frame is
 * handled to completion before the next one; the agent, the audio store and
 * the transport are inputs.
 */
module WebSocketAgent {
  import opened Wrappers
  import opened ChatHistory
  import opened Workflows
  import opened AgentService
  import SM = ChatStateMachine

  /** The connection's state machine and the chat store it works on. */
  datatype Session = Session(machine: SM.Machine, service: Service)

  /**
   * The `data` object of a message: absent (read as `{}`), `null`, or an
   * object whose string-valued fields are given.
   */
  datatype Payload = NoPayload | NullPayload | Fields(fields: map<string, string>)

  /** A text frame after `json.loads`. */
  datatype Json =
    | Malformed                                       // `JSONDecodeError`
    | NotObject(typeName: string)                     // valid JSON, but not an object
    | Object(msgType: Option<string>, data: Payload)  // `type` (if a string) and `data`

  /** What `audio_service.save_audio` reported. */
  datatype AudioSave = Saved(filename: string) | SaveFailed(error: Option<string>)

  datatype Frame = TextFrame(json: Json) | BinaryFrame(save: AudioSave) | OtherFrame

  /** The `data` part of a response. */
  datatype ResponseData =
    | StateData(state: string)
    | RegisteredData(state: string, deviceId: string, historyCount: nat)
    | ChatData(response: string, intent: string, workflow: string, contextCount: nat)
    | AudioData(response: string, audioFile: string)

  datatype Response = Response(kind: string, status: string, message: string, data: ResponseData)

  /** The session after a frame, and what was sent back (nothing for an unrecognised frame). */
  datatype Turn = Turn(session: Session, response: Option<Response>)

  /** `agent_service.process(user_input, device_id, conversation_history)`. */
  type Agent = (string, Option<string>, seq<ContextMessage>) -> Reply

  /** The agent of the `AgentService` module, with its own workflow table. */
  function ServiceAgent(classify: Classifier, models: ModelWorkflows): Agent
  {
    (q: string, d: Option<string>, h: seq<ContextMessage>) => Process(classify, WorkflowMap, models, q, d, Some(h))
  }

  /** The connection invariant: a consistent machine, bounded histories, and a known device. */
  predicate Inv(s: Session)
  {
    && SM.Valid(s.machine)
    && AllBounded(s.service)
    && (s.machine.deviceId.Some? ==> s.machine.deviceId.value in s.service.histories)
  }

  function StateOf(s: Session): string
  {
    SM.StateValue(s.machine.state)
  }

  function ErrorResponse(kind: string, message: string, s: Session): Response
  {
    Response(kind, "error", message, StateData(StateOf(s)))
  }

  /** What `str()` of the `AttributeError` says when `.get` is called on `null`. */
  const NullGetMessage: string := "'NoneType' object has no attribute 'get'"

  /** The response when handling a message raised. */
  function RaisedResponse(message: string, s: Session): Response
  {
    ErrorResponse("error", "处理消息时出错: " + message, s)
  }

  function Refused(s: Session, r: Response): Turn
  {
    Turn(s, Some(r))
  }

  /** Only a non-empty string counts as given (`if not value`). */
  predicate Given(p: map<string, string>, key: string)
  {
    key in p && p[key] != ""
  }

  /** `handle_auth`: only from INIT, with a non-empty key that the store accepts. */
  function HandleAuth(s: Session, data: Payload): (t: Turn)
    ensures t.session.service == s.service
    ensures t.response.Some?
    ensures t.response.value.status == "success" <==>
              s.machine.state == SM.Init && data.Fields? && Given(data.fields, "api_key")
              && ValidateApiKey(s.service, data.fields["api_key"])
    ensures t.response.value.status == "success" ==>
              t.session.machine == SM.Authenticate(s.machine, data.fields["api_key"]).machine
    ensures t.response.value.status != "success" ==> t.session == s
  {
    if s.machine.state != SM.Init then
      Refused(s, ErrorResponse("error", "当前状态 " + StateOf(s) + " 无法进行认证", s))
    else if data.NullPayload? then
      Refused(s, RaisedResponse(NullGetMessage, s))
    else if !(data.Fields? && Given(data.fields, "api_key")) then
      Refused(s, ErrorResponse("auth", "缺少 API Key", s))
    else
      var key := data.fields["api_key"];
      if ValidateApiKey(s.service, key) then
        var m := SM.Authenticate(s.machine, key).machine;
        Turn(s.(machine := m), Some(Response("auth", "success", "API Key 验证成功，请提供 Device ID", StateData(SM.StateValue(m.state)))))
      else
        Refused(s, ErrorResponse("auth", "API Key 验证失败", s))
  }

  /**
   * `handle_register`: only from AUTHENTICATED, with a non-empty device id;
   * the device's history is created or reused, and the machine goes on to
   * CHATTING at once.
   */
  function HandleRegister(s: Session, data: Payload): (t: Turn)
    ensures t.response.Some?
    ensures t.response.value.status == "success" <==>
              s.machine.state == SM.Authenticated && data.Fields? && Given(data.fields, "device_id")
    ensures t.response.value.status == "success" ==>
              var d := data.fields["device_id"];
              && t.session.service == RegisterDevice(s.service, d).0
              && t.session.machine == s.machine.(state := SM.Chatting, deviceId := Some(d))
    ensures t.response.value.status != "success" ==> t.session == s
  {
    if s.machine.state != SM.Authenticated then
      Refused(s, ErrorResponse("error", "当前状态 " + StateOf(s) + " 无法注册设备", s))
    else if data.NullPayload? then
      Refused(s, RaisedResponse(NullGetMessage, s))
    else if !(data.Fields? && Given(data.fields, "device_id")) then
      Refused(s, ErrorResponse("register", "缺少 Device ID", s))
    else
      var d := data.fields["device_id"];
      var (service, history) := RegisterDevice(s.service, d);
      var m := SM.StartChatting(SM.RegisterDevice(s.machine, d).machine).machine;
      Turn(Session(m, service),
           Some(Response("register", "success", "Device ID 注册成功，可以开始聊天",
                         RegisteredData(SM.StateValue(m.state), d, |history.messages|))))
  }

  predicate CanChat(s: Session)
  {
    s.machine.state == SM.Ready || s.machine.state == SM.Chatting
  }

  /** The machine once a message has been taken: READY moves on to CHATTING. */
  function Chatting(m: SM.Machine): SM.Machine
  {
    if m.state == SM.Ready then SM.StartChatting(m).machine else m
  }

  /**
   * The shared tail of a text or audio message: store the user's message,
   * ask the agent with the device's recent context, store its reply.
   */
  function Converse(s: Session, user: Message, query: string, agent: Agent): (r: (Session, string, Reply, nat))
    requires AllBounded(s.service)
    ensures AllBounded(r.0.service)
  {
    var d := s.machine.deviceId;
    var service := SaveMessage(s.service, d, user);
    var context := GetConversationContext(service, d, DefaultContextLimit);
    var result := agent(query, d, context);
    var service' := SaveMessage(service, d, Message("assistant", result.reply, "text"));
    (Session(Chatting(s.machine), service'), result.reply, result, |context|)
  }

  /** `on_message`: only in READY or CHATTING, and only with content. */
  function OnMessage(s: Session, content: string, messageType: string, agent: Agent): (t: Turn)
    requires AllBounded(s.service)
    ensures t.response.Some?
    ensures t.response.value.status == "success" <==> CanChat(s) && content != ""
    ensures t.response.value.status != "success" ==> t.session == s
  {
    if !CanChat(s) then
      Refused(s, ErrorResponse("error", "当前状态 " + StateOf(s) + " 无法处理消息，请先完成认证和注册", s))
    else if content == "" then
      Refused(s, ErrorResponse("chat", "消息内容不能为空", s))
    else
      var (s', reply, result, count) := Converse(s, Message("user", content, messageType), content, agent);
      Turn(s', Some(Response("chat", "success", "消息已接收",
                             ChatData(reply, result.intent.GetOr("unknown"), result.workflow, count))))
  }

  const AudioSaveFailed: string := "保存语音文件失败"

  /** `on_audio`: only in READY or CHATTING; the saved file's name stands in for the spoken text. */
  function OnAudio(s: Session, save: AudioSave, agent: Agent): (t: Turn)
    requires AllBounded(s.service)
    ensures t.response.Some?
    ensures t.response.value.status == "success" <==> CanChat(s) && save.Saved?
    ensures t.response.value.status != "success" ==> t.session == s
    ensures CanChat(s) && save.SaveFailed? ==> t.response.value.message == save.error.GetOr(AudioSaveFailed)
  {
    if !CanChat(s) then
      Refused(s, ErrorResponse("error", "当前状态 " + StateOf(s) + " 不支持语音消息，请先完成认证和注册", s))
    else
      match save
      case SaveFailed(e) => Refused(s, ErrorResponse("chat", e.GetOr(AudioSaveFailed), s))
      case Saved(f) =>
        var query := "收到语音消息，文件: " + f;
        var (s', reply, _, _) := Converse(s, Message("user", f, "audio"), query, agent);
        Turn(s', Some(Response("chat", "success", "语音消息已接收", AudioData(reply, f))))
  }

  /** How an f-string shows the message type: Python's `None` when absent. */
  function ShowType(t: Option<string>): string
  {
    if t.Some? then t.value else "None"
  }

  /** `process_message`: dispatch on `type`; a `null` chat payload raises before any check. */
  function ProcessMessage(s: Session, msgType: Option<string>, data: Payload, agent: Agent): (t: Turn)
    requires AllBounded(s.service)
    ensures t.response.Some?
    ensures msgType !in {Some("auth"), Some("register"), Some("chat")} ==>
              t == Refused(s, ErrorResponse("error", "不支持的消息类型: " + ShowType(msgType), s))
  {
    if msgType == Some("auth") then HandleAuth(s, data)
    else if msgType == Some("register") then HandleRegister(s, data)
    else if msgType == Some("chat") then
      match data
      case NullPayload => Refused(s, RaisedResponse(NullGetMessage, s))
      case NoPayload => OnMessage(s, "", "text", agent)
      case Fields(f) =>
        OnMessage(s, if "content" in f then f["content"] else "",
                  if "message_type" in f then f["message_type"] else "text", agent)
    else Refused(s, ErrorResponse("error", "不支持的消息类型: " + ShowType(msgType), s))
  }

  /** One iteration of the receive loop of `start`. */
  function ProcessFrame(s: Session, frame: Frame, agent: Agent): (t: Turn)
    requires AllBounded(s.service)
    ensures frame.OtherFrame? <==> t.response.None?
  {
    match frame
    case OtherFrame => Turn(s, None)
    case BinaryFrame(save) => OnAudio(s, save, agent)
    case TextFrame(Malformed) => Refused(s, ErrorResponse("error", "消息格式错误，需要 JSON 格式", s))
    case TextFrame(NotObject(name)) => Refused(s, RaisedResponse("'" + name + "' object has no attribute 'get'", s))
    case TextFrame(Object(msgType, data)) => ProcessMessage(s, msgType, data, agent)
  }

  // ------------------------------------------------------------------ lemmas

  /** Every frame keeps the connection invariant. */
  lemma ProcessFramePreservesInv(s: Session, frame: Frame, agent: Agent)
    requires Inv(s)
    ensures Inv(ProcessFrame(s, frame, agent).session)
  {
    var t := ProcessFrame(s, frame, agent);
    if t.session != s {
      SM.QueriesMatchFields(s.machine);
    }
  }

  /** An error response never comes with a change: no state move, nothing stored. */
  lemma ErrorsChangeNothing(s: Session, frame: Frame, agent: Agent)
    requires AllBounded(s.service)
    requires ProcessFrame(s, frame, agent).response.Some?
    requires ProcessFrame(s, frame, agent).response.value.status == "error"
    ensures ProcessFrame(s, frame, agent).session == s
  {
  }

  /** Outside INIT an auth message is answered with a state error, before its data is looked at. */
  lemma AuthOnlyFromInit(s: Session, data: Payload, agent: Agent)
    requires AllBounded(s.service) && s.machine.state != SM.Init
    ensures var t := ProcessFrame(s, TextFrame(Object(Some("auth"), data)), agent);
            t.session == s && t.response == Some(ErrorResponse("error", "当前状态 " + StateOf(s) + " 无法进行认证", s))
  {
  }

  /** In INIT a missing or empty key is refused as an auth error; a valid key authenticates, an invalid one does not. */
  lemma AuthOutcomes(s: Session, key: string, agent: Agent)
    requires AllBounded(s.service) && s.machine.state == SM.Init
    ensures var t := ProcessFrame(s, TextFrame(Object(Some("auth"), Fields(map[]))), agent);
            t.session == s && t.response.value.kind == "auth" && t.response.value.message == "缺少 API Key"
    ensures var t := ProcessFrame(s, TextFrame(Object(Some("auth"), Fields(map["api_key" := key]))), agent);
            && (key != "" && key in s.service.validKeys ==>
                  t.session.machine == SM.Machine(SM.Authenticated, Some(key), s.machine.deviceId)
                  && t.response.value.status == "success")
            && (key !in s.service.validKeys ==> t.session == s && t.response.value.status == "error")
  {
  }

  /**
   * A successful registration ends in CHATTING, not READY, and leaves the
   * device with its earlier history, or with a new empty one.
   */
  lemma RegisterEndsChatting(s: Session, deviceId: string, agent: Agent)
    requires AllBounded(s.service) && s.machine.state == SM.Authenticated && deviceId != ""
    ensures var t := ProcessFrame(s, TextFrame(Object(Some("register"), Fields(map["device_id" := deviceId]))), agent);
            && t.session.machine.state == SM.Chatting
            && t.session.machine.deviceId == Some(deviceId)
            && deviceId in t.session.service.histories
            && (deviceId in s.service.histories ==> t.session.service == s.service)
            && (deviceId !in s.service.histories ==> t.session.service.histories[deviceId].messages == [])
  {
    var t := ProcessFrame(s, TextFrame(Object(Some("register"), Fields(map["device_id" := deviceId]))), agent);
    assert Given(map["device_id" := deviceId], "device_id");
  }

  /** A register message without a device id is refused and changes nothing. */
  lemma RegisterNeedsDevice(s: Session, agent: Agent)
    requires AllBounded(s.service) && s.machine.state == SM.Authenticated
    ensures var t := ProcessFrame(s, TextFrame(Object(Some("register"), Fields(map["device_id" := ""]))), agent);
            t.session == s && t.response == Some(ErrorResponse("register", "缺少 Device ID", s))
  {
  }

  /** Before registration, chat and audio are refused and nothing is stored. */
  lemma ChatNeedsRegistration(s: Session, content: string, save: AudioSave, agent: Agent)
    requires AllBounded(s.service) && !CanChat(s)
    ensures var t := ProcessFrame(s, TextFrame(Object(Some("chat"), Fields(map["content" := content]))), agent);
            t.session == s && t.response.value.kind == "error"
    ensures var t := ProcessFrame(s, BinaryFrame(save), agent);
            t.session == s && t.response.value.kind == "error"
  {
  }

  /** Empty content is refused and nothing is stored. */
  lemma EmptyContentRefused(s: Session, agent: Agent)
    requires AllBounded(s.service) && CanChat(s)
    ensures var t := ProcessFrame(s, TextFrame(Object(Some("chat"), Fields(map["content" := ""]))), agent);
            t.session == s && t.response == Some(ErrorResponse("chat", "消息内容不能为空", s))
  {
  }

  /** One exchange stores the user's message, then the reply to it, on the connection's device. */
  lemma ConverseAppends(s: Session, user: Message, query: string, agent: Agent)
    requires AllBounded(s.service)
    requires s.machine.deviceId.Some? && s.machine.deviceId.value in s.service.histories
    ensures var d := s.machine.deviceId.value;
            var h := s.service.histories[d];
            var context := GetConversationContext(SaveMessage(s.service, Some(d), user), Some(d), DefaultContextLimit);
            var result := agent(query, Some(d), context);
            var r := Converse(s, user, query, agent);
            && r.0.machine == Chatting(s.machine)
            && d in r.0.service.histories
            && r.0.service.histories[d].messages
               == Last(h.messages + [user, Message("assistant", result.reply, "text")], h.maxHistory)
            && (forall e :: e in s.service.histories && e != d ==>
                  e in r.0.service.histories && r.0.service.histories[e] == s.service.histories[e])
            && r.1 == result.reply && r.2 == result && r.3 == |context|
  {
    var d := s.machine.deviceId.value;
    var context := GetConversationContext(SaveMessage(s.service, Some(d), user), Some(d), DefaultContextLimit);
    SaveTwoMessages(s.service, d, user, Message("assistant", agent(query, Some(d), context).reply, "text"));
  }

  /**
   * A chat message appends exactly the user's message and then the agent's
   * reply to the device's history (as a bounded deque does), leaves every
   * other device alone, and leaves the machine CHATTING.
   */
  lemma ChatAppendsUserThenAssistant(s: Session, content: string, agent: Agent)
    requires Inv(s) && CanChat(s) && content != ""
    ensures var t := ProcessFrame(s, TextFrame(Object(Some("chat"), Fields(map["content" := content]))), agent);
            var d := s.machine.deviceId.value;
            var h := s.service.histories[d];
            var context := GetConversationContext(SaveMessage(s.service, Some(d), Message("user", content, "text")),
                                                  Some(d), DefaultContextLimit);
            var reply := agent(content, Some(d), context).reply;
            && t.session.machine.state == SM.Chatting
            && d in t.session.service.histories
            && t.session.service.histories[d].messages
               == Last(h.messages + [Message("user", content, "text"), Message("assistant", reply, "text")], h.maxHistory)
            && (forall e :: e in s.service.histories && e != d ==>
                  e in t.session.service.histories && t.session.service.histories[e] == s.service.histories[e])
            && t.response.Some?
            && t.response.value.data == ChatData(reply, agent(content, Some(d), context).intent.GetOr("unknown"),
                                                 agent(content, Some(d), context).workflow, |context|)
  {
    SM.QueriesMatchFields(s.machine);
    ChatFrameIsOnMessage(s, content, agent);
    ConverseAppends(s, Message("user", content, "text"), content, agent);
    assert Chatting(s.machine).state == SM.Chatting;
  }

  /** A chat frame that carries only content is handed to `on_message` as a text message. */
  lemma ChatFrameIsOnMessage(s: Session, content: string, agent: Agent)
    requires AllBounded(s.service)
    ensures ProcessFrame(s, TextFrame(Object(Some("chat"), Fields(map["content" := content]))), agent)
            == OnMessage(s, content, "text", agent)
  {
    var f := map["content" := content];
    assert "content" in f && f["content"] == content;
    assert "message_type" !in f;
  }

  /** The agent sees the user's new message as the newest entry of its context. */
  lemma AgentSeesNewMessage(s: Session, content: string)
    requires Inv(s) && CanChat(s) && content != ""
    requires s.service.histories[s.machine.deviceId.value].maxHistory > 0
    ensures var d := s.machine.deviceId.value;
            var context := GetConversationContext(SaveMessage(s.service, Some(d), Message("user", content, "text")),
                                                  Some(d), DefaultContextLimit);
            |context| > 0 && context[|context| - 1] == ContextMessage("user", content)
  {
    SM.QueriesMatchFields(s.machine);
    var d := s.machine.deviceId.value;
    var h := s.service.histories[d];
    var s1 := SaveMessage(s.service, Some(d), Message("user", content, "text"));
    var msgs := s1.histories[d].messages;
    assert |msgs| > 0 && msgs[|msgs| - 1] == Message("user", content, "text");
  }

  /** An unknown message type is answered with an error naming it, and changes nothing. */
  lemma UnknownTypeRefused(s: Session, msgType: string, data: Payload, agent: Agent)
    requires AllBounded(s.service) && msgType !in {"auth", "register", "chat"}
    ensures var t := ProcessFrame(s, TextFrame(Object(Some(msgType), data)), agent);
            t.session == s && t.response == Some(ErrorResponse("error", "不支持的消息类型: " + msgType, s))
  {
  }

  /** A `null` chat payload raises, whatever the state; the loop reports it and carries on. */
  lemma NullChatPayloadRaises(s: Session, agent: Agent)
    requires AllBounded(s.service)
    ensures ProcessFrame(s, TextFrame(Object(Some("chat"), NullPayload)), agent)
            == Refused(s, RaisedResponse(NullGetMessage, s))
  {
  }

  /** The frames of a full handshake, from a fresh connection. */
  function Handshake(key: string, deviceId: string): seq<Frame>
  {
    [TextFrame(Object(Some("auth"), Fields(map["api_key" := key]))),
     TextFrame(Object(Some("register"), Fields(map["device_id" := deviceId])))]
  }

  function RunFrames(s: Session, frames: seq<Frame>, agent: Agent): (r: Session)
    requires AllBounded(s.service)
    ensures AllBounded(r.service)
    decreases |frames|
  {
    if |frames| == 0 then s
    else
      ProcessFramePreservesAllBounded(s, frames[0], agent);
      RunFrames(ProcessFrame(s, frames[0], agent).session, frames[1..], agent)
  }

  lemma ProcessFramePreservesAllBounded(s: Session, frame: Frame, agent: Agent)
    requires AllBounded(s.service)
    ensures AllBounded(ProcessFrame(s, frame, agent).session.service)
  {
  }

  /** A fresh connection with an accepted key and a new device ends up CHATTING with an empty history. */
  lemma HandshakeStartsChat(service: Service, key: string, deviceId: string, agent: Agent)
    requires AllBounded(service) && key != "" && key in service.validKeys && deviceId != ""
    requires deviceId !in service.histories
    ensures var r := RunFrames(Session(SM.Initial(), service), Handshake(key, deviceId), agent);
            && r.machine == SM.Machine(SM.Chatting, Some(key), Some(deviceId))
            && Inv(r)
            && r.service.histories[deviceId].messages == []
  {
    var s0 := Session(SM.Initial(), service);
    var frames := Handshake(key, deviceId);
    assert Given(map["api_key" := key], "api_key");
    var s1 := ProcessFrame(s0, frames[0], agent).session;
    assert s1.machine == SM.Machine(SM.Authenticated, Some(key), None);
    RegisterEndsChatting(s1, deviceId, agent);
    var s2 := ProcessFrame(s1, frames[1], agent).session;
    assert frames[1..][1..] == [];
    assert RunFrames(s0, frames, agent) == RunFrames(s1, frames[1..], agent);
    assert RunFrames(s1, frames[1..], agent) == RunFrames(s2, frames[1..][1..], agent) == s2;
    assert deviceId in s2.service.histories && s2.service.histories[deviceId].messages == [];
  }

  /** Without a language model, the agent answers "打开灯" with the open command, whatever the context. */
  lemma ServiceAgentOpensLight(models: ModelWorkflows, d: Option<string>, h: seq<ContextMessage>)
    ensures var r := ServiceAgent(DefaultClassifier(None), models)("打开灯", d, h);
            r.reply == "已打开：灯" && r.intent == Some("funcall") && r.workflow == "funcall"
  {
    OpenLightEndToEnd(models, d, Some(h));
  }

  /** The chat response carries the agent's reply, and the reply is the newest stored message. */
  lemma ChatStoresAgentReply(s: Session, content: string, agent: Agent)
    requires Inv(s) && CanChat(s) && content != ""
    requires s.machine.deviceId.Some? && s.machine.deviceId.value in s.service.histories
    requires s.service.histories[s.machine.deviceId.value].maxHistory > 0
    ensures var t := ProcessFrame(s, TextFrame(Object(Some("chat"), Fields(map["content" := content]))), agent);
            var d := s.machine.deviceId.value;
            var context := GetConversationContext(SaveMessage(s.service, Some(d), Message("user", content, "text")),
                                                  Some(d), DefaultContextLimit);
            var r := agent(content, Some(d), context);
            && t.response.Some? && t.response.value.data.ChatData?
            && t.response.value.data.response == r.reply
            && t.response.value.data.intent == r.intent.GetOr("unknown")
            && t.response.value.data.workflow == r.workflow
            && d in t.session.service.histories
            && |t.session.service.histories[d].messages| > 0
            && Last(t.session.service.histories[d].messages, 1)[0] == Message("assistant", r.reply, "text")
  {
    var d := s.machine.deviceId.value;
    var h := s.service.histories[d];
    var user := Message("user", content, "text");
    var context := GetConversationContext(SaveMessage(s.service, Some(d), user), Some(d), DefaultContextLimit);
    var r := agent(content, Some(d), context);
    var t := ProcessFrame(s, TextFrame(Object(Some("chat"), Fields(map["content" := content]))), agent);
    ChatAppendsUserThenAssistant(s, content, agent);
    var assistant := Message("assistant", r.reply, "text");
    var xs := h.messages + [user, assistant];
    assert xs[|xs| - 1] == assistant;
    NewestKept(xs, h.maxHistory);
  }

  /** Without a language model, "打开灯" sent over a registered connection is answered and stored as "已打开：灯". */
  lemma OpenLightOverConnection(s: Session, models: ModelWorkflows)
    requires Inv(s) && CanChat(s)
    requires s.machine.deviceId.Some? && s.machine.deviceId.value in s.service.histories
    requires s.service.histories[s.machine.deviceId.value].maxHistory > 0
    ensures var t := ProcessFrame(s, TextFrame(Object(Some("chat"), Fields(map["content" := "打开灯"]))),
                                  ServiceAgent(DefaultClassifier(None), models));
            var d := s.machine.deviceId.value;
            && t.response.Some? && t.response.value.data.ChatData?
            && t.response.value.data.response == "已打开：灯"
            && t.response.value.data.intent == "funcall"
            && t.response.value.data.workflow == "funcall"
            && d in t.session.service.histories
            && |t.session.service.histories[d].messages| > 0
            && Last(t.session.service.histories[d].messages, 1)[0] == Message("assistant", "已打开：灯", "text")
  {
    var agent := ServiceAgent(DefaultClassifier(None), models);
    var d := s.machine.deviceId.value;
    var context := GetConversationContext(SaveMessage(s.service, Some(d), Message("user", "打开灯", "text")),
                                          Some(d), DefaultContextLimit);
    ServiceAgentOpensLight(models, Some(d), context);
    ChatStoresAgentReply(s, "打开灯", agent);
  }
}

=== FILE: workflows.dfy ===
/**
 * The two workflows of the chat agent that need no language model: the
 * function-call workflow (open, close, set, execute a device function) and
 * the music workflow (play, pause, next, previous). Each recognises its
 * command by keywords, tried in a fixed order, and answers with a template.
 */
module Workflows {
  import opened Wrappers
  import opened Text
  import opened Keywords

  /**
   * A workflow's result dictionary. `action`, `deviceId` and `query` are
   * `None` when the key is absent; `deviceId` holds `Some(None)` when the key
   * is present with a null value. `intent` and `intentConfidence` are added by
   * the agent after the workflow returns.
   */
  datatype Reply = Reply(
    success: bool,
    reply: string,
    workflow: string,
    action: Option<string>,
    deviceId: Option<Option<string>>,
    query: Option<string>,
    error: Option<string>,
    intent: Option<string>,
    intentConfidence: Option<real>)

  // ------------------------------------------------------------ function calls

  datatype FuncallAction = Open | Close | SetUp | Execute | UnknownFuncall

  function FuncallActionName(a: FuncallAction): string
  {
    match a
    case Open => "open"
    case Close => "close"
    case SetUp => "set"
    case Execute => "execute"
    case UnknownFuncall => "unknown"
  }

  /** The commands in the order they are tried. */
  const FuncallRules: seq<(FuncallAction, seq<string>)> :=
    [(Open, ["打开"]), (Close, ["关闭"]), (SetUp, ["设置"]), (Execute, ["执行", "运行"])]

  function FuncallActionOf(input: string): FuncallAction
  {
    if Contains(input, "打开") then Open
    else if Contains(input, "关闭") then Close
    else if Contains(input, "设置") then SetUp
    else if Contains(input, "执行") || Contains(input, "运行") then Execute
    else UnknownFuncall
  }

  /** The function-call command is the first rule whose word occurs, and unknown when none does. */
  lemma FuncallActionIsFirstMatch(input: string)
    ensures FuncallActionOf(input) == FirstMatch(input, FuncallRules).GetOr(UnknownFuncall)
  {
    var r1 := FuncallRules[1..];
    var r2 := r1[1..];
    var r3 := r2[1..];
    assert r3 == [(Execute, ["执行", "运行"])] && r3[1..] == [];
    assert FirstMatch(input, FuncallRules) == if AnyKeyword(input, ["打开"]) then Some(Open) else FirstMatch(input, r1);
    assert FirstMatch(input, r1) == if AnyKeyword(input, ["关闭"]) then Some(Close) else FirstMatch(input, r2);
    assert FirstMatch(input, r2) == if AnyKeyword(input, ["设置"]) then Some(SetUp) else FirstMatch(input, r3);
    assert FirstMatch(input, r3) == if AnyKeyword(input, ["执行", "运行"]) then Some(Execute) else None;
    OneKeyword(input, "打开");
    OneKeyword(input, "关闭");
    OneKeyword(input, "设置");
    TwoKeywords(input, "执行", "运行");
  }

  /** The text after the command word: every occurrence removed, then stripped. */
  function FuncallTarget(input: string, a: FuncallAction): string
  {
    match a
    case Open => Strip(RemoveAll(input, "打开"))
    case Close => Strip(RemoveAll(input, "关闭"))
    case Execute => Strip(RemoveAll(RemoveAll(input, "执行"), "运行"))
    case _ => input
  }

  /** `FuncallWorkflow.execute`: never fails; echoes the device and the query. */
  function FuncallExecute(input: string, deviceId: Option<string>): (r: Reply)
    ensures r.success && r.workflow == "funcall" && r.error.None?
    ensures r.action == Some(FuncallActionName(FuncallActionOf(input)))
    ensures r.deviceId == Some(deviceId) && r.query == Some(input)
    ensures r.intent.None? && r.intentConfidence.None?
  {
    var a := FuncallActionOf(input);
    var text :=
      match a
      case Open => "已打开：" + FuncallTarget(input, a)
      case Close => "已关闭：" + FuncallTarget(input, a)
      case SetUp => "正在设置：" + input
      case Execute => "正在执行：" + FuncallTarget(input, a)
      case UnknownFuncall => "收到功能调用请求：" + input;
    Reply(true, text, "funcall", Some(FuncallActionName(a)), Some(deviceId), Some(input), None, None, None)
  }

  /** The removal pass is a single one: removing the inner word of "打打开开" leaves "打开". */
  lemma SinglePassReplace()
    ensures FuncallExecute("打打开开", None).reply == "已打开：打开"
  {
    var s := "打打开开";
    assert StartsWith(s[1..], "打开");
    assert OccursAt(s, "打开", 1);
    OccursImpliesContains(s, "打开", 1);
    assert !StartsWith(s, "打开") by {
      assert s[..2][1] == '打' && "打开"[1] == '开';
    }
    assert RemoveAll(s, "打开") == "打开" by {
      assert RemoveAll(s[3..], "打开") == "开";
      assert RemoveAll(s[1..], "打开") == RemoveAll(s[3..], "打开");
    }
    StripUnspaced("打开");
  }

  /** "打开灯" opens the light and echoes the device. */
  lemma OpenLight(deviceId: Option<string>)
    ensures FuncallExecute("打开灯", deviceId) ==
            Reply(true, "已打开：灯", "funcall", Some("open"), Some(deviceId), Some("打开灯"), None, None, None)
  {
    OccursImpliesContains("打开灯", "打开", 0);
    assert RemoveAll("打开灯", "打开") == "灯" by {
      assert StartsWith("打开灯", "打开");
      assert RemoveAll("灯", "打开") == "灯";
    }
    StripUnspaced("灯");
  }

  lemma CloseAirConditioner()
    ensures FuncallExecute("关闭空调", None).reply == "已关闭：空调"
    ensures FuncallExecute("关闭空调", None).action == Some("close")
  {
    AbsentByFirstChar("关闭空调", "打开");
    OccursImpliesContains("关闭空调", "关闭", 0);
    assert RemoveAll("关闭空调", "关闭") == "空调" by {
      assert StartsWith("关闭空调", "关闭");
      AbsentByFirstChar("空调", "关闭");
      RemoveAllAbsent("空调", "关闭");
    }
    StripUnspaced("空调");
  }

  /**
   * "执行" followed by a task name (say "任务A") executes that task, provided
   * no earlier command word can occur and the name is already stripped.
   */
  lemma ExecuteTask(task: string)
    requires |task| > 0 && forall c :: c in task ==> c !in {'打', '关', '设', '执', '运'}
    requires !IsSpace(task[0]) && !IsSpace(task[|task| - 1])
    ensures FuncallExecute("执行" + task, None).reply == "正在执行：" + task
    ensures FuncallExecute("执行" + task, None).action == Some("execute")
  {
    var s := "执行" + task;
    assert '打' !in s && '关' !in s && '设' !in s;
    AbsentByFirstChar(s, "打开");
    AbsentByFirstChar(s, "关闭");
    AbsentByFirstChar(s, "设置");
    AbsentByFirstChar(task, "执行");
    RemoveLeadingWord("执行", task);
    AbsentByFirstChar(task, "运行");
    RemoveAllAbsent(task, "运行");
    StripUnspaced(task);
  }

  // ------------------------------------------------------------------- music

  datatype MusicAction = Play | Pause | NextTrack | PreviousTrack | UnknownMusic

  function MusicActionName(a: MusicAction): string
  {
    match a
    case Play => "play"
    case Pause => "pause"
    case NextTrack => "next"
    case PreviousTrack => "previous"
    case UnknownMusic => "unknown"
  }

  const MusicRules: seq<(MusicAction, seq<string>)> :=
    [(Play, ["播放", "听"]), (Pause, ["暂停"]), (NextTrack, ["下一首", "切歌"]), (PreviousTrack, ["上一首"])]

  function MusicActionOf(input: string): MusicAction
  {
    if Contains(input, "播放") || Contains(input, "听") then Play
    else if Contains(input, "暂停") then Pause
    else if Contains(input, "下一首") || Contains(input, "切歌") then NextTrack
    else if Contains(input, "上一首") then PreviousTrack
    else UnknownMusic
  }

  /** The music command is the first rule whose word occurs, and unknown when none does. */
  lemma MusicActionIsFirstMatch(input: string)
    ensures MusicActionOf(input) == FirstMatch(input, MusicRules).GetOr(UnknownMusic)
  {
    var r1 := MusicRules[1..];
    var r2 := r1[1..];
    var r3 := r2[1..];
    assert r3 == [(PreviousTrack, ["上一首"])] && r3[1..] == [];
    assert FirstMatch(input, MusicRules) == if AnyKeyword(input, ["播放", "听"]) then Some(Play) else FirstMatch(input, r1);
    assert FirstMatch(input, r1) == if AnyKeyword(input, ["暂停"]) then Some(Pause) else FirstMatch(input, r2);
    assert FirstMatch(input, r2) == if AnyKeyword(input, ["下一首", "切歌"]) then Some(NextTrack) else FirstMatch(input, r3);
    assert FirstMatch(input, r3) == if AnyKeyword(input, ["上一首"]) then Some(PreviousTrack) else None;
    TwoKeywords(input, "播放", "听");
    OneKeyword(input, "暂停");
    TwoKeywords(input, "下一首", "切歌");
    OneKeyword(input, "上一首");
  }

  /**
   * The evidently intended reading: "暂停" checked before the play words, so
   * that "暂停播放" pauses. It differs from the source only on inputs holding
   * both "暂停" and a play word, which the source reads as play.
   */
  function MusicActionIntended(input: string): (r: MusicAction)
    ensures r != MusicActionOf(input)
            <==> Contains(input, "暂停") && (Contains(input, "播放") || Contains(input, "听"))
    ensures r != MusicActionOf(input) ==> r == Pause && MusicActionOf(input) == Play
  {
    if Contains(input, "暂停") then Pause
    else if Contains(input, "播放") || Contains(input, "听") then Play
    else if Contains(input, "下一首") || Contains(input, "切歌") then NextTrack
    else if Contains(input, "上一首") then PreviousTrack
    else UnknownMusic
  }

  /** The song asked for: the input with every "播放", then every "听", removed, stripped. */
  function SongName(input: string): string
  {
    Strip(RemoveAll(RemoveAll(input, "播放"), "听"))
  }

  /** `MusicWorkflow.execute`: never fails; no device key in the result. */
  function MusicExecute(input: string): (r: Reply)
    ensures r.success && r.workflow == "music" && r.error.None?
    ensures r.action == Some(MusicActionName(MusicActionOf(input)))
    ensures r.deviceId.None? && r.query == Some(input)
    ensures r.intent.None? && r.intentConfidence.None?
  {
    var a := MusicActionOf(input);
    var text :=
      match a
      case Play => "正在播放：" + SongName(input)
      case Pause => "已暂停播放"
      case NextTrack => "已切换到下一首"
      case PreviousTrack => "已切换到上一首"
      case UnknownMusic => "收到音乐相关请求：" + input;
    Reply(true, text, "music", Some(MusicActionName(a)), None, Some(input), None, None, None)
  }

  /**
   * "播放" followed by a song name (say "周杰伦的歌") plays that song: the name
   * must not contain the play words and must not start or end with whitespace.
   */
  lemma PlaySong(song: string)
    requires |song| > 0 && '播' !in song && '听' !in song
    requires !IsSpace(song[0]) && !IsSpace(song[|song| - 1])
    ensures MusicExecute("播放" + song).reply == "正在播放：" + song
    ensures MusicExecute("播放" + song).action == Some("play")
  {
    AbsentByFirstChar(song, "播放");
    RemoveLeadingWord("播放", song);
    AbsentByFirstChar(song, "听");
    RemoveAllAbsent(song, "听");
    StripUnspaced(song);
  }

  lemma NextSong()
    ensures MusicExecute("下一首").reply == "已切换到下一首"
    ensures MusicExecute("下一首").action == Some("next")
  {
    AbsentByFirstChar("下一首", "播放");
    AbsentByFirstChar("下一首", "听");
    AbsentByFirstChar("下一首", "暂停");
    OccursImpliesContains("下一首", "下一首", 0);
  }

  /** Under the intended reading "暂停播放" pauses, as the workflow's tests expect. */
  lemma PausePlaybackPauses()
    ensures MusicActionIntended("暂停播放") == Pause
    ensures MusicActionOf("暂停播放") == Play
  {
    OccursImpliesContains("暂停播放", "暂停", 0);
    OccursImpliesContains("暂停播放", "播放", 2);
  }

  /**
   * "暂停播放" ("pause playback") is read as a command to play a song named
   * "暂停" ("pause"), because play is tried before pause.
   */
  lemma PausePlaybackReadsAsPlay()
    ensures MusicActionOf("暂停播放") == Play
    ensures MusicExecute("暂停播放").reply == "正在播放：暂停"
  {
    var s := "暂停播放";
    OccursImpliesContains(s, "播放", 2);
    assert RemoveAll(s, "播放") == "暂停" by {
      assert !StartsWith(s, "播放") by {
        assert s[..2][0] == '暂' && "播放"[0] == '播';
      }
      assert s[1..] == "停播放" && !StartsWith(s[1..], "播放");
      assert s[2..] == "播放" && StartsWith(s[2..], "播放");
      assert s[2..][2..] == "";
    }
    assert RemoveAll("暂停", "听") == "暂停" by {
      AbsentByFirstChar("暂停", "听");
      RemoveAllAbsent("暂停", "听");
    }
    StripUnspaced("暂停");
  }
}

=== FILE: wrappers.dfy ===
/** Failure-compatible wrappers shared by every module of the model. */
module Wrappers {

  /** A value that may be absent: Python's `None` versus a present value. */
  datatype Option<+T> = None | Some(value: T) {
    function GetOr(default: T): T
    {
      match this
      case Some(v) => v
      case None => default
    }
  }

  /** The outcome of one call that may raise: a value or the exception it raised. */
  datatype Result<+T, +E> = Success(value: T) | Failure(error: E) {
    predicate IsFailure() { Failure? }
  }

  /** One call of a function that may raise: its value or the message of what it raised. */
  datatype Outcome<+T> = Ok(value: T) | Err(message: string)
}
